=== FILE: README.md ===
# A Dafny model of SampiLib/Value's observable cells

SampiLib/Value is a small reactive-value library. Its core is the observable
cell `Value`: it holds one value, passes every write through a limiter, keeps
an ordered list of listeners, and fires a demand hook (`onListener`) when the
list appears or disappears. On top of `Value` sit three kinds of derived cell:

- `ValueAsync`, whose value comes from a remote side through a one-shot
  fetch or a subscription cycle;
- `ValueMulti`, an aggregate computed from a list of source cells, with
  `ValueSum` and `ValueAverage` as its numeric reductions;
- `ValueArray`, an array cell whose in-place changes are announced to array
  listeners as `(index, amount, values)`.

The model is functional. Every cell is an immutable record. Every operation is
a pure step that returns the new record and a trace of what it called, in
order. Listeners are opaque identities, each with a fixed "throws" flag.
`console.warn` becomes a `Warning` trace entry. The remote side of
`ValueAsync` becomes trace entries: `Fetch` for the one-shot getter, `Push` for
the setter, and `Setup` and `Cleanup` for the cycle. A `ValueMulti` and its
sources form one world record. The aggregate's subscription closure on source
`i` is the listener `Feed(epoch, i)`, and a call of that closure runs the
aggregate's callback.

Modules:

| file | module | models |
|---|---|---|
| wrappers.dfy | `Wrappers` | `undefined` as `Option`, and "is it a function" arguments |
| js_number.dfy | `JsNumber` | JavaScript numbers as reals plus `NaN` |
| js_array.dfy | `JsArray` | `indexOf`, `splice` with its clamping, assignment past the end |
| value.dfy | `ValueCell` | src/value.js |
| value_async.dfy | `ValueAsync` | src/valueAsync.js |
| value_multi.dfy | `ValueMulti` | src/valueMulti.js |
| value_number.dfy | `ValueNumber` | src/valueNumber.js, alone and inside a `ValueMulti` world |
| value_array.dfy | `ValueArray` | src/valueArray.js |

Main results:

- Over any run of registrations, the demand hooks a cell fires are exactly
  the changes of whether it has listeners, so they strictly alternate
  (`ValueCell.DemandHooksAlternate`).
- Any number of concurrent reads of an empty `ValueAsync` trigger at most one
  fetch. That fetch's answer resolves every read, in order
  (`ValueAsync.ReadsShareOneFetch`, `ValueAsync.OneFetchAnswersAllReaders`).
- The aggregate invariant `ValueMulti.Valid` is kept by every operation,
  with the corrected `values` setter that cuts the buffer (see Findings); the
  setter as written breaks it. It says: coherent (subscribed once per source, buffer mirrors the sources,
  stored value is the reduction) while the aggregate has listeners, and
  resting (no subscriptions) without them.
- `get` on a valid aggregate always answers the reduction of what the sources
  hold (`ValueMulti.GetIsPolled`).
- With the corrected `set` and the corrected average write (see Findings), a
  write of `t` to a `ValueSum` or a `ValueAverage` makes the sources sum, or
  average, to exactly `t` (`ValueNumber.SumAggregateHitsTarget`,
  `ValueNumber.AverageAggregateHitsTarget`). As written, the average write
  throws a `ReferenceError`, and a sum write made before any listener sets
  every source to `NaN`.
- An array listener that keeps a copy of the array and replays every change
  it hears ends with the array, for every in-place operation
  (`ValueArray.ListenerMirrors` with the `…Replays` lemmas).

Where the documentation and the code disagree, the model follows the code:

- The doc comment of src/value.js:4 says a limiter "returns true to block".
  The code (src/value.js:101) stores whatever the limiter returns, and
  `undefined` vetoes the write. A limiter here is `Option<T> -> Option<T>`.
- `set` compares with `===` (src/value.js:102), while `compare` uses loose `!=`
  (src/value.js:130). With one value type per cell the two agree, and the
  model uses Dafny equality for both.
- `splice` announces both of its changes at `start` as given
  (src/valueArray.js:155,158), not at the clamped position where the change
  happened. It never applies the element limiter. The insertion change is
  announced always, even with no elements, because a rest parameter is always
  an array and so always truthy.
- `removeListener` on a `Value` with no listener array returns the function
  and fires no hook (src/value.js:76).

## Model

| member | source | states |
|---|---|---|
| ValueCell.New | src/value.js:13-23 | The initial value is stored verbatim: the limiter is not applied to it. A function limiter replaces the default identity limiter. A truthy non-function limiter draws one warning and the identity stays; a falsy one counts as absent. The cell starts without listeners. |
| ValueCell.SetLimiter | src/value.js:33-42 | Only a function replaces the limiter. Anything else leaves the cell as it was and draws exactly one warning. |
| ValueCell.Notify | src/value.js:114-123 | One notification pass calls every listener exactly once, in list order, each with the same payload. The listeners whose calls failed are exactly the throwing ones. Nothing but calls and caught failures appears. |
| ValueCell.EveryListenerReached | src/value.js:116-121 | A throwing listener does not stop the pass: every listener in the list, at any position, receives its call. |
| ValueCell.Update | src/value.js:114-124 | `update` notifies exactly the registered listeners, in order, with the current value, and changes no state. |
| ValueCell.Set | src/value.js:100-107 | A write the limiter vetoes, or whose limited value equals the stored one, stores nothing and calls nobody. Any other write stores the limited value (which is then defined) and calls every listener once, in order, with it. Limiter and listeners are kept. |
| ValueCell.CompareDecidesSet | src/value.js:100-134 | `set` leaves the value unchanged exactly when the limiter vetoes or `compare` reports no difference. It is silent exactly when vetoed or when there are no listeners. `objectEquals` is true exactly when the argument equals the stored value. |
| ValueCell.AddListener | src/value.js:47-69 | A non-function warns and changes nothing. A function is appended at the end. The demand hook `onListener(true)` fires exactly when the list was absent. With `run`, the new listener alone is called, with the current value. The function is returned unless that call threw. |
| ValueCell.RunNow | src/value.js:57-63 | The immediate call at registration reaches only the new listener, with the given value. A throw there is raised to the caller, not caught, and only a throwing listener raises. |
| ValueCell.RemoveListener | src/value.js:74-90 | A non-function warns. Otherwise only the first occurrence is removed, and the list keeps its other entries in order. Removing an absent function changes nothing. The hook `onListener(false)` fires exactly when the last listener goes. The function is returned in every case. |
| ValueCell.OneRegistration | src/value.js:47-85 | One add or remove fires at most one demand hook. It fires one exactly when it flips whether the cell has listeners, with the new state as argument. |
| ValueCell.DemandHooksAlternate | src/value.js:49-84 | Over any sequence of adds and removes, the hooks fired are exactly the changes of whether the cell has listeners, in order, each carrying the new state (the reference `Flips`). So they strictly alternate true/false, the first is the opposite of the initial state and the last matches the final state. |
| ValueCell.BusyRoundFiresNone | src/value.js:47-85 | On a cell that already has a listener, adding a second one and removing it again fires no hook and leaves the cell with listeners. |
| ValueAsync.New | src/valueAsync.js:11-36 | A new async cell holds no value, has no listeners, no readable value, no cycle in progress and no queued reads. A function limiter is installed as the cell's limiter; otherwise the identity stays. Only a non-function limiter draws a warning, and then exactly one. |
| ValueAsync.Get | src/valueAsync.js:40-57 | With a readable value, `get` answers it at once and changes nothing. Otherwise the read is queued under a fresh waiter id and answered `Pending`. The one-shot getter runs exactly when the queue was empty and no cycle is in progress. |
| ValueAsync.Set | src/valueAsync.js:61-67 | A write never changes the async cell's own state. Unless the limiter vetoes it or gives the current value, the limited (defined) value is pushed to the remote setter, and nothing else happens. |
| ValueAsync.SetValueFromOnce | src/valueAsync.js:118-125 | Every queued read is resolved with the delivered value, in queue order, once each, and the queue is emptied. Nothing else changes. |
| ValueAsync.SetValueFromCyclic | src/valueAsync.js:98-114 | An unchanged value does nothing. A new value is stored, ends the cycle's `ordering`, and resolves every queued read. It makes the cell readable and notifies the listeners only when there are listeners. |
| ValueAsync.OnListener | src/valueAsync.js:129-140 | The first-listener hook runs the cycle setup and enters `ordering` and changes nothing else, so a read made then never fetches. The last-listener hook runs the cycle cleanup and forgets `hasValue` and changes nothing else, so the next read goes pending. |
| ValueAsync.AddListener | src/valueAsync.js:129-135 | The first listener runs the cycle setup and marks a cycle in progress, without a fetch. Later ones leave `ordering` alone. With `run` and a readable value the listener is called at once, and returned unless it throws. With `run` and no readable value, one read is queued under the next waiter id and the listener is deferred to it. The one-shot fetch runs exactly when that read is the first in the queue, no cycle is in progress, and the cell already had listeners. |
| ValueAsync.RemoveListener | src/valueAsync.js:136-139 | The listener list changes as a plain cell's does: only the first occurrence of the function is removed, and the function is returned (src/value.js:74-90). Losing the last listener runs the cycle cleanup and makes the value unreadable. Any other removal keeps readability and emits no cleanup. The stored value, `ordering`, the queue and the next waiter id are kept. |
| ValueAsync.ReadsGoPending | src/valueAsync.js:44-55 | `k` reads of a cell without a readable value all answer `Pending`, with consecutive fresh waiter ids, and are queued in that order behind the earlier ones. |
| ValueAsync.ReadsFetchOnce | src/valueAsync.js:44-55 | Between them, `k` such reads call the one-shot getter at most once. They call it exactly when `k > 0`, the queue was empty and no cycle is in progress, and they do nothing else. |
| ValueAsync.ReadsShareOneFetch | src/valueAsync.js:44-55 | Both of the above together: concurrent readers share one fetch. |
| ValueAsync.OneFetchAnswersAllReaders | src/valueAsync.js:118-125 | On an idle cell, `k ≥ 1` reads cause exactly one fetch. Its answer resolves every one of the `k` reads, in the order they were made, with the same value, and leaves no read queued. |
| ValueAsync.CyclicWithoutListenersStillFetches | src/valueAsync.js:104-112 | A cyclic value delivered with no listener is stored but not readable, so the next read goes pending and triggers a fresh fetch. |
| ValueAsync.CyclicWithListenersServesReads | src/valueAsync.js:106-111 | With listeners, a new cyclic value is answered by the next read at once, with no fetch. |
| ValueAsync.LastListenerForgetsValue | src/valueAsync.js:136-139 | After the last listener goes, the value is still stored but reads go pending again. |
| ValueMulti.Callback | src/valueMulti.js:123-126 | The subscription closure of source `j` writes `Number(v)` at `j` of the buffer, growing it with holes if short, and changes nothing else in the world but the aggregate. When the reductions pass the limiter, the aggregate then holds the reduction of the new buffer. |
| ValueMulti.DeliverFeeds | src/valueMulti.js:123-126 | Following a source's trace through the world: if the trace calls the aggregate's closure with value `y`, the buffer ends with `Number(y)` at that source's index and the aggregate tracks it. If it never does, the world is unchanged. |
| ValueMulti.ConnectOneStep | src/valueMulti.js:122-127 | One turn of `__connect` registers the new closure last on source `i` and keeps it as handle `i`. It runs the closure once with the source's value, which fills buffer entry `i`, and the aggregate follows. |
| ValueMulti.ConnectWires | src/valueMulti.js:121-128 | `__connect` on detached sources subscribes each exactly once with the new connection's closures and keeps every handle. It fills every source's buffer entry with that source's number and keeps any entry past the last source. When the buffer was not longer than the sources, it mirrors them, and the aggregate holds their reduction. |
| ValueMulti.Disconnect | src/valueMulti.js:132-142 | `__disconnect` always ends with no handles and never touches the aggregate itself. |
| ValueMulti.DisconnectUnwires | src/valueMulti.js:132-142 | `__disconnect` run from the last removal, while the emptied listener array still makes `hasListener` true, takes off each source exactly the closure it carries last. The sources are left carrying no aggregate closure, and everything else is kept. |
| ValueMulti.DisconnectUndoesConnect | src/valueMulti.js:121-142 | Connecting and then disconnecting gives every source back exactly as it was. |
| ValueMulti.WriteSourceKeepsCoherent | src/valueMulti.js:123-126 | A write to a source from anywhere, on an aggregate with listeners, leaves that source as its own `set` makes it. The buffer follows, and the aggregate's stored value is the reduction of the new buffer: the aggregate stays coherent. |
| ValueMulti.WriteSourceKeepsValid | src/valueMulti.js:121-126 | The same for any valid aggregate, with or without listeners. |
| ValueMulti.SetKeepsCoherent | src/valueMulti.js:85-91 | The aggregate's `set` with listeners asks the write reduction once. Each source ends with what its own `set` makes of its output, in source order, and the aggregate stays coherent. |
| ValueMulti.Set | src/valueMulti.js:85-91 | With listeners, the corrected `set` is exactly the code's `set`. It differs only without listeners (see Findings). |
| ValueMulti.SetKeepsValid | src/valueMulti.js:85-91 | A write to a valid aggregate keeps it valid. Every source ends with what its own `set` makes of the write reduction's output for it. |
| ValueMulti.CachedIsPolled | src/valueMulti.js:95-97 | The cached value of a coherent aggregate equals the read reduction of a fresh poll of its sources. |
| ValueMulti.GetIsPolled | src/valueMulti.js:95-114 | On a valid aggregate, `get` answers the read reduction of the numbers the sources hold, in source order, whether it answers from its cache or polls. |
| ValueMulti.AddListener | src/valueMulti.js:75-78 | A non-function warns and changes nothing. A function is appended to the aggregate's listeners. |
| ValueMulti.AddListenerKeepsValid | src/valueMulti.js:75-78 | Adding a listener keeps a valid aggregate valid. The first listener connects it, and afterwards every source carries exactly one new closure on top of its earlier listeners. |
| ValueMulti.RemoveListener | src/valueMulti.js:79-80 | The aggregate's own listener list changes exactly as a plain cell's does. |
| ValueMulti.RemoveListenerKeepsValid | src/valueMulti.js:75-81 | Removing a listener keeps a valid aggregate valid. Removing the last one disconnects, and every source gets its earlier listener list back. |
| ValueMulti.FirstAndLastListener | src/valueMulti.js:75-81 | Adding a first listener and removing it again leaves the sources exactly as they were, and the aggregate valid. |
| ValueMulti.SetRead | src/valueMulti.js:52-61 | A non-function warns and changes nothing. A function becomes the read reduction. |
| ValueMulti.SetReadKeepsValid | src/valueMulti.js:52-57 | Installing a read reduction that passes the limiter keeps a valid aggregate valid. With listeners, the stored value is recomputed from the buffer. |
| ValueMulti.SetWrite | src/valueMulti.js:65-71 | A function becomes the write reduction and nothing else changes. Anything else warns and changes nothing. |
| ValueMulti.SetWriteKeepsValid | src/valueMulti.js:65-71 | Installing a write reduction keeps a valid aggregate valid. |
| ValueMulti.SetValuesAsWritten | src/valueMulti.js:32-48 | A non-array, or an array holding a non-`Value`, draws one warning and changes nothing. |
| ValueMulti.SetValues | src/valueMulti.js:32-48 | The corrected setter rejects the same arguments in the same way. |
| ValueMulti.SetValuesKeepsValid | src/valueMulti.js:40-44 | Replacing the sources with the corrected `values` setter, which cuts the buffer (see Findings), keeps a valid aggregate valid. The old sources are handed back without the aggregate's closures. With listeners, the new sources are subscribed once each and the buffer and stored value follow them; without, they are taken as given. |
| ValueMulti.SetValuesThenGet | src/valueMulti.js:40-44 | After the sources are replaced by the corrected `values` setter (see Findings), `get` answers the read reduction of the numbers the new sources hold. |
| ValueMulti.SetValuesAsWrittenKeepsStaleEntry | src/valueMulti.js:40-44 | As written, replacing two sources by one on an aggregate with listeners leaves the buffer holding the gone source's entry. `get` then answers the reduction of the new number together with that stale entry. |
| ValueMulti.New | src/valueMulti.js:9-28 | A new aggregate has no value, no listeners, no handles and the identity limiter. Given valid sources, it takes them with an empty buffer; otherwise it has none. A read or write reduction given as a function is taken. Without a read reduction the aggregate reads `undefined`. |
| ValueMulti.NewIsValid | src/valueMulti.js:9-28 | An aggregate built over at least one detached source, with a read reduction that is always defined, starts valid. |
| ValueNumber.SumIsTotal | src/valueNumber.js:9-15 | The sum loop gives the mathematical total when every entry is a number, 0 for an empty buffer, and `NaN` as soon as one entry is not a number. |
| ValueNumber.AverageIsMean | src/valueNumber.js:37-43 | The average is the total divided by the count. It is `NaN` for an empty buffer (0/0) or when some entry is not a number. |
| ValueNumber.SumWriteSharesEvenly | src/valueNumber.js:23-28 | A sum write moves every source by the same amount, and `n` such moves add up to the change `t - c` of the aggregate. |
| ValueNumber.AverageWriteShiftsAll | src/valueNumber.js:51-56 | The corrected average write moves every source by the same amount. With `AverageWriteHitsTarget` this fixes the amount as the change of the aggregate. |
| ValueNumber.AverageWriteAsWritten | src/valueNumber.js:51-56 | As written, the average write throws a `ReferenceError` exactly when there is at least one source. Over no sources it fills nothing. |
| ValueNumber.SumWriteHitsTarget | src/valueNumber.js:9-28 | If the cached value is the sum of the buffer, the outputs of a write aimed at `t` sum to exactly `t`. |
| ValueNumber.AverageWriteHitsTarget | src/valueNumber.js:37-56 | If the cached value is the average of the buffer, the outputs of the corrected average write aimed at `t` average exactly `t`. |
| ValueNumber.WorkedExamples | src/valueNumber.js:9-56 | Concrete cases. Sum over 2 and 3 reads 5, and writing 11 gives 5 and 6. Average over 2 and 4 reads 3, and writing 7 gives 6 and 8. The average write as written throws on that input. |
| ValueNumber.PolledAfterSet | src/valueMulti.js:85-91 | On a valid aggregate over sources that take any value, a write whose outputs are all defined leaves the sources holding exactly those outputs. |
| ValueNumber.SumAggregateHitsTarget | src/valueNumber.js:23-28 | Writing `t` with the corrected `set` (see Findings) to a `ValueSum` whose sources hold numbers, with or without listeners, leaves the sources summing to `t`, `get` answering `t`, and the aggregate valid. |
| ValueNumber.AverageAggregateHitsTarget | src/valueNumber.js:51-56 | The same for a `ValueAverage` with the corrected average write and the corrected `set` (see Findings): the sources average `t` and `get` answers `t`. |
| ValueNumber.SumSetAsWrittenBeforeListeners | src/valueNumber.js:23-28 | As written, writing any number to a new `ValueSum` that never had a listener sets every source to `NaN`. |
| ValueNumber.SumAfterShrinkingSourcesAsWritten | src/valueMulti.js:40-44 | As written, a `ValueSum` with listeners over 2 and 3, given a single source holding 1, answers 4 while its source sums to 1. |
| ValueNumber.SumAfterShrinkingSources | src/valueMulti.js:40-44 | With the buffer cut to the new sources, the same aggregate answers 1, the sum of its source. |
| JsArray.IndexOf | src/value.js:77 | `indexOf` gives -1 exactly when the element is absent. Otherwise it gives an index holding it with no earlier occurrence. |
| JsArray.RemoveAt | src/value.js:79 | `splice(i, 1)` keeps every element before `i` and shifts every element after `i` down by one. |
| JsArray.Splice | src/valueArray.js:153 | `splice` removes the clamped run at the clamped start, puts the new items there, and keeps everything before and after it. The removed run is returned. |
| JsArray.Put | src/valueArray.js:205 | Assigning at `i` sets `i`, keeps every other element, and past the end grows the array with holes. |
| ValueArray.New | src/valueArray.js:14-31 | A missing initial value gives a new empty array, and an array is stored as given, untouched by either limiter. A non-array warns and leaves no array. Each limiter is taken only if it is a function; otherwise the identity stays. The warnings are exactly one per non-function limiter and one for a non-array value, in that order. The cell starts without listeners of either kind. |
| ValueArray.SetElementLimiter | src/valueArray.js:35-44 | Only a function replaces the element limiter. Anything else warns and changes nothing. |
| ValueArray.AddArrayListener | src/valueArray.js:49-62 | A function is appended to the array listeners and returned, without any call. Anything else warns and changes nothing. |
| ValueArray.BroadcastHeard | src/valueArray.js:87-98 | An array listener registered once hears every announced change exactly once, in the order made. |
| ValueArray.AddedListenerHearsAll | src/valueArray.js:49-98 | A newly added array listener hears every later change, in order. |
| ValueArray.ListenerMirrors | src/valueArray.js:87-98 | A listener that keeps a copy and applies each change it hears ends with the array, whenever the operation's changes replay to its result. |
| ValueArray.Push | src/valueArray.js:102-111 | `push` keeps the old elements, appends the element-limited new ones, and announces exactly one change, at the old length, carrying them. It is an in-place change: same array, same listeners, only the array listeners are told. |
| ValueArray.PushReplays | src/valueArray.js:102-111 | A copy replaying `push`'s announcement equals the array afterwards. |
| ValueArray.Unshift | src/valueArray.js:115-123 | `unshift` puts the limited elements in front, keeps the old ones after them in order, and announces one change at 0. |
| ValueArray.UnshiftReplays | src/valueArray.js:115-123 | A copy replaying `unshift`'s announcement equals the array afterwards. |
| ValueArray.Pop | src/valueArray.js:127-134 | On an empty array `pop` returns `undefined`, changes nothing and announces nothing. Otherwise the array loses exactly its last element, which is returned, and one removal at the new length is announced. |
| ValueArray.Shift | src/valueArray.js:138-145 | On an empty array `shift` changes and announces nothing. Otherwise the array loses exactly its first element, which is returned, and one removal at 0 is announced. |
| ValueArray.PopAndShiftReplay | src/valueArray.js:127-145 | A copy replaying `pop`'s or `shift`'s announcement equals the array afterwards. |
| ValueArray.PopUndoesPush | src/valueArray.js:102-134 | `pop` after pushing one element gives back the array and the limited element. |
| ValueArray.ShiftUndoesUnshift | src/valueArray.js:115-145 | `shift` after unshifting one element gives back the array and the limited element. |
| ValueArray.Splice | src/valueArray.js:152-161 | `splice` removes the clamped run, inserts the elements there, and returns the removed run. It announces a removal at `start` only when something was removed, then always the insertion at `start`. |
| ValueArray.SpliceReplays | src/valueArray.js:152-161 | For a `start` inside the array, a copy replaying `splice`'s announcements equals the array afterwards. |
| ValueArray.IndexOf | src/valueArray.js:167-169 | `indexOf(x, from)` gives -1 exactly when `x` does not occur from the resolved start on. Otherwise it gives the first index at or after the resolved start that holds `x`. |
| ValueArray.Empty | src/valueArray.js:172-175 | `empty` replaces the array by a new empty array object and notifies exactly the plain value listeners, in order, with it. The array listeners are kept but not told. |
| ValueArray.EmptyThenRestore | src/valueArray.js:172-227 | After `empty`, setting the old array object stores it again, since it is another object than the new empty one. |
| ValueArray.RemoveIfExist | src/valueArray.js:180-186 | Afterwards `x` no longer occurs and the other elements are kept in order. One removal is announced per occurrence, each at the number of elements kept before it, and a copy replaying the removals equals the array. |
| ValueArray.RemoveIfExistCounts | src/valueArray.js:180-186 | The number of removals announced is the number of occurrences `x` had, and the array shrinks by exactly that many. |
| ValueArray.SetIndex | src/valueArray.js:199-208 | The corrected `setIndex`: writing the element already there does nothing. Otherwise the array becomes the assignment's result, and the changes are the padding (when writing at or past the end) followed by the replacement at `index`. |
| ValueArray.SetIndexThenGet | src/valueArray.js:199-208 | After `setIndex`, reading `index` gives the written value and every other index reads as before. |
| ValueArray.SetIndexReplays | src/valueArray.js:199-208 | A copy replaying the corrected `setIndex`'s announcements equals the array afterwards. |
| ValueArray.SetIndexAsWritten | src/valueArray.js:199-208 | As written, `setIndex` equals the corrected one at every index but the length. At the length, it grows the array by the value but announces only a replacement at that index. |
| ValueArray.SetIndexAsWrittenLosesGrowth | src/valueArray.js:201-206 | As written, `setIndex(length, v)` grows the array by one, yet its announcements do not fit a copy of the array. |
| ValueArray.Set | src/valueArray.js:218-227 | A non-array is ignored silently. An array the limiter vetoes, or gives back as the same object already stored, changes nothing. Otherwise the limited array is stored and every plain value listener is called once, in order, with it. |
| ValueArray.SetTwice | src/valueArray.js:218-227 | Setting the same array a second time finds it stored and does nothing. |
| ValueArray.Compare | src/valueArray.js:236-257 | `compare(x)` is false exactly when `x` is an array with the same elements, index by index. The identity of the arrays plays no part. |

## Left out

- Promises and the event loop. A read of an async cell without a readable
  value answers `Pending(id)`, and resolutions are trace entries. The
  `ValueMulti` path that waits for promise-valued sources
  (src/valueMulti.js:99-111) is left out: sources are plain number cells.
  The promise branch of `addListener(func, true)` (src/value.js:59-60) is
  modelled only for `ValueAsync`, as a deferred call.
- Reentrancy. Listeners are opaque identities, and a listener that writes to
  a cell while being notified is not modelled. The aggregate's own closures
  are modelled, since the library itself installs them.
- A throwing `onListener` override (the try/catch at src/value.js:147-151).
  The overrides in the core only call the remote setup and cleanup, which
  are trace entries here.
- JavaScript dynamic typing. Each cell has one value type. Loose `==` and `!=`
  across types, `Number()` on non-numbers, and string `+=` are not modelled.
  `Number(undefined)` is `NaN`, and a number stays itself.
- IEEE floating point. Numbers are reals plus `NaN`, so rounding and
  infinities are not modelled.
- ValueCell.Set: the source calls the limiter with the cell as a second
  argument (src/value.js:101). The model's limiter sees only the written
  value, so a limiter that depends on the cell's current state is not
  modelled.
- ValueArray.Set: the same; the array limiter is called without the cell
  (src/valueArray.js:220 passes it).
- ValueCell.New: a limiter argument is modelled as absent (`None`), a
  function (`Fn`) or a truthy non-function (`NotFn`). The source tests it
  with `if (limiter)` (src/value.js:14), so a falsy non-function such as
  `null`, `0`, `false` or `""` is skipped without a warning; it is modelled
  as `None`.
- ValueAsync.New: the same for its limiter, passed on to the base cell.
- ValueArray.New: the same for the limiter and for the element limiter
  (`if (elementLimiter)`, src/valueArray.js:28).
- ValueCell.Set: Dafny equality makes a stored `NaN` equal to a written
  `NaN`, so that write is treated as a no-op. JavaScript's `NaN !== NaN`
  would store and notify again.
- `removeArrayListener` (src/valueArray.js:67-80) is not among the operations
  modelled. It throws when no array listener was ever added.
- A `ValueArray` built from a non-array holds no array. The source then
  throws a `TypeError` from every in-place operation, and that error path is
  not modelled. Each of the following requires the cell to hold an array:
- ValueArray.Push: requires a stored array; on a cell without one the source throws a `TypeError`.
- ValueArray.Unshift: requires a stored array; on a cell without one the source throws a `TypeError`.
- ValueArray.Pop: requires a stored array; on a cell without one the source throws a `TypeError`.
- ValueArray.Shift: requires a stored array; on a cell without one the source throws a `TypeError`.
- ValueArray.Splice: requires a stored array; on a cell without one the source throws a `TypeError`.
- ValueArray.SetIndex: requires a stored array; on a cell without one the source throws a `TypeError`.
- ValueArray.SetIndexAsWritten: requires a stored array; on a cell without one the source throws a `TypeError`.
- ValueArray.RemoveIfExist: requires a stored array; on a cell without one the source throws a `TypeError`.
- ValueArray.IndexOf: requires a stored array; on a cell without one the source throws a `TypeError`.
- ValueArray.Compare: requires a stored array when its argument is an array; the source then reads `this.___value.length` (src/valueArray.js:239) and throws a `TypeError` on a cell without one. A non-array argument differs without that read, as modelled.
- ValueArray.IndexOf: elements are compared with Dafny equality where the source's `Array.prototype.indexOf` uses `===` (src/valueArray.js:168). A `NaN` element, which `===` never finds, is not modelled. An object element compares by reference in JavaScript, so the element type stands for element identities.
- ValueArray.RemoveIfExist: the same element equality stands for the `===` of `indexOf` (src/valueArray.js:182). A stored `NaN` is found and removed here, while the source never finds it and announces nothing.
- ValueArray.Compare: the same element equality stands for the loose `!=` of src/valueArray.js:242. A stored `[NaN]` compares equal to `[NaN]` here, while the source reports a difference. Loose coercions such as `1 != "1"` being false are not modelled either.
- ValueArray.SpliceReplays: holds only for a `start` inside the array.
  A negative or too large `start` is announced as given, so a copy that
  replays it can edit another position than `splice` did.
- ValueArray.SetIndex: indexes are natural numbers. A negative or
  non-integer index creates a property in JavaScript, not an element.
- ValueArray.Splice: a `deleteCount` the caller omits reaches the array's
  `splice` as `undefined`, which removes nothing. It is modelled by passing
  0. Non-integer arguments are not modelled.
- A hole left by assignment past the end reads back as `undefined` and is
  modelled as `undefined`, so holes and stored `undefined`s are not told
  apart.
- `empty()` calls `update()`, which notifies only the plain value listeners
  (src/valueArray.js:172-175). The model keeps that; the array listeners
  hear nothing.
- ValueMulti.Valid: while the aggregate has listeners, each source must
  carry the aggregate's closure as its LAST listener, with no other
  aggregate closure before it. The world has no step for another client
  adding or removing a listener on a source. So a source that gains a
  listener of its own after the aggregate connected is outside `Valid`, and
  the `…KeepsValid` lemmas do not cover that state. The source itself
  imposes no such order, and its `__disconnect` finds the closure wherever
  it sits (src/value.js:77).
- ValueMulti.Valid also assumes at least one source. It also assumes that no
  source is shared with another aggregate, or is subscribed to this one
  twice: sources are separate cells of one world. Over zero sources a
  `ValueAverage` reads `NaN` and a write changes nothing, which the
  functions model but the invariant does not cover.
- ValueMulti.GetIsPolled: without listeners the source hands the read
  reduction the raw values the sources hold (src/valueMulti.js:102), while
  the cache stores `Number(val)` (src/valueMulti.js:124). The model polls
  through `Number()` as well. The two agree for `ValueSum` and
  `ValueAverage`, which convert anyway. A custom reduction that tells
  `undefined` from `NaN` would see different inputs on the two paths,
  and that is not modelled.
- ValueMulti.SetReadKeepsValid: the invariant requires every reduction
  result to pass the aggregate's limiter unchanged and be defined. This
  holds for `ValueSum` and `ValueAverage` under the default limiter. A
  limiter that rewrites the aggregate's value is not covered.
- The trivial getters `get`, `get set` and `hasListener`
  (src/value.js:94-96,111,156-158; src/valueArray.js:212-214,231) are record
  fields or the predicate `ValueCell.HasListener`. They carry no contract of
  their own.
- src/valueProxy.js, src/valueObjectKeyProxy.js and src/valueText.js are
  delegation and DOM glue, and are not part of this model.

## Findings

| source | as written | input that shows it | evidently intended | confidence | as-written member | corrected member |
|---|---|---|---|---|---|---|
| src/valueNumber.js:51-54 | `ValueAverage.__multiFuncWrite` declares only `(value, values)` but its loop reads `valuesBuffer`, a name bound nowhere, so it throws a `ReferenceError` | any write to a `ValueAverage` with at least one source, e.g. sources 2 and 4, write 7 | declare the third parameter `valuesBuffer`, which the caller passes (src/valueMulti.js:87), so every source moves by the whole change: 6 and 8 | high; not executed | ValueNumber.AverageWriteAsWritten | ValueNumber.AverageWriteHitsTarget |
| src/valueMulti.js:40-44 | the `values` setter replaces the sources but never cuts `__valuesBuffer`, so entries of sources that are gone stay and are reduced with the new ones | a `ValueSum` with a listener over sources 2 and 3, then `values = [source holding 1]`: `get` answers 4 | cut the buffer to the new number of sources; `get` answers 1 | medium; not executed | ValueNumber.SumAfterShrinkingSourcesAsWritten | ValueNumber.SumAfterShrinkingSources |
| src/valueArray.js:201 | `setIndex` pads only when `index > length`, so `setIndex(length, v)` grows the array but announces `(length, 0, [v])`, a replacement of an element that does not exist | an array `[a]`, `setIndex(1, b)`: the array becomes `[a, b]`, the one change announced does not apply to `[a]` | pad when `index >= length`: announce `(length, 1, [undefined])`, then `(length, 0, [b])` | medium; not executed | ValueArray.SetIndexAsWrittenLosesGrowth | ValueArray.SetIndexReplays |
| src/valueMulti.js:85-91 | the aggregate's `set` hands the write reduction `this.___value` and `__valuesBuffer`, which are only maintained while it has listeners; `ValueSum` then computes `undefined + NaN` for every source (src/valueNumber.js:24-26) | a new `ValueSum` over sources 2 and 3 that never had a listener, write 11: both sources become `NaN` | without listeners, give the reduction what `get` answers and the numbers the sources hold, as `get` polls them; the sources become 5 and 6 | medium; not executed | ValueNumber.SumSetAsWrittenBeforeListeners | ValueNumber.SumAggregateHitsTarget |

=== FILE: js_array.dfy ===
/** The JavaScript `Array` built-ins the cells rely on, over immutable
    sequences: `indexOf` (strict equality), removal of one index, assignment
    past the end (which leaves holes), and `splice` with its argument
    clamping. */
module JsArray {

  /** `s.indexOf(x)`: the first index holding `x`, or -1. */
  function IndexOf<X(==)>(s: seq<X>, x: X): (i: int)
    ensures -1 <= i < |s|
    ensures i == -1 <==> x !in s
    ensures 0 <= i ==> s[i] == x && x !in s[..i]
  {
    if |s| == 0 then -1
    else if s[0] == x then 0
    else
      var j := IndexOf(s[1..], x);
      assert s[1..][..if j < 0 then 0 else j] == s[1..if j < 0 then 1 else j + 1];
      if j == -1 then -1 else j + 1
  }

  /** `IndexOf` gives the one index that holds `x` with no `x` before it. */
  lemma IndexOfIsFirst<X>(s: seq<X>, x: X, i: nat)
    requires i < |s| && s[i] == x && x !in s[..i]
    ensures IndexOf(s, x) == i
  {
    var j := IndexOf(s, x);
    assert s[i] in s;
    forall k | 0 <= k < i
      ensures s[k] != x
    {
      assert s[..i][k] == s[k];
    }
    forall k | 0 <= k < j
      ensures s[k] != x
    {
      assert s[..j][k] == s[k];
    }
  }

  /** `s.indexOf(x, from)`: the search starts at `from`, which counts from
      the end when negative and is clamped into `0..len` like a `splice`
      start. */
  function IndexOfFrom<X(==)>(s: seq<X>, x: X, from: int): (i: int)
    ensures -1 <= i < |s|
    ensures i == -1 <==> x !in s[SpliceStart(from, |s|)..]
    ensures 0 <= i ==> SpliceStart(from, |s|) <= i && s[i] == x && x !in s[SpliceStart(from, |s|)..i]
  {
    var k := SpliceStart(from, |s|);
    var j := IndexOf(s[k..], x);
    if j == -1 then -1
    else
      assert s[k..][..j] == s[k..k + j];
      k + j
  }

  /** `s.splice(i, 1)`: `s` without its element at `i`. */
  function RemoveAt<X>(s: seq<X>, i: nat): (r: seq<X>)
    requires i < |s|
    ensures |r| == |s| - 1
    ensures forall k :: 0 <= k < i ==> r[k] == s[k]
    ensures forall k :: i <= k < |r| ==> r[k] == s[k + 1]
  {
    s[..i] + s[i + 1..]
  }

  /** `s[i] = x`: past the end the array grows, and the skipped slots are
      holes, which read back as `hole`. */
  function Put<X>(s: seq<X>, i: nat, x: X, hole: X): (r: seq<X>)
    ensures |r| == if i < |s| then |s| else i + 1
    ensures r[i] == x
    ensures forall k :: 0 <= k < |s| && k != i ==> r[k] == s[k]
    ensures forall k :: |s| <= k < i ==> r[k] == hole
  {
    if i < |s| then s[i := x]
    else s + seq(i - |s|, _ => hole) + [x]
  }

  /** Writing the same element at the same index twice is writing it once. */
  lemma PutTwice<X>(s: seq<X>, i: nat, x: X, hole: X)
    ensures Put(Put(s, i, x, hole), i, x, hole) == Put(s, i, x, hole)
  {
  }

  /** The position `splice` starts at: a negative `start` counts from the
      end, and the result is clamped into `0..len`. */
  function SpliceStart(start: int, len: nat): (k: nat)
    ensures k <= len
    ensures 0 <= start <= len ==> k == start
    ensures start > len ==> k == len
    ensures start < 0 ==> k == if len + start < 0 then 0 else len + start
  {
    if start < 0 then (if len + start < 0 then 0 else len + start)
    else if start > len then len
    else start
  }

  /** The number of elements `splice` removes: `deleteCount` clamped into
      `0..len - k`. */
  function SpliceCount(deleteCount: int, k: nat, len: nat): (d: nat)
    requires k <= len
    ensures d <= len - k
    ensures 0 <= deleteCount <= len - k ==> d == deleteCount
    ensures deleteCount < 0 ==> d == 0
    ensures deleteCount > len - k ==> d == len - k
  {
    if deleteCount < 0 then 0
    else if deleteCount > len - k then len - k
    else deleteCount
  }

  datatype Spliced<X> = Spliced(removed: seq<X>, rest: seq<X>)

  /** `s.splice(start, deleteCount, ...items)`: the removed run and the
      array left behind. */
  function Splice<X>(s: seq<X>, start: int, deleteCount: int, items: seq<X>): (r: Spliced<X>)
    ensures |r.rest| == |s| - |r.removed| + |items|
    ensures var k := SpliceStart(start, |s|);
      && |r.removed| == SpliceCount(deleteCount, k, |s|)
      && r.removed + r.rest[k + |items|..] == s[k..]
      && r.rest[..k] == s[..k]
      && r.rest[k..k + |items|] == items
    ensures var k := SpliceStart(start, |s|);
      && k + |r.removed| <= |s|
      && r.removed == s[k..k + |r.removed|]
      && r.rest == s[..k] + items + s[k + |r.removed|..]
  {
    var k := SpliceStart(start, |s|);
    var d := SpliceCount(deleteCount, k, |s|);
    var rest := s[..k] + items + s[k + d..];
    assert rest[k + |items|..] == s[k + d..];
    assert rest[..k] == s[..k];
    assert rest[k..k + |items|] == items;
    assert s[k..] == s[k..k + d] + s[k + d..];
    Spliced(s[k..k + d], rest)
  }
}

=== FILE: js_number.dfy ===
/** The numbers the aggregate cells compute with: JavaScript numbers without
    floating-point rounding, that is, reals plus `NaN`, which every
    arithmetic operation propagates. No infinities arise in the model: the
    only division is by a positive count, or 0/0, which is `NaN`. */
module JsNumber {
  import opened Wrappers

  datatype Number = NaN | Num(r: real)

  /** `Number(v)` on a number or `undefined`; also what `undefined`
      becomes under `+` and `-`. */
  function ToNumber(v: Option<Number>): Number
  {
    match v
    case None => NaN
    case Some(x) => x
  }

  function Add(a: Number, b: Number): Number
  {
    if a.Num? && b.Num? then Num(a.r + b.r) else NaN
  }

  function Sub(a: Number, b: Number): Number
  {
    if a.Num? && b.Num? then Num(a.r - b.r) else NaN
  }

  /** `a / n` for a count `n`; `0 / 0` and `NaN / 0` are `NaN`. The model
      never divides a non-zero number by zero. */
  function DivCount(a: Number, n: nat): Number
  {
    if a.Num? && n > 0 then Num(a.r / n as real) else NaN
  }

  /** `buffer[i]` in JavaScript: a read past the end is `undefined`, which
      arithmetic turns into `NaN`. */
  function At(buffer: seq<Number>, i: nat): Number
  {
    if i < |buffer| then buffer[i] else NaN
  }
}

=== FILE: value.dfy ===
/** The base observable cell of src/value.js: one stored value, a limiter
    that gates every write, an ordered list of listeners, and a demand hook
    fired when the listener list appears or disappears.

    A cell is an immutable record and every operation a pure step that
    returns the new record together with the trace of what it called, in
    the order it called it. Listeners are opaque identities; whether one
    throws when called is fixed per listener. */
module ValueCell {
  import opened Wrappers
  import JsArray

  /** An identity in a listener list. An `Observer` is a function some client
      registered; `throws` says whether calling it raises. A `Feed` is the
      subscription closure an aggregate registers on its `index`-th source
      (see ValueMulti); each connection of the aggregate makes new closures,
      told apart by `epoch`. Feeds never throw. */
  datatype Listener = Observer(id: nat, throws: bool) | Feed(epoch: nat, index: nat)
  {
    predicate Throws() {
      Observer? && throws
    }
  }

  /** One entry of a trace. `P` is what listeners receive. */
  datatype Event<P> =
    | Called(listener: Listener, payload: P)  // the listener was invoked
    | Caught(listener: Listener)              // it threw during a notification pass: logged, pass continues
    | Raised(listener: Listener)              // it threw when run at registration: propagates to the caller
    | Demand(active: bool)                    // the `onListener(active)` hook was fired
    | Warning                                 // a contract violation was reported by `console.warn`

  /** A limiter maps a candidate to the value to store; `None` vetoes. */
  type Limiter<!T> = Option<T> -> Option<T>

  /** The state of a `Value`. The source keeps the listener array only while
      it is non-empty, so "has listeners" is "the list is non-empty". */
  datatype Cell<!T> = Cell(value: Option<T>, limiter: Limiter<T>, listeners: seq<Listener>)

  /** The result of a step: the new cell and what it called. */
  datatype Step<!T> = Step(cell: Cell<T>, events: seq<Event<Option<T>>>)

  /** The result of `addListener` / `removeListener`, which also return a value. */
  datatype Reg<!T> = Reg(cell: Cell<T>, events: seq<Event<Option<T>>>, returned: Option<Listener>)

  // ---------------------------------------------------------------------------
  // Reading a trace

  /** The listeners a trace invoked, in order. */
  function Recipients<P>(es: seq<Event<P>>): seq<Listener>
  {
    if |es| == 0 then []
    else (if es[0].Called? then [es[0].listener] else []) + Recipients(es[1..])
  }

  /** The listeners whose failure a trace caught and logged, in order. */
  function Failures<P>(es: seq<Event<P>>): seq<Listener>
  {
    if |es| == 0 then []
    else (if es[0].Caught? then [es[0].listener] else []) + Failures(es[1..])
  }

  /** The demand hooks a trace fired, in order. */
  function Demands<P>(es: seq<Event<P>>): seq<bool>
  {
    if |es| == 0 then []
    else (if es[0].Demand? then [es[0].active] else []) + Demands(es[1..])
  }

  /** Every invocation in the trace passed `p`. */
  ghost predicate Carries<P>(es: seq<Event<P>>, p: P)
  {
    forall i :: 0 <= i < |es| && es[i].Called? ==> es[i].payload == p
  }

  /** The listeners of `ls` that throw, in order. */
  function Throwers(ls: seq<Listener>): seq<Listener>
  {
    if |ls| == 0 then []
    else (if ls[0].Throws() then [ls[0]] else []) + Throwers(ls[1..])
  }

  lemma DemandsAppend<P>(a: seq<Event<P>>, b: seq<Event<P>>)
    ensures Demands(a + b) == Demands(a) + Demands(b)
  {
    if |a| > 0 {
      assert (a + b)[1..] == a[1..] + b;
      DemandsAppend(a[1..], b);
    } else {
      assert a + b == b;
    }
  }

  lemma RecipientsAppend<P>(a: seq<Event<P>>, b: seq<Event<P>>)
    ensures Recipients(a + b) == Recipients(a) + Recipients(b)
  {
    if |a| > 0 {
      assert (a + b)[1..] == a[1..] + b;
      RecipientsAppend(a[1..], b);
    } else {
      assert a + b == b;
    }
  }

  lemma FailuresAppend<P>(a: seq<Event<P>>, b: seq<Event<P>>)
    ensures Failures(a + b) == Failures(a) + Failures(b)
  {
    if |a| > 0 {
      assert (a + b)[1..] == a[1..] + b;
      FailuresAppend(a[1..], b);
    } else {
      assert a + b == b;
    }
  }

  /** The recipients of a trace are exactly the listeners of its calls. */
  lemma {:induction false} RecipientsCalled<P>(es: seq<Event<P>>, l: Listener)
    ensures l in Recipients(es) <==> exists k :: 0 <= k < |es| && es[k].Called? && es[k].listener == l
    decreases |es|
  {
    if |es| > 0 {
      RecipientsCalled(es[1..], l);
      if l in Recipients(es[1..]) {
        var k :| 0 <= k < |es[1..]| && es[1..][k].Called? && es[1..][k].listener == l;
        assert es[k + 1] == es[1..][k];
      }
      if exists k :: 0 <= k < |es| && es[k].Called? && es[k].listener == l {
        var k :| 0 <= k < |es| && es[k].Called? && es[k].listener == l;
        if k > 0 {
          assert es[1..][k - 1] == es[k];
        }
      }
    }
  }

  lemma SingleEvent<P>(e: Event<P>)
    ensures Recipients([e]) == if e.Called? then [e.listener] else []
    ensures Failures([e]) == if e.Caught? then [e.listener] else []
    ensures Demands([e]) == if e.Demand? then [e.active] else []
  {
    assert [e][1..] == [];
  }

  // ---------------------------------------------------------------------------
  // Notification

  /** One notification pass (the loop of `update`): every listener is called
      with `p` inside its own try/catch, so a listener that throws is logged
      and the pass goes on with the next one. */
  function Notify<P>(ls: seq<Listener>, p: P): (es: seq<Event<P>>)
    ensures Recipients(es) == ls
    ensures Carries(es, p)
    ensures Failures(es) == Throwers(ls)
    ensures forall e :: e in es ==> e.Called? || e.Caught?
  {
    if |ls| == 0 then []
    else
      var visit := [Called(ls[0], p)] + (if ls[0].Throws() then [Caught(ls[0])] else []);
      var rest := Notify(ls[1..], p);
      RecipientsAppend(visit, rest);
      FailuresAppend(visit, rest);
      visit + rest
  }

  /** A listener that throws does not keep any other listener of the same
      pass from being called: every listener is reached, whatever the others
      do. */
  lemma {:induction false} EveryListenerReached<P>(ls: seq<Listener>, p: P, j: nat)
    requires j < |ls|
    ensures Called(ls[j], p) in Notify(ls, p)
    decreases |ls|
  {
    var visit := [Called(ls[0], p)] + (if ls[0].Throws() then [Caught(ls[0])] else []);
    assert Notify(ls, p) == visit + Notify(ls[1..], p);
    if j > 0 {
      EveryListenerReached(ls[1..], p, j - 1);
    }
  }

  // ---------------------------------------------------------------------------
  // Construction and the limiter

  /** The default limiter `__limiter`, which hands back its argument. */
  function Identity<T>(): Limiter<T>
  {
    v => v
  }

  /** `new Value(init, limiter)`: the initial value is stored as given, the
      limiter is never applied to it. A limiter argument that is present but
      not a function draws a warning and the default limiter stays. */
  function New<T(!new)>(init: Option<T>, limiter: Option<Callable<Limiter<T>>>): (r: Step<T>)
    ensures r.cell.value == init
    ensures r.cell.listeners == []
    ensures limiter.Some? && limiter.value.Fn? ==> r.cell.limiter == limiter.value.f
    ensures !(limiter.Some? && limiter.value.Fn?) ==> forall v :: r.cell.limiter(v) == v
    ensures r.events == if limiter.Some? && limiter.value.NotFn? then [Warning] else []
  {
    var c := Cell(init, Identity(), []);
    if limiter.Some? then SetLimiter(c, limiter.value) else Step(c, [])
  }

  /** The `limiter` setter: only a function replaces the limiter. */
  function SetLimiter<T>(c: Cell<T>, f: Callable<Limiter<T>>): (r: Step<T>)
    ensures f.Fn? ==> r.cell == c.(limiter := f.f) && r.events == []
    ensures f.NotFn? ==> r.cell == c && r.events == [Warning]
  {
    match f
    case Fn(g) => Step(c.(limiter := g), [])
    case NotFn => Step(c, [Warning])
  }

  // ---------------------------------------------------------------------------
  // Reading, writing, comparing

  predicate HasListener<T>(c: Cell<T>)
  {
    |c.listeners| > 0
  }

  /** The write `set v` changes nothing: the limiter vetoes it, or the limited
      value is the one already stored. */
  predicate Vetoed<T(==)>(c: Cell<T>, v: Option<T>)
  {
    c.limiter(v).None? || c.limiter(v) == c.value
  }

  /** `update()`: one notification pass with the current value. */
  function Update<T>(c: Cell<T>): (es: seq<Event<Option<T>>>)
    ensures Recipients(es) == c.listeners
    ensures Carries(es, c.value)
    ensures Failures(es) == Throwers(c.listeners)
  {
    Notify(c.listeners, c.value)
  }

  /** The `set` setter. A vetoed write neither stores nor notifies; any other
      stores the limited value and then calls every listener exactly once,
      in insertion order, with that value. */
  function Set<T(==)>(c: Cell<T>, v: Option<T>): (r: Step<T>)
    ensures Vetoed(c, v) ==> r.cell == c && r.events == []
    ensures !Vetoed(c, v) ==> r.cell.value == c.limiter(v) && r.cell.value.Some?
    ensures r.cell.limiter == c.limiter && r.cell.listeners == c.listeners
    ensures !Vetoed(c, v) ==> Recipients(r.events) == c.listeners && Carries(r.events, c.limiter(v))
    ensures !Vetoed(c, v) ==> Failures(r.events) == Throwers(c.listeners)
  {
    var lv := c.limiter(v);
    if lv == c.value || lv.None? then Step(c, [])
    else
      var c' := c.(value := lv);
      Step(c', Update(c'))
  }

  /** `compare(val)`: true when `val` differs from the stored value. The
      source uses loose `!=` here and strict `===` in `set`; with one value
      type the two agree. */
  function Compare<T(==)>(c: Cell<T>, v: Option<T>): bool
  {
    v != c.value
  }

  /** `objectEquals(val)`, the negation of `compare`. */
  function ObjectEquals<T(==)>(c: Cell<T>, v: Option<T>): bool
  {
    !Compare(c, v)
  }

  /** `compare` predicts `set`: a write leaves the cell as it was exactly when
      the limiter vetoes it or `compare` says the limited value is no
      different; and `objectEquals` is the negation of `compare`. */
  lemma CompareDecidesSet<T>(c: Cell<T>, v: Option<T>)
    ensures Set(c, v).cell.value == c.value <==> c.limiter(v).None? || !Compare(c, c.limiter(v))
    ensures Set(c, v).events == [] <==> (Vetoed(c, v) || !HasListener(c))
    ensures ObjectEquals(c, v) <==> v == c.value
  {
    if !Vetoed(c, v) && HasListener(c) {
      assert Recipients(Set(c, v).events) == c.listeners;
    }
  }

  // ---------------------------------------------------------------------------
  // Listener registration

  /** `addListener(func, run)`. A non-function draws a warning and changes
      nothing. Otherwise the demand hook fires when the list was absent, the
      function is appended, and with `run` it is called at once with the
      current value, outside any try/catch. The function is returned unless
      that call threw. */
  function AddListener<T>(c: Cell<T>, f: Callable<Listener>, run: bool): (r: Reg<T>)
    ensures f.NotFn? ==> r.cell == c && r.events == [Warning] && r.returned == None
    ensures f.Fn? ==> r.cell == c.(listeners := c.listeners + [f.f])
    ensures f.Fn? ==> Demands(r.events) == if HasListener(c) then [] else [true]
    ensures f.Fn? ==> Recipients(r.events) == (if run then [f.f] else [])
    ensures f.Fn? ==> Carries(r.events, c.value)
    ensures f.Fn? ==> (r.returned == Some(f.f) <==> !(run && f.f.Throws()))
  {
    match f
    case NotFn => Reg(c, [Warning], None)
    case Fn(l) =>
      var hook: seq<Event<Option<T>>> := if HasListener(c) then [] else [Demand(true)];
      var c' := c.(listeners := c.listeners + [l]);
      if run then
        var call := RunNow(l, c.value);
        RecipientsAppend(hook, call);
        DemandsAppend(hook, call);
        Reg(c', hook + call, if l.Throws() then None else Some(l))
      else
        Reg(c', hook, Some(l))
  }

  /** The immediate call `addListener(func, true)` makes: outside any
      try/catch, so a throwing listener's exception propagates. */
  function RunNow<P>(l: Listener, p: P): (es: seq<Event<P>>)
    ensures Recipients(es) == [l] && Carries(es, p) && Demands(es) == []
    ensures Raised(l) in es <==> l.Throws()
  {
    SingleEvent(Called(l, p));
    SingleEvent<P>(Raised(l));
    RecipientsAppend<P>([Called(l, p)], [Raised(l)]);
    DemandsAppend<P>([Called(l, p)], [Raised(l)]);
    [Called(l, p)] + (if l.Throws() then [Raised(l)] else [])
  }

  /** `removeListener(func)`. A non-function draws a warning. Otherwise only
      the first occurrence is removed, the demand hook fires when the list
      becomes empty, and the function is returned whether or not it was
      registered. */
  function RemoveListener<T>(c: Cell<T>, f: Callable<Listener>): (r: Reg<T>)
    ensures f.NotFn? ==> r.cell == c && r.events == [Warning] && r.returned == None
    ensures f.Fn? ==> r.returned == Some(f.f)
    ensures r.cell.value == c.value && r.cell.limiter == c.limiter
    ensures f.Fn? && f.f !in c.listeners ==> r.cell == c && r.events == []
    ensures f.Fn? && f.f in c.listeners ==>
      exists i :: 0 <= i < |c.listeners| && c.listeners[i] == f.f && f.f !in c.listeners[..i]
        && r.cell.listeners == c.listeners[..i] + c.listeners[i + 1..]
    ensures f.Fn? ==> r.events == if HasListener(c) && !HasListener(r.cell) then [Demand(false)] else []
  {
    match f
    case NotFn => Reg(c, [Warning], None)
    case Fn(l) =>
      if !HasListener(c) then Reg(c, [], Some(l))
      else
        var i := JsArray.IndexOf(c.listeners, l);
        var ls := if i != -1 then JsArray.RemoveAt(c.listeners, i) else c.listeners;
        assert i != -1 ==> ls == c.listeners[..i] + c.listeners[i + 1..];
        Reg(c.(listeners := ls), if |ls| == 0 then [Demand(false)] else [], Some(l))
  }

  // ---------------------------------------------------------------------------
  // The demand hook over a run of registrations

  datatype Op = Add(l: Listener) | Remove(l: Listener)

  /** Applies registrations in order, collecting the trace. */
  function Run<T>(c: Cell<T>, ops: seq<Op>): Step<T>
    decreases |ops|
  {
    if |ops| == 0 then Step(c, [])
    else
      var r := Apply(c, ops[0]);
      var rest := Run(r.cell, ops[1..]);
      Step(rest.cell, r.events + rest.events)
  }

  /** `ds` is a strict alternation of hook calls that starts by leaving
      state `before` and ends in state `after`. */
  ghost predicate Alternates(ds: seq<bool>, before: bool, after: bool)
  {
    && (|ds| == 0 ==> before == after)
    && (|ds| > 0 ==> ds[0] == !before && ds[|ds| - 1] == after)
    && (forall i :: 0 <= i < |ds| - 1 ==> ds[i + 1] == !ds[i])
  }

  /** The registration `op` as one step. */
  function Apply<T>(c: Cell<T>, op: Op): Reg<T>
  {
    match op
    case Add(l) => AddListener(c, Fn(l), false)
    case Remove(l) => RemoveListener(c, Fn(l))
  }

  /** One registration fires at most one hook, and fires it exactly when it
      flips whether the cell has listeners. */
  lemma OneRegistration<T>(c: Cell<T>, op: Op)
    ensures var r := Apply(c, op);
      || (Demands(r.events) == [] && HasListener(r.cell) == HasListener(c))
      || (Demands(r.events) == [!HasListener(c)] && HasListener(r.cell) == !HasListener(c))
  {
    var r := Apply(c, op);
    if op.Remove? {
      if r.events == [Demand(false)] {
        SingleEvent<Option<T>>(Demand(false));
      } else {
        assert r.events == [];
      }
    }
  }

  /** Gluing two alternations that meet in the same state. */
  lemma AlternatesAppend(d1: seq<bool>, d2: seq<bool>, b0: bool, b1: bool, b2: bool)
    requires Alternates(d1, b0, b1) && Alternates(d2, b1, b2)
    ensures Alternates(d1 + d2, b0, b2)
  {
    var ds := d1 + d2;
    if |d1| > 0 && |d2| > 0 {
      forall i | 0 <= i < |ds| - 1
        ensures ds[i + 1] == !ds[i]
      {
        if i < |d1| - 1 {
          assert ds[i] == d1[i] && ds[i + 1] == d1[i + 1];
        } else if i == |d1| - 1 {
          assert ds[i] == d1[i] && ds[i + 1] == d2[0];
        } else {
          assert ds[i] == d2[i - |d1|] && ds[i + 1] == d2[i - |d1| + 1];
        }
      }
    } else if |d1| == 0 {
      assert ds == d2;
    } else {
      assert ds == d1;
    }
  }

  /** The reference for the hooks of a run: one entry per registration that
      flips whether the cell has listeners, holding the new state. */
  function Flips<T>(c: Cell<T>, ops: seq<Op>): seq<bool>
    decreases |ops|
  {
    if |ops| == 0 then []
    else
      var r := Apply(c, ops[0]);
      (if HasListener(r.cell) != HasListener(c) then [HasListener(r.cell)] else []) + Flips(r.cell, ops[1..])
  }

  /** Over any run of registrations, the hooks fired are exactly the flips of
      whether the cell has listeners, in order, each with the new state; so
      `onListener(true)` and `onListener(false)` strictly alternate, the first
      is the opposite of whether the cell had listeners, and the last matches
      whether it has them at the end. */
  lemma {:induction false} DemandHooksAlternate<T>(c: Cell<T>, ops: seq<Op>)
    ensures Demands(Run(c, ops).events) == Flips(c, ops)
    ensures Alternates(Demands(Run(c, ops).events), HasListener(c), HasListener(Run(c, ops).cell))
    decreases |ops|
  {
    if |ops| > 0 {
      var r := Apply(c, ops[0]);
      var rest := Run(r.cell, ops[1..]);
      assert Run(c, ops) == Step(rest.cell, r.events + rest.events);
      DemandHooksAlternate(r.cell, ops[1..]);
      DemandsAppend(r.events, rest.events);
      OneRegistration(c, ops[0]);
      AlternatesAppend(Demands(r.events), Demands(rest.events), HasListener(c), HasListener(r.cell), HasListener(rest.cell));
    }
  }

  /** A second listener added and removed again on a cell that already has
      one fires no hook at all: the 1→2→1 round never empties the list. */
  lemma BusyRoundFiresNone<T>(c: Cell<T>, l: Listener)
    requires HasListener(c)
    ensures Demands(Run(c, [Add(l), Remove(l)]).events) == []
    ensures Run(c, [Add(l), Remove(l)]).cell.listeners != []
  {
    var ops := [Add(l), Remove(l)];
    var a := Apply(c, ops[0]).cell;
    assert |a.listeners| == |c.listeners| + 1;
    DemandHooksAlternate(c, ops);
    assert ops[1..] == [Remove(l)];
    assert Flips(a, [Remove(l)]) == [];
  }
}

=== FILE: value_array.dfy ===
/** The array cell of src/valueArray.js: a `Value` whose value is an array,
    with a second kind of listener, the array listener, told about every
    in-place change as `(index, amount, values)`.

    An array is modelled with its identity, since the cell's `set` compares
    arrays by reference; the in-place operations keep the identity and
    `empty` makes a new array. Each in-place operation returns the changes
    it announced and the trace of the array listeners it called; a change is
    announced to every array listener before the next one is made. */
module ValueArray {
  import opened Wrappers
  import JsArray
  import ValueCell

  type Listener = ValueCell.Listener
  type Event<P> = ValueCell.Event<P>

  /** A JavaScript array object: its identity and its elements, `None`
      standing for `undefined` (a hole reads back as `undefined` too). */
  datatype Arr<E> = Arr(id: nat, items: seq<Option<E>>)

  /** What an array listener receives: at `index`, `amount` elements were
      added (positive) or removed (negative); `values` are the elements
      added, absent for a removal. An `amount` of 0 with values means the
      values replaced the elements from `index` on. */
  datatype Change<E> = Change(index: int, amount: int, values: Option<seq<Option<E>>>)

  /** The element limiter, applied to every element `push` and `unshift`
      add. */
  type ElementLimiter<!E> = Option<E> -> Option<E>

  /** The state of a `ValueArray`: the base cell holding the array (absent
      only when the constructor was given a non-array), the element limiter
      (the identity when none was given) and the array listeners. */
  datatype ArrayCell<!E> = ArrayCell(cell: ValueCell.Cell<Arr<E>>, elementLimiter: ElementLimiter<E>, arrayListeners: seq<Listener>)

  /** The result of an in-place operation: the new state, the changes
      announced, in order, and the trace of the array listener calls. */
  datatype Mutation<!E> = Mutation(next: ArrayCell<E>, changes: seq<Change<E>>, events: seq<Event<Change<E>>>)

  /** `pop` and `shift` also return the element taken (`undefined` on an
      empty array). */
  datatype Taken<!E> = Taken(step: Mutation<E>, elem: Option<E>)

  /** `splice` also returns the elements it removed. */
  datatype Cut<!E> = Cut(step: Mutation<E>, removed: seq<Option<E>>)

  /** The result of an operation that replaces the whole array and calls the
      plain value listeners. */
  datatype Stored<!E> = Stored(next: ArrayCell<E>, events: seq<Event<Option<Arr<E>>>>)

  /** The result of `addArrayListener`. */
  datatype Registered<!E> = Registered(next: ArrayCell<E>, events: seq<Event<Change<E>>>, returned: Option<Listener>)

  /** An argument that should be an array. */
  datatype ArrayArg<E> = AnArray(arr: Arr<E>) | NotAnArray

  // ---------------------------------------------------------------------------
  // Announcing changes

  /** One `___callArrayListeners` pass for each change, in order. */
  function Broadcast<P>(ls: seq<Listener>, cs: seq<P>): seq<Event<P>>
  {
    if |cs| == 0 then [] else ValueCell.Notify(ls, cs[0]) + Broadcast(ls, cs[1..])
  }

  lemma {:induction false} BroadcastAppend<P>(ls: seq<Listener>, cs: seq<P>, c: P)
    ensures Broadcast(ls, cs + [c]) == Broadcast(ls, cs) + ValueCell.Notify(ls, c)
    decreases |cs|
  {
    if |cs| == 0 {
      assert cs + [c] == [c];
      assert [c][1..] == [];
    } else {
      assert (cs + [c])[1..] == cs[1..] + [c];
      BroadcastAppend(ls, cs[1..], c);
    }
  }

  /** The payloads a trace handed to listener `l`, in order. */
  function Heard<P>(es: seq<Event<P>>, l: Listener): seq<P>
  {
    if |es| == 0 then []
    else (if es[0].Called? && es[0].listener == l then [es[0].payload] else []) + Heard(es[1..], l)
  }

  lemma HeardAppend<P>(a: seq<Event<P>>, b: seq<Event<P>>, l: Listener)
    ensures Heard(a + b, l) == Heard(a, l) + Heard(b, l)
  {
    if |a| > 0 {
      assert (a + b)[1..] == a[1..] + b;
      HeardAppend(a[1..], b, l);
    } else {
      assert a + b == b;
    }
  }

  lemma HeardOne<P>(e: Event<P>, l: Listener)
    ensures Heard([e], l) == if e.Called? && e.listener == l then [e.payload] else []
  {
    assert [e][1..] == [];
  }

  /** What one listener hears from its own visit in a notification pass. */
  lemma HeardVisit<P>(m: Listener, p: P, l: Listener)
    ensures var visit := [ValueCell.Called(m, p)] + (if m.Throws() then [ValueCell.Caught(m)] else []);
      Heard(visit, l) == if m == l then [p] else []
  {
    HeardOne(ValueCell.Called(m, p), l);
    if m.Throws() {
      HeardOne<P>(ValueCell.Caught(m), l);
      HeardAppend([ValueCell.Called(m, p)], [ValueCell.Caught(m)], l);
    } else {
      assert [ValueCell.Called(m, p)] + [] == [ValueCell.Called(m, p)];
    }
  }

  lemma CountHead(ls: seq<Listener>, l: Listener)
    requires |ls| > 0
    ensures multiset(ls)[l] == (if ls[0] == l then 1 else 0) + multiset(ls[1..])[l]
  {
    assert ls == [ls[0]] + ls[1..];
  }

  /** One notification pass splits into the first listener's visit and the
      pass over the others. */
  lemma HeardNotifyHead<P>(ls: seq<Listener>, p: P, l: Listener)
    requires |ls| > 0
    ensures Heard(ValueCell.Notify(ls, p), l) == (if ls[0] == l then [p] else []) + Heard(ValueCell.Notify(ls[1..], p), l)
  {
    var visit := [ValueCell.Called(ls[0], p)] + (if ls[0].Throws() then [ValueCell.Caught(ls[0])] else []);
    var rest := ValueCell.Notify(ls[1..], p);
    assert ValueCell.Notify(ls, p) == visit + rest;
    HeardAppend(visit, rest, l);
    HeardVisit(ls[0], p, l);
  }

  /** In one notification pass a listener hears the payload once for each
      time it is registered. */
  lemma {:induction false} HeardNotify<P>(ls: seq<Listener>, p: P, l: Listener)
    ensures var h := Heard(ValueCell.Notify(ls, p), l);
      |h| == multiset(ls)[l] && forall i :: 0 <= i < |h| ==> h[i] == p
    decreases |ls|
  {
    if |ls| > 0 {
      HeardNotifyHead(ls, p, l);
      HeardNotify(ls[1..], p, l);
      CountHead(ls, l);
    } else {
      assert ValueCell.Notify(ls, p) == [];
    }
  }

  /** A listener registered once hears one notification pass once. */
  lemma HeardOnce<P>(ls: seq<Listener>, p: P, l: Listener)
    requires multiset(ls)[l] == 1
    ensures Heard(ValueCell.Notify(ls, p), l) == [p]
  {
    HeardNotify(ls, p, l);
  }

  /** An array listener registered once hears every announced change,
      exactly once, in the order they were made. */
  lemma {:induction false} BroadcastHeard<P>(ls: seq<Listener>, cs: seq<P>, l: Listener)
    requires multiset(ls)[l] == 1
    ensures Heard(Broadcast(ls, cs), l) == cs
    decreases |cs|
  {
    if |cs| > 0 {
      HeardAppend(ValueCell.Notify(ls, cs[0]), Broadcast(ls, cs[1..]), l);
      HeardOnce(ls, cs[0], l);
      BroadcastHeard(ls, cs[1..], l);
      assert cs == [cs[0]] + cs[1..];
    }
  }

  // ---------------------------------------------------------------------------
  // What a listener can do with the changes

  /** A listener keeping a copy of the array applies a change to it; `None`
      when the change does not fit the copy. */
  function ApplyChange<E>(s: seq<Option<E>>, c: Change<E>): Option<seq<Option<E>>>
  {
    if c.amount < 0 then
      if 0 <= c.index && c.index - c.amount <= |s| then Some(s[..c.index] + s[c.index - c.amount..]) else None
    else match c.values
      case None => None
      case Some(vs) =>
        if c.amount > 0 then
          if |vs| == c.amount && 0 <= c.index <= |s| then Some(s[..c.index] + vs + s[c.index..]) else None
        else
          if 0 <= c.index && c.index + |vs| <= |s| then Some(s[..c.index] + vs + s[c.index + |vs|..]) else None
  }

  /** A copy replaying a run of changes. */
  function Replay<E>(s: seq<Option<E>>, cs: seq<Change<E>>): Option<seq<Option<E>>>
    decreases |cs|
  {
    if |cs| == 0 then Some(s)
    else match ApplyChange(s, cs[0])
      case None => None
      case Some(t) => Replay(t, cs[1..])
  }

  lemma {:induction false} ReplayAppend<E>(s: seq<Option<E>>, cs: seq<Change<E>>, c: Change<E>)
    ensures Replay(s, cs + [c]) == match Replay(s, cs) case None => None case Some(t) => ApplyChange(t, c)
    decreases |cs|
  {
    if |cs| == 0 {
      assert cs + [c] == [c];
      assert [c][1..] == [];
    } else {
      assert (cs + [c])[1..] == cs[1..] + [c];
      match ApplyChange(s, cs[0])
      case None =>
      case Some(t) => ReplayAppend(t, cs[1..], c);
    }
  }

  lemma ReplayOne<E>(s: seq<Option<E>>, c: Change<E>)
    ensures Replay(s, [c]) == ApplyChange(s, c)
  {
    assert [c][1..] == [];
  }

  lemma ReplayTwo<E>(s: seq<Option<E>>, c: Change<E>, d: Change<E>)
    ensures Replay(s, [c, d]) == match ApplyChange(s, c) case None => None case Some(t) => ApplyChange(t, d)
  {
    assert [c, d][1..] == [d];
    match ApplyChange(s, c)
    case None =>
    case Some(t) => ReplayOne(t, d);
  }

  /** An insertion of `vs` at `i` (a replacement of nothing when `vs` is
      empty) fits any copy at least `i` long. */
  lemma ApplyInsert<E>(s: seq<Option<E>>, i: nat, vs: seq<Option<E>>)
    requires i <= |s|
    ensures ApplyChange(s, Change(i, |vs|, Some(vs))) == Some(s[..i] + vs + s[i..])
  {
    if |vs| == 0 {
      assert s[i + |vs|..] == s[i..];
    }
  }

  lemma ApplyRemove<E>(s: seq<Option<E>>, i: nat, d: nat)
    requires d > 0 && i + d <= |s|
    ensures ApplyChange(s, Change(i, -(d as int), None)) == Some(s[..i] + s[i + d..])
  {
  }

  // ---------------------------------------------------------------------------
  // The state

  /** The cell holds an array (it does unless built from a non-array). */
  predicate Ready<E>(a: ArrayCell<E>)
  {
    a.cell.value.Some?
  }

  function Items<E>(a: ArrayCell<E>): seq<Option<E>>
    requires Ready(a)
  {
    a.cell.value.value.items
  }

  function Id<E>(a: ArrayCell<E>): nat
    requires Ready(a)
  {
    a.cell.value.value.id
  }

  /** The same array object, its elements changed in place. */
  function WithItems<E>(a: ArrayCell<E>, s: seq<Option<E>>): (r: ArrayCell<E>)
    requires Ready(a)
    ensures Ready(r) && Items(r) == s && Id(r) == Id(a)
    ensures r.cell.listeners == a.cell.listeners && r.cell.limiter == a.cell.limiter
    ensures r.arrayListeners == a.arrayListeners && r.elementLimiter == a.elementLimiter
  {
    a.(cell := a.cell.(value := Some(a.cell.value.value.(items := s))))
  }

  /** An in-place change: the same array object, the same listeners and
      limiters, and every announced change broadcast to the array
      listeners. */
  ghost predicate InPlace<E>(a: ArrayCell<E>, r: Mutation<E>)
    requires Ready(a)
  {
    && Ready(r.next) && Id(r.next) == Id(a)
    && r.next.cell.listeners == a.cell.listeners && r.next.cell.limiter == a.cell.limiter
    && r.next.arrayListeners == a.arrayListeners && r.next.elementLimiter == a.elementLimiter
    && r.events == Broadcast(a.arrayListeners, r.changes)
  }

  /** The array listeners are told the changes made, in order. */
  function Announce<E>(a: ArrayCell<E>, cs: seq<Change<E>>): Mutation<E>
  {
    Mutation(a, cs, Broadcast(a.arrayListeners, cs))
  }

  /** A listener registered once that keeps a copy of the array and applies
      every change it hears ends with the array, whenever the operation's
      changes replay to its result. */
  lemma ListenerMirrors<E>(a: ArrayCell<E>, r: Mutation<E>, l: Listener)
    requires Ready(a) && InPlace(a, r) && multiset(a.arrayListeners)[l] == 1
    requires Replay(Items(a), r.changes) == Some(Items(r.next))
    ensures Replay(Items(a), Heard(r.events, l)) == Some(Items(r.next))
  {
    BroadcastHeard(a.arrayListeners, r.changes, l);
  }

  // ---------------------------------------------------------------------------
  // Construction and registration

  /** `new ValueArray(init, limiter, elementLimiter)`, the new array object
      taking identity `id` when `init` is absent. The base cell starts
      without a value; an absent `init` makes it an empty array, an array is
      stored as given (neither limiter applies to it), anything else draws a
      warning and leaves no array. */
  function New<E(!new)>(init: Option<ArrayArg<E>>, limiter: Option<Callable<ValueCell.Limiter<Arr<E>>>>,
                        elementLimiter: Option<Callable<ElementLimiter<E>>>, id: nat): (r: Stored<E>)
    ensures init.None? ==> Ready(r.next) && Items(r.next) == [] && Id(r.next) == id
    ensures init.Some? && init.value.AnArray? ==> r.next.cell.value == Some(init.value.arr)
    ensures init.Some? && init.value.NotAnArray? ==> !Ready(r.next) && ValueCell.Warning in r.events
    ensures r.next.cell.listeners == [] && r.next.arrayListeners == []
    ensures limiter.Some? && limiter.value.Fn? ==> r.next.cell.limiter == limiter.value.f
    ensures !(elementLimiter.Some? && elementLimiter.value.Fn?) ==> forall v :: r.next.elementLimiter(v) == v
    ensures elementLimiter.Some? && elementLimiter.value.Fn? ==> r.next.elementLimiter == elementLimiter.value.f
    ensures !(limiter.Some? && limiter.value.Fn?) ==> forall v :: r.next.cell.limiter(v) == v
    ensures r.events ==
      (if limiter.Some? && limiter.value.NotFn? then [ValueCell.Warning] else [])
      + (if init.Some? && init.value.NotAnArray? then [ValueCell.Warning] else [])
      + (if elementLimiter.Some? && elementLimiter.value.NotFn? then [ValueCell.Warning] else [])
  {
    var base := ValueCell.New(None, limiter);
    var cell := match init
      case None => base.cell.(value := Some(Arr(id, [])))
      case Some(AnArray(arr)) => base.cell.(value := Some(arr))
      case Some(NotAnArray) => base.cell;
    var warned := if init.Some? && init.value.NotAnArray? then [ValueCell.Warning] else [];
    var a := ArrayCell(cell, v => v, []);
    match elementLimiter
    case None => Stored(a, base.events + warned)
    case Some(f) =>
      var b := SetElementLimiter(a, f);
      Stored(b.next, base.events + warned + b.events)
  }

  /** The `elementLimiter` setter: only a function replaces the element
      limiter. */
  function SetElementLimiter<E>(a: ArrayCell<E>, f: Callable<ElementLimiter<E>>): (r: Stored<E>)
    ensures f.Fn? ==> r.next == a.(elementLimiter := f.f) && r.events == []
    ensures f.NotFn? ==> r.next == a && r.events == [ValueCell.Warning]
  {
    match f
    case Fn(g) => Stored(a.(elementLimiter := g), [])
    case NotFn => Stored(a, [ValueCell.Warning])
  }

  /** `addArrayListener(func)`: a function is appended to the array
      listeners and returned; anything else draws a warning. */
  function AddArrayListener<E>(a: ArrayCell<E>, f: Callable<Listener>): (r: Registered<E>)
    ensures f.Fn? ==> r.next == a.(arrayListeners := a.arrayListeners + [f.f]) && r.events == [] && r.returned == Some(f.f)
    ensures f.NotFn? ==> r.next == a && r.events == [ValueCell.Warning] && r.returned == None
  {
    match f
    case Fn(l) => Registered(a.(arrayListeners := a.arrayListeners + [l]), [], Some(l))
    case NotFn => Registered(a, [ValueCell.Warning], None)
  }

  /** A listener added once, and not registered before, hears every change
      made from then on, in order. */
  lemma AddedListenerHearsAll<E>(a: ArrayCell<E>, l: Listener, cs: seq<Change<E>>)
    requires l !in a.arrayListeners
    ensures var b := AddArrayListener(a, Fn(l)).next;
      Heard(Broadcast(b.arrayListeners, cs), l) == cs
  {
    var b := AddArrayListener(a, Fn(l)).next;
    assert multiset(a.arrayListeners)[l] == 0;
    assert multiset(b.arrayListeners) == multiset(a.arrayListeners) + multiset{l};
    BroadcastHeard(b.arrayListeners, cs, l);
  }

  // ---------------------------------------------------------------------------
  // Adding and taking elements

  /** The elements through the element limiter, in order. */
  function Limited<E>(a: ArrayCell<E>, elems: seq<Option<E>>): (r: seq<Option<E>>)
    ensures |r| == |elems|
    ensures forall i :: 0 <= i < |elems| ==> r[i] == a.elementLimiter(elems[i])
  {
    seq(|elems|, i requires 0 <= i < |elems| => a.elementLimiter(elems[i]))
  }

  /** `push(...elems)`: the limited elements are appended and announced as
      one change at the old length. */
  function Push<E>(a: ArrayCell<E>, elems: seq<Option<E>>): (r: Mutation<E>)
    requires Ready(a)
    ensures InPlace(a, r)
    ensures |Items(r.next)| == |Items(a)| + |elems|
    ensures Items(r.next)[..|Items(a)|] == Items(a) && Items(r.next)[|Items(a)|..] == Limited(a, elems)
    ensures r.changes == [Change(|Items(a)|, |elems|, Some(Limited(a, elems)))]
  {
    var es := Limited(a, elems);
    var s := Items(a);
    assert (s + es)[..|s|] == s && (s + es)[|s|..] == es;
    Announce(WithItems(a, s + es), [Change(|s|, |es|, Some(es))])
  }

  /** `unshift(...elems)`: the limited elements are put in front and
      announced as one change at index 0; the old elements follow in their
      order. */
  function Unshift<E>(a: ArrayCell<E>, elems: seq<Option<E>>): (r: Mutation<E>)
    requires Ready(a)
    ensures InPlace(a, r)
    ensures |Items(r.next)| == |elems| + |Items(a)|
    ensures Items(r.next)[..|elems|] == Limited(a, elems) && Items(r.next)[|elems|..] == Items(a)
    ensures r.changes == [Change(0, |elems|, Some(Limited(a, elems)))]
  {
    var es := Limited(a, elems);
    var s := Items(a);
    assert (es + s)[..|es|] == es && (es + s)[|es|..] == s;
    Announce(WithItems(a, es + s), [Change(0, |es|, Some(es))])
  }

  /** `pop()`: on an empty array nothing changes and nothing is announced;
      otherwise the last element is taken and its removal announced. */
  function Pop<E>(a: ArrayCell<E>): (r: Taken<E>)
    requires Ready(a)
    ensures InPlace(a, r.step)
    ensures |Items(a)| == 0 ==> r.step.next == a && r.step.changes == [] && r.elem == None
    ensures |Items(a)| > 0 ==>
      && Items(a) == Items(r.step.next) + [r.elem]
      && r.step.changes == [Change(|Items(a)| - 1, -1, None)]
  {
    var s := Items(a);
    if |s| == 0 then Taken(Announce(a, []), None)
    else
      assert s == s[..|s| - 1] + [s[|s| - 1]];
      Taken(Announce(WithItems(a, s[..|s| - 1]), [Change(|s| - 1, -1, None)]), s[|s| - 1])
  }

  /** `shift()`: on an empty array nothing changes and nothing is
      announced; otherwise the first element is taken and its removal
      announced at index 0. */
  function Shift<E>(a: ArrayCell<E>): (r: Taken<E>)
    requires Ready(a)
    ensures InPlace(a, r.step)
    ensures |Items(a)| == 0 ==> r.step.next == a && r.step.changes == [] && r.elem == None
    ensures |Items(a)| > 0 ==>
      && Items(a) == [r.elem] + Items(r.step.next)
      && r.step.changes == [Change(0, -1, None)]
  {
    var s := Items(a);
    if |s| == 0 then Taken(Announce(a, []), None)
    else
      assert s == [s[0]] + s[1..];
      Taken(Announce(WithItems(a, s[1..]), [Change(0, -1, None)]), s[0])
  }

  /** `splice(start, deleteCount, ...elems)`: the array's own `splice`
      (without the element limiter), then a removal announced at `start` if
      anything was removed, then always the insertion of `elems` at
      `start`. Both announcements carry `start` as given. */
  function Splice<E>(a: ArrayCell<E>, start: int, deleteCount: int, elems: seq<Option<E>>): (r: Cut<E>)
    requires Ready(a)
    ensures InPlace(a, r.step)
    ensures var k := JsArray.SpliceStart(start, |Items(a)|);
      var rest := Items(r.step.next);
      && |r.removed| == JsArray.SpliceCount(deleteCount, k, |Items(a)|)
      && rest == Items(a)[..k] + elems + Items(a)[k + |r.removed|..]
      && r.removed == Items(a)[k..k + |r.removed|]
    ensures r.step.changes ==
      (if |r.removed| > 0 then [Change(start, -|r.removed|, None)] else []) + [Change(start, |elems|, Some(elems))]
  {
    var s := Items(a);
    var sp := JsArray.Splice(s, start, deleteCount, elems);
    var cs := (if |sp.removed| > 0 then [Change(start, -|sp.removed|, None)] else []) + [Change(start, |elems|, Some(elems))];
    Cut(Announce(WithItems(a, sp.rest), cs), sp.removed)
  }

  // ---------------------------------------------------------------------------
  // Reading and writing one index

  /** `getIndex(i)`: the element at `i`, `undefined` past the end. */
  function GetIndex<E>(a: ArrayCell<E>, i: nat): Option<E>
    requires Ready(a)
  {
    if i < |Items(a)| then Items(a)[i] else None
  }

  /** The padding announced when `setIndex` writes at or past the end: the
      slots from the old length up to `index`, all `undefined`. */
  function Padding<E>(len: nat, index: nat): Change<E>
    requires index >= len
  {
    Change(len, index - len + 1, Some(seq(index - len + 1, _ => None)))
  }

  /** `setIndex(index, v)` as evidently intended: nothing happens when the
      element (`undefined` past the end) already is `v`; otherwise, when
      `index` is at or past the end, the growth is announced as padding
      first, then `v` is stored and announced as replacing the element at
      `index`. */
  function SetIndex<E(==)>(a: ArrayCell<E>, index: nat, v: Option<E>): (r: Mutation<E>)
    requires Ready(a)
    ensures InPlace(a, r)
    ensures GetIndex(a, index) == v ==> r.next == a && r.changes == []
    ensures GetIndex(a, index) != v ==>
      && Items(r.next) == JsArray.Put(Items(a), index, v, None)
      && r.changes == (if index >= |Items(a)| then [Padding(|Items(a)|, index)] else []) + [Change(index, 0, Some([v]))]
  {
    var s := Items(a);
    if GetIndex(a, index) == v then Announce(a, [])
    else
      var pad := if index >= |s| then [Padding(|s|, index)] else [];
      Announce(WithItems(a, JsArray.Put(s, index, v, None)), pad + [Change(index, 0, Some([v]))])
  }

  /** `setIndex` as written: the padding is announced only when `index` is
      strictly past the end, so a write at index `length` grows the array
      but is announced as replacing an element that does not exist. */
  function SetIndexAsWritten<E(==)>(a: ArrayCell<E>, index: nat, v: Option<E>): (r: Mutation<E>)
    requires Ready(a)
    ensures InPlace(a, r)
    ensures index != |Items(a)| ==> r == SetIndex(a, index, v)
    ensures index == |Items(a)| && v.Some? ==>
      Items(r.next) == Items(a) + [v] && r.changes == [Change(index, 0, Some([v]))]
  {
    var s := Items(a);
    if GetIndex(a, index) == v then Announce(a, [])
    else
      var pad := if index > |s| then [Padding(|s|, index)] else [];
      Announce(WithItems(a, JsArray.Put(s, index, v, None)), pad + [Change(index, 0, Some([v]))])
  }

  /** After `setIndex`, reading the index gives what was written, and every
      other element is as it was or, between the old end and `index`,
      `undefined`. */
  lemma SetIndexThenGet<E>(a: ArrayCell<E>, index: nat, v: Option<E>, j: nat)
    requires Ready(a)
    ensures var b := SetIndex(a, index, v).next;
      && GetIndex(b, index) == v
      && (j != index ==> GetIndex(b, j) == GetIndex(a, j))
  {
  }

  /** The evident intent holds: a copy replaying `setIndex`'s changes ends
      equal to the array. */
  lemma SetIndexReplays<E>(a: ArrayCell<E>, index: nat, v: Option<E>)
    requires Ready(a)
    ensures var r := SetIndex(a, index, v);
      Replay(Items(a), r.changes) == Some(Items(r.next))
  {
    var s := Items(a);
    var r := SetIndex(a, index, v);
    if GetIndex(a, index) != v {
      var put := JsArray.Put(s, index, v, None);
      var c := Change(index, 0, Some([v]));
      if index >= |s| {
        var vs: seq<Option<E>> := seq(index - |s| + 1, _ => None);
        var grown := s + vs;
        ApplyInsert(s, |s|, vs);
        assert s[..|s|] + vs + s[|s|..] == grown;
        assert ApplyChange(grown, c) == Some(grown[..index] + [v] + grown[index + 1..]);
        assert grown[..index] + [v] + grown[index + 1..] == put;
        assert r.changes == [Padding(|s|, index), c];
        ReplayTwo(s, Padding(|s|, index), c);
      } else {
        assert s[..index] + [v] + s[index + 1..] == put;
        assert r.changes == [c];
        ReplayOne(s, c);
      }
    }
  }

  /** As written, `setIndex(length, v)` grows the array, but the one change
      it announces does not fit a copy of the array: a listener mirroring
      the array cannot follow. */
  lemma SetIndexAsWrittenLosesGrowth<E>(a: ArrayCell<E>, v: E)
    requires Ready(a)
    ensures var r := SetIndexAsWritten(a, |Items(a)|, Some(v));
      && |Items(r.next)| == |Items(a)| + 1
      && Replay(Items(a), r.changes) == None
  {
    var r := SetIndexAsWritten(a, |Items(a)|, Some(v));
    assert r.changes[1..] == [];
  }

  // ---------------------------------------------------------------------------
  // Removing every occurrence

  /** `s` without any occurrence of `x`, the others in order. */
  function Without<E(==)>(s: seq<Option<E>>, x: Option<E>): seq<Option<E>>
  {
    if |s| == 0 then [] else (if s[0] == x then [] else [s[0]]) + Without(s[1..], x)
  }

  lemma {:induction false} WithoutLacks<E>(s: seq<Option<E>>, x: Option<E>)
    ensures x !in Without(s, x)
    decreases |s|
  {
    if |s| > 0 {
      WithoutLacks(s[1..], x);
    }
  }

  /** Where the occurrences of `x` are announced when they are removed one
      by one from the front: each at the number of elements kept before
      it. */
  function Points<E(==)>(s: seq<Option<E>>, x: Option<E>): (ps: seq<nat>)
  {
    if |s| == 0 then []
    else
      var rest := Points(s[1..], x);
      if s[0] == x then [0] + rest else Plus(rest, 1)
  }

  /** Every point moved up by `n`. */
  function Plus(ps: seq<nat>, n: nat): (r: seq<nat>)
    ensures |r| == |ps|
    ensures forall k :: 0 <= k < |ps| ==> r[k] == ps[k] + n
  {
    seq(|ps|, k requires 0 <= k < |ps| => ps[k] + n)
  }

  lemma PlusAppend(p: seq<nat>, q: seq<nat>, n: nat)
    ensures Plus(p + q, n) == Plus(p, n) + Plus(q, n)
  {
  }

  lemma PlusPlus(p: seq<nat>, m: nat, n: nat)
    ensures Plus(Plus(p, m), n) == Plus(p, m + n)
  {
  }

  /** One point per occurrence. */
  lemma {:induction false} PointsCount<E>(s: seq<Option<E>>, x: Option<E>)
    ensures |Points(s, x)| == multiset(s)[x]
    decreases |s|
  {
    if |s| > 0 {
      PointsCount(s[1..], x);
      assert s == [s[0]] + s[1..];
    }
  }

  /** One removal of a single element per point. */
  function Removals<E>(ps: seq<nat>): (cs: seq<Change<E>>)
    ensures |cs| == |ps|
    ensures forall k :: 0 <= k < |ps| ==> cs[k] == Change(ps[k], -1, None)
  {
    seq(|ps|, k requires 0 <= k < |ps| => Change(ps[k], -1, None))
  }

  lemma {:induction false} NoOccurrence<E>(s: seq<Option<E>>, x: Option<E>)
    requires x !in s
    ensures Without(s, x) == s && Points(s, x) == []
    decreases |s|
  {
    if |s| > 0 {
      assert x !in s[1..] by {
        forall k | 0 <= k < |s[1..]|
          ensures s[1..][k] != x
        {
          assert s[1..][k] == s[k + 1];
        }
      }
      NoOccurrence(s[1..], x);
      assert s == [s[0]] + s[1..];
    }
  }

  lemma {:induction false} WithoutAppend<E>(a: seq<Option<E>>, b: seq<Option<E>>, x: Option<E>)
    ensures Without(a + b, x) == Without(a, x) + Without(b, x)
    decreases |a|
  {
    if |a| > 0 {
      assert (a + b)[0] == a[0] && (a + b)[1..] == a[1..] + b;
      WithoutAppend(a[1..], b, x);
    } else {
      assert a + b == b;
    }
  }

  lemma ConsAppend(p: seq<nat>, q: seq<nat>)
    ensures [0] + (p + q) == ([0] + p) + q
  {
  }

  /** An occurrence at the head is announced at 0 and not kept. */
  lemma PointsHead<E>(s: seq<Option<E>>, x: Option<E>)
    requires |s| > 0 && s[0] == x
    ensures Points(s, x) == [0] + Points(s[1..], x)
    ensures Without(s, x) == Without(s[1..], x)
  {
  }

  /** The step of `PointsAppend` when `a` starts with an occurrence. */
  lemma PointsAppendHit<E>(a: seq<Option<E>>, b: seq<Option<E>>, x: Option<E>)
    requires |a| > 0 && a[0] == x
    requires Points(a[1..] + b, x) == Points(a[1..], x) + Plus(Points(b, x), |Without(a[1..], x)|)
    ensures Points(a + b, x) == Points(a, x) + Plus(Points(b, x), |Without(a, x)|)
  {
    var t := a[1..];
    PointsHead(a, x);
    PointsHead(a + b, x);
    assert (a + b)[1..] == t + b;
    ConsAppend(Points(t, x), Plus(Points(b, x), |Without(t, x)|));
  }

  /** The step of `PointsAppend` when `a` starts with another element. */
  lemma PointsAppendMiss<E>(a: seq<Option<E>>, b: seq<Option<E>>, x: Option<E>)
    requires |a| > 0 && a[0] != x
    requires Points(a[1..] + b, x) == Points(a[1..], x) + Plus(Points(b, x), |Without(a[1..], x)|)
    ensures Points(a + b, x) == Points(a, x) + Plus(Points(b, x), |Without(a, x)|)
  {
    var t := a[1..];
    var pb := Points(b, x);
    var w := |Without(t, x)|;
    assert (a + b)[0] == a[0] && (a + b)[1..] == t + b;
    assert Points(a + b, x) == Plus(Points(t + b, x), 1);
    assert Points(a, x) == Plus(Points(t, x), 1);
    assert |Without(a, x)| == w + 1;
    PlusAppend(Points(t, x), Plus(pb, w), 1);
    PlusPlus(pb, w, 1);
  }

  lemma {:induction false} PointsAppend<E>(a: seq<Option<E>>, b: seq<Option<E>>, x: Option<E>)
    ensures Points(a + b, x) == Points(a, x) + Plus(Points(b, x), |Without(a, x)|)
    decreases |a|
  {
    if |a| > 0 {
      PointsAppend(a[1..], b, x);
      if a[0] == x {
        PointsAppendHit(a, b, x);
      } else {
        PointsAppendMiss(a, b, x);
      }
    } else {
      var pb := Points(b, x);
      assert a + b == b;
      assert Without(a, x) == [] && Points(a, x) == [];
      assert Plus(pb, 0) == pb;
    }
  }

  /** A run free of `x` closed by an `x`: the run is kept and the one
      announcement lands just past it. */
  lemma StripOne<E>(c: seq<Option<E>>, x: Option<E>)
    requires x !in c
    ensures Without(c + [x], x) == c && Points(c + [x], x) == [|c|]
  {
    NoOccurrence(c, x);
    WithoutAppend(c, [x], x);
    PointsAppend(c, [x], x);
    assert [x][1..] == [];
    assert Without([x], x) == [] && Points([x], x) == [0];
    assert Plus([0], |c|) == [|c|];
  }

  /** Removing the first occurrence, at `j` of the unvisited part `post`,
      moves the visited boundary past it: the kept part grows by what
      preceded it, and its announcement lands at the number of elements
      kept before it. */
  lemma StripStep<E>(pre: seq<Option<E>>, post: seq<Option<E>>, x: Option<E>, j: nat)
    requires j < |post| && post[j] == x && x !in post[..j]
    ensures Without(pre + post[..j + 1], x) == Without(pre, x) + post[..j]
    ensures Points(pre + post[..j + 1], x) == Points(pre, x) + [|Without(pre, x)| + j]
  {
    var c := post[..j];
    assert post[..j + 1] == c + [x];
    StripOne(c, x);
    WithoutAppend(pre, c + [x], x);
    PointsAppend(pre, c + [x], x);
    assert Plus([|c|], |Without(pre, x)|) == [|Without(pre, x)| + j];
  }

  /** `IndexOf` on a kept part free of `x` followed by the unvisited part
      finds the first occurrence in the unvisited part. */
  lemma IndexOfPastKept<E>(w: seq<Option<E>>, post: seq<Option<E>>, x: Option<E>)
    requires x !in w
    ensures var j := JsArray.IndexOf(post, x);
      JsArray.IndexOf(w + post, x) == if j == -1 then -1 else |w| + j
  {
    var j := JsArray.IndexOf(post, x);
    if j == -1 {
      assert x !in w + post;
    } else {
      assert (w + post)[..|w| + j] == w + post[..j];
      JsArray.IndexOfIsFirst(w + post, x, |w| + j);
    }
  }

  /** The loop of `removeIfExist` midway: `pre` has been visited and lost its
      occurrences, `post` not yet, and the removals so far were announced
      and replay to the current array. */
  ghost predicate Stripping<E>(s: seq<Option<E>>, x: Option<E>, pre: seq<Option<E>>, post: seq<Option<E>>,
                                    cur: seq<Option<E>>, cs: seq<Change<E>>)
  {
    && s == pre + post
    && cur == Without(pre, x) + post
    && cs == Removals(Points(pre, x))
    && Replay(s, cs) == Some(cur)
  }

  /** One round of the loop keeps it midway: the first occurrence, at `i`
      of the current array and at `j` of the unvisited part, is removed and
      the visited part grows past it. */
  lemma RemoveStep<E>(s: seq<Option<E>>, x: Option<E>, pre: seq<Option<E>>, post: seq<Option<E>>,
                      cur: seq<Option<E>>, cs: seq<Change<E>>, i: int, j: int)
    requires Stripping(s, x, pre, post, cur, cs) && i == JsArray.IndexOf(cur, x) != -1
    requires j == JsArray.IndexOf(post, x)
    ensures 0 <= j < |post| && i == |Without(pre, x)| + j
    ensures Stripping(s, x, pre + post[..j + 1], post[j + 1..], JsArray.RemoveAt(cur, i), cs + [Change(i, -1, None)])
  {
    var w := Without(pre, x);
    WithoutLacks(pre, x);
    IndexOfPastKept(w, post, x);
    RemoveStepAt(s, x, pre, post, cur, cs, i, j, w);
  }

  lemma RemoveStepAt<E>(s: seq<Option<E>>, x: Option<E>, pre: seq<Option<E>>, post: seq<Option<E>>,
                        cur: seq<Option<E>>, cs: seq<Change<E>>, i: nat, j: nat, w: seq<Option<E>>)
    requires Stripping(s, x, pre, post, cur, cs) && w == Without(pre, x)
    requires j < |post| && post[j] == x && x !in post[..j] && i == |w| + j
    ensures Stripping(s, x, pre + post[..j + 1], post[j + 1..], JsArray.RemoveAt(cur, i), cs + [Change(i, -1, None)])
  {
    StripStep(pre, post, x, j);
    RemoveStepItems(pre, post, cur, i, j, w);
    RemoveStepChanges(s, cur, cs, Points(pre, x), i);
  }

  /** The elements after one round: the visited part grows by the run up to
      and including the occurrence, which the array loses. */
  lemma RemoveStepItems<E>(pre: seq<Option<E>>, post: seq<Option<E>>, cur: seq<Option<E>>, i: nat, j: nat, w: seq<Option<E>>)
    requires cur == w + post && j < |post| && i == |w| + j
    ensures pre + post == (pre + post[..j + 1]) + post[j + 1..]
    ensures JsArray.RemoveAt(cur, i) == (w + post[..j]) + post[j + 1..]
  {
    assert post == post[..j + 1] + post[j + 1..];
    assert cur[..i] == w + post[..j];
    assert cur[i + 1..] == post[j + 1..];
  }

  /** The changes after one round: one more removal, which a replaying copy
      follows. */
  lemma RemoveStepChanges<E>(s: seq<Option<E>>, cur: seq<Option<E>>, cs: seq<Change<E>>, ps: seq<nat>, i: nat)
    requires cs == Removals(ps) && Replay(s, cs) == Some(cur) && i < |cur|
    ensures cs + [Change(i, -1, None)] == Removals(ps + [i])
    ensures Replay(s, cs + [Change(i, -1, None)]) == Some(JsArray.RemoveAt(cur, i))
  {
    var c := Change(i, -1, None);
    ReplayAppend(s, cs, c);
    assert ApplyChange(cur, c) == Some(JsArray.RemoveAt(cur, i));
  }

  /** When `x` no longer occurs, the loop has removed every occurrence. */
  lemma RemoveDone<E>(s: seq<Option<E>>, x: Option<E>, pre: seq<Option<E>>, post: seq<Option<E>>,
                      cur: seq<Option<E>>, cs: seq<Change<E>>)
    requires Stripping(s, x, pre, post, cur, cs) && JsArray.IndexOf(cur, x) == -1
    ensures cur == Without(s, x) && cs == Removals(Points(s, x))
  {
    WithoutLacks(pre, x);
    IndexOfPastKept(Without(pre, x), post, x);
    NoOccurrence(post, x);
    WithoutAppend(pre, post, x);
    PointsAppend(pre, post, x);
    assert Plus([], |Without(pre, x)|) == [];
  }

  /** `removeIfExist(x)`: while `x` occurs, its first occurrence is removed
      and the removal announced. Afterwards `x` does not occur, the other
      elements are kept in order, one removal was announced per occurrence,
      each at the number of elements kept before that occurrence, and a
      copy replaying the removals ends equal to the array. */
  method RemoveIfExist<E(==)>(a: ArrayCell<E>, x: Option<E>) returns (r: Mutation<E>)
    requires Ready(a)
    ensures InPlace(a, r)
    ensures Items(r.next) == Without(Items(a), x)
    ensures r.changes == Removals(Points(Items(a), x))
    ensures Replay(Items(a), r.changes) == Some(Items(r.next))
  {
    var cur := Items(a);
    var cs: seq<Change<E>> := [];
    var es: seq<Event<Change<E>>> := [];
    ghost var pre: seq<Option<E>> := [];
    ghost var post := cur;
    assert Stripping(Items(a), x, pre, post, cur, cs) by {
      assert Without(pre, x) == [] && Points(pre, x) == [];
    }
    var i := JsArray.IndexOf(cur, x);
    while i != -1
      invariant Stripping(Items(a), x, pre, post, cur, cs)
      invariant es == Broadcast(a.arrayListeners, cs)
      invariant i == JsArray.IndexOf(cur, x)
      decreases |post|
    {
      ghost var j := JsArray.IndexOf(post, x);
      RemoveStep(Items(a), x, pre, post, cur, cs, i, j);
      var c := Change(i, -1, None);
      BroadcastAppend(a.arrayListeners, cs, c);
      cur := JsArray.RemoveAt(cur, i);
      cs := cs + [c];
      es := es + ValueCell.Notify(a.arrayListeners, c);
      pre, post := pre + post[..j + 1], post[j + 1..];
      i := JsArray.IndexOf(cur, x);
    }
    RemoveDone(Items(a), x, pre, post, cur, cs);
    r := Mutation(WithItems(a, cur), cs, es);
  }

  /** After `removeIfExist(x)`, `x` does not occur, and one removal was
      announced for each occurrence there was. */
  lemma RemoveIfExistCounts<E>(s: seq<Option<E>>, x: Option<E>)
    ensures x !in Without(s, x)
    ensures |Removals<E>(Points(s, x))| == multiset(s)[x]
    ensures |Without(s, x)| == |s| - multiset(s)[x]
  {
    WithoutLacks(s, x);
    PointsCount(s, x);
    WithoutCount(s, x);
  }

  lemma {:induction false} WithoutCount<E>(s: seq<Option<E>>, x: Option<E>)
    ensures |Without(s, x)| == |s| - multiset(s)[x]
    decreases |s|
  {
    if |s| > 0 {
      WithoutCount(s[1..], x);
      assert s == [s[0]] + s[1..];
    }
  }

  // ---------------------------------------------------------------------------
  // Changes a mirror can follow

  /** A copy replaying `push`'s change ends equal to the array. */
  lemma PushReplays<E>(a: ArrayCell<E>, elems: seq<Option<E>>)
    requires Ready(a)
    ensures var r := Push(a, elems); Replay(Items(a), r.changes) == Some(Items(r.next))
  {
    var r := Push(a, elems);
    var s := Items(a);
    var es := Limited(a, elems);
    ReplayOne(s, Change(|s|, |es|, Some(es)));
    ApplyInsert(s, |s|, es);
    var n := Items(r.next);
    assert n == n[..|s|] + n[|s|..];
    assert s[..|s|] + es + s[|s|..] == s + es;
  }

  /** A copy replaying `unshift`'s change ends equal to the array. */
  lemma UnshiftReplays<E>(a: ArrayCell<E>, elems: seq<Option<E>>)
    requires Ready(a)
    ensures var r := Unshift(a, elems); Replay(Items(a), r.changes) == Some(Items(r.next))
  {
    var r := Unshift(a, elems);
    var s := Items(a);
    var es := Limited(a, elems);
    ReplayOne(s, Change(0, |es|, Some(es)));
    ApplyInsert(s, 0, es);
    assert Items(r.next) == s[..0] + es + s[0..];
  }

  /** A copy replaying `pop`'s or `shift`'s change ends equal to the
      array. */
  lemma PopAndShiftReplay<E>(a: ArrayCell<E>)
    requires Ready(a)
    ensures var r := Pop(a).step; Replay(Items(a), r.changes) == Some(Items(r.next))
    ensures var r := Shift(a).step; Replay(Items(a), r.changes) == Some(Items(r.next))
  {
    var s := Items(a);
    if |s| > 0 {
      ReplayOne(s, Change(|s| - 1, -1, None));
      ApplyRemove(s, |s| - 1, 1);
      ReplayOne(s, Change(0, -1, None));
      ApplyRemove(s, 0, 1);
      assert s[..|s| - 1] + s[|s|..] == s[..|s| - 1];
      assert s[..0] + s[1..] == s[1..];
    }
  }

  /** A copy replaying `splice`'s changes ends equal to the array, when
      `start` lies within the array (the announcements carry `start` as
      given, which is not where the change happened when it is negative or
      past the end). */
  lemma SpliceReplays<E>(a: ArrayCell<E>, start: int, deleteCount: int, elems: seq<Option<E>>)
    requires Ready(a) && 0 <= start <= |Items(a)|
    ensures var r := Splice(a, start, deleteCount, elems).step;
      Replay(Items(a), r.changes) == Some(Items(r.next))
  {
    var s := Items(a);
    var c := Splice(a, start, deleteCount, elems);
    var d := |c.removed|;
    var mid := s[..start] + s[start + d..];
    var ins: Change<E> := Change(start, |elems|, Some(elems));
    ApplyInsert(mid, start, elems);
    assert mid[..start] == s[..start];
    assert mid[start..] == s[start + d..];
    if d > 0 {
      ApplyRemove(s, start, d);
      assert c.step.changes == [Change(start, -d, None), ins];
      ReplayTwo(s, Change(start, -d, None), ins);
    } else {
      assert mid == s;
      assert c.step.changes == [ins];
      ReplayOne(s, ins);
    }
  }

  /** `pop` undoes `push` of one element, which it hands back. */
  lemma PopUndoesPush<E>(a: ArrayCell<E>, e: Option<E>)
    requires Ready(a)
    ensures var p := Push(a, [e]).next;
      var r := Pop(p);
      && Items(r.step.next) == Items(a)
      && r.elem == a.elementLimiter(e)
  {
    var p := Push(a, [e]).next;
    assert Items(p) == Items(a) + [a.elementLimiter(e)];
  }

  /** `shift` undoes `unshift` of one element, which it hands back. */
  lemma ShiftUndoesUnshift<E>(a: ArrayCell<E>, e: Option<E>)
    requires Ready(a)
    ensures var p := Unshift(a, [e]).next;
      var r := Shift(p);
      && Items(r.step.next) == Items(a)
      && r.elem == a.elementLimiter(e)
  {
    var p := Unshift(a, [e]).next;
    assert Items(p) == [a.elementLimiter(e)] + Items(a);
  }

  // ---------------------------------------------------------------------------
  // Replacing the whole array, comparing

  /** The `set` setter finds nothing to do: the limiter vetoes the array or
      returns the very array object already stored. */
  predicate Unchanged<E>(a: ArrayCell<E>, lv: Option<Arr<E>>)
  {
    lv.None? || (Ready(a) && lv.value.id == Id(a))
  }

  /** The `set` setter: a non-array is ignored; an array goes through the
      limiter and, unless that vetoes it or gives back the array already
      stored, is stored and the plain value listeners are told. The array
      listeners are not told. */
  function Set<E>(a: ArrayCell<E>, x: ArrayArg<E>): (r: Stored<E>)
    ensures x.NotAnArray? ==> r == Stored(a, [])
    ensures x.AnArray? && Unchanged(a, a.cell.limiter(Some(x.arr))) ==> r == Stored(a, [])
    ensures x.AnArray? && !Unchanged(a, a.cell.limiter(Some(x.arr))) ==>
      && r.next == a.(cell := a.cell.(value := a.cell.limiter(Some(x.arr))))
      && ValueCell.Recipients(r.events) == a.cell.listeners
      && ValueCell.Carries(r.events, a.cell.limiter(Some(x.arr)))
      && ValueCell.Failures(r.events) == ValueCell.Throwers(a.cell.listeners)
  {
    match x
    case NotAnArray => Stored(a, [])
    case AnArray(arr) =>
      var lv := a.cell.limiter(Some(arr));
      if Unchanged(a, lv) then Stored(a, [])
      else
        var b := a.(cell := a.cell.(value := lv));
        Stored(b, ValueCell.Update(b.cell))
  }

  /** Setting the same array twice: the second write finds the array it
      stored and does nothing. */
  lemma SetTwice<E>(a: ArrayCell<E>, x: ArrayArg<E>)
    ensures var b := Set(a, x).next;
      Set(b, x) == Stored(b, [])
  {
  }

  /** `empty()`: a new, empty array object (identity `newId`) replaces the
      array and the plain value listeners are told, once each, in order; the
      array listeners are not told. */
  function Empty<E>(a: ArrayCell<E>, newId: nat): (r: Stored<E>)
    ensures Ready(r.next) && Items(r.next) == [] && Id(r.next) == newId
    ensures r.next.cell.listeners == a.cell.listeners && r.next.arrayListeners == a.arrayListeners
    ensures ValueCell.Recipients(r.events) == a.cell.listeners
    ensures ValueCell.Carries(r.events, Some(Arr(newId, [])))
  {
    var b := a.(cell := a.cell.(value := Some(Arr(newId, []))));
    Stored(b, ValueCell.Update(b.cell))
  }

  /** After `empty`, setting the array it replaced (under a limiter that
      passes arrays through) stores that array again, since it is another
      object. */
  lemma EmptyThenRestore<E>(a: ArrayCell<E>, newId: nat)
    requires Ready(a) && newId != Id(a)
    requires forall v :: a.cell.limiter(v) == v
    ensures var b := Empty(a, newId).next;
      Set(b, AnArray(a.cell.value.value)).next.cell.value == a.cell.value
  {
  }

  /** `compare(x)`: false exactly when `x` is an array of the same length
      whose elements equal the stored ones index by index; the identity of
      the arrays plays no part. A non-array differs without the stored
      value being looked at, so only an array argument needs one stored. */
  method Compare<E(==)>(a: ArrayCell<E>, x: ArrayArg<E>) returns (differs: bool)
    requires x.AnArray? ==> Ready(a)
    ensures !differs <==> x.AnArray? && x.arr.items == Items(a)
  {
    match x {
      case NotAnArray =>
        return true;
      case AnArray(arr) =>
        var s := Items(a);
        if |arr.items| != |s| {
          return true;
        }
        var i := 0;
        while i < |s|
          invariant 0 <= i <= |s|
          invariant s[..i] == arr.items[..i]
        {
          if s[i] != arr.items[i] {
            return true;
          }
          i := i + 1;
        }
        assert s == s[..i] && arr.items == arr.items[..i];
        return false;
    }
  }

  /** `indexOf(x, fromIndex)`: the first index at or after the resolved
      `fromIndex` that holds `x`, or -1. */
  function IndexOf<E(==)>(a: ArrayCell<E>, x: Option<E>, fromIndex: int): (i: int)
    requires Ready(a)
    ensures -1 <= i < |Items(a)|
    ensures i == -1 <==> x !in Items(a)[JsArray.SpliceStart(fromIndex, |Items(a)|)..]
    ensures 0 <= i ==> GetIndex(a, i) == x
    ensures 0 <= i ==>
      JsArray.SpliceStart(fromIndex, |Items(a)|) <= i && x !in Items(a)[JsArray.SpliceStart(fromIndex, |Items(a)|)..i]
  {
    JsArray.IndexOfFrom(Items(a), x, fromIndex)
  }
}

=== FILE: value_async.dfy ===
/** The lazily fetched cell of src/valueAsync.js. On top of a base cell it
    keeps three flags: `hasValue` (reads may be answered from the stored
    value), `ordering` (a subscription cycle was set up and will deliver a
    value, so reads must not fetch) and the queue of pending readers.

    A read that cannot be answered yet returns `Pending(w)` for a fresh
    waiter id `w` instead of a promise; resolving the promise is the event
    `Resolved(w, v)`. Calls of the four injected behaviours (cyclic setup
    and cleanup, the one-shot setter and getter) are events. */
module ValueAsync {
  import opened Wrappers
  import opened ValueCell

  datatype AsyncCell<!T> = AsyncCell(
    cell: Cell<T>,        // stored value, limiter, listeners
    hasValue: bool,       // ___hasValue
    ordering: bool,       // ___ordering
    waiters: seq<nat>,    // ___asyncListeners; absent when empty
    nextWaiter: nat)      // the id the next pending read gets

  datatype AsyncEvent<T> =
    | Base(e: Event<Option<T>>)                  // something the base cell did
    | Setup                                      // __cyclicSetup(this)
    | Cleanup                                    // __cyclicCleanup(this)
    | Fetch                                      // __getValueOnce(this)
    | Push(value: Option<T>)                     // __setValueOnce(val, this)
    | Resolved(waiter: nat, value: Option<T>)    // a pending read was resolved
    | Deferred(waiter: nat, listener: Listener)  // a listener will run when the read resolves

  /** What `get` returns: the value, or a promise standing for waiter `waiter`. */
  datatype Read<T> = Ready(value: Option<T>) | Pending(waiter: nat)

  datatype AStep<!T> = AStep(s: AsyncCell<T>, events: seq<AsyncEvent<T>>)
  datatype Got<!T> = Got(s: AsyncCell<T>, events: seq<AsyncEvent<T>>, read: Read<T>)
  datatype AReg<!T> = AReg(s: AsyncCell<T>, events: seq<AsyncEvent<T>>, returned: Option<Listener>)

  /** Base-cell events as events of the async cell. */
  function Lift<T>(es: seq<Event<Option<T>>>): (r: seq<AsyncEvent<T>>)
    ensures |r| == |es|
    ensures forall i :: 0 <= i < |es| ==> r[i] == Base(es[i])
  {
    if |es| == 0 then [] else [Base(es[0])] + Lift(es[1..])
  }

  /** `new ValueAsync(limiter, …)`: no value, no flags, no readers. */
  function New<T(!new)>(limiter: Option<Callable<Limiter<T>>>): (r: AStep<T>)
    ensures r.s.cell.value == None && r.s.cell.listeners == []
    ensures !r.s.hasValue && !r.s.ordering && r.s.waiters == []
    ensures r.events == if limiter.Some? && limiter.value.NotFn? then [Base(Warning)] else []
    ensures limiter.Some? && limiter.value.Fn? ==> r.s.cell.limiter == limiter.value.f
    ensures !(limiter.Some? && limiter.value.Fn?) ==> forall v :: r.s.cell.limiter(v) == v
  {
    var b := ValueCell.New(None, limiter);
    AStep(AsyncCell(b.cell, false, false, [], 0), Lift(b.events))
  }

  /** The `get` getter. With a value it answers at once and touches nothing.
      Otherwise it queues a fresh waiter; only the read that creates the
      queue calls the one-shot getter, and only when no subscription cycle
      is delivering. */
  function Get<T>(s: AsyncCell<T>): (r: Got<T>)
    ensures s.hasValue ==> r == Got(s, [], Ready(s.cell.value))
    ensures !s.hasValue ==> r.read == Pending(s.nextWaiter)
    ensures !s.hasValue ==> r.s == s.(waiters := s.waiters + [s.nextWaiter], nextWaiter := s.nextWaiter + 1)
    ensures !s.hasValue ==> r.events == if |s.waiters| == 0 && !s.ordering then [Fetch] else []
  {
    if s.hasValue then Got(s, [], Ready(s.cell.value))
    else
      var fetch := if |s.waiters| == 0 && !s.ordering then [Fetch] else [];
      Got(s.(waiters := s.waiters + [s.nextWaiter], nextWaiter := s.nextWaiter + 1), fetch, Pending(s.nextWaiter))
  }

  /** The `set` setter. The write is never stored locally: the limited
      value is handed to the setter, unless the limiter vetoes it or it is
      the stored value; the stored value only changes when the remote side
      acknowledges through one of the two paths below. */
  function Set<T(==)>(s: AsyncCell<T>, v: Option<T>): (r: AStep<T>)
    ensures r.s == s
    ensures Vetoed(s.cell, v) ==> r.events == []
    ensures !Vetoed(s.cell, v) ==> r.events == [Push(s.cell.limiter(v))] && s.cell.limiter(v).Some?
  {
    var lv := s.cell.limiter(v);
    if s.cell.value == lv || lv.None? then AStep(s, []) else AStep(s, [Push(lv)])
  }

  /** Resolves the waiters `ws`, in order, all with `v`. */
  function Resolve<T>(ws: seq<nat>, v: Option<T>): (es: seq<AsyncEvent<T>>)
    ensures |es| == |ws|
    ensures forall i :: 0 <= i < |ws| ==> es[i] == Resolved(ws[i], v)
  {
    if |ws| == 0 then [] else [Resolved(ws[0], v)] + Resolve(ws[1..], v)
  }

  /** The `setValueFromOnce` setter: the answer of the one-shot fetch
      resolves every queued reader with the same value, in queue order, and
      drops the queue. It neither stores the value nor sets `hasValue`. */
  function SetValueFromOnce<T>(s: AsyncCell<T>, v: Option<T>): (r: AStep<T>)
    ensures r.s == s.(waiters := [])
    ensures |r.events| == |s.waiters|
    ensures forall i :: 0 <= i < |s.waiters| ==> r.events[i] == Resolved(s.waiters[i], v)
  {
    AStep(s.(waiters := []), Resolve(s.waiters, v))
  }

  /** The `setValueFromCyclic` setter: a value delivered by the subscription
      cycle. An unchanged value changes nothing. A new one is stored, ends
      the `ordering` phase, resolves every queued reader, and — only when the
      cell has listeners — sets `hasValue` and notifies them. */
  function SetValueFromCyclic<T(==)>(s: AsyncCell<T>, v: Option<T>): (r: AStep<T>)
    ensures v == s.cell.value ==> r == AStep(s, [])
    ensures v != s.cell.value ==> r.s.cell == s.cell.(value := v)
    ensures v != s.cell.value ==> !r.s.ordering && r.s.waiters == [] && r.s.nextWaiter == s.nextWaiter
    ensures v != s.cell.value ==> r.s.hasValue == (s.hasValue || HasListener(s.cell))
    ensures v != s.cell.value ==>
      |r.events| >= |s.waiters| && forall i :: 0 <= i < |s.waiters| ==> r.events[i] == Resolved(s.waiters[i], v)
    ensures v != s.cell.value && !HasListener(s.cell) ==> |r.events| == |s.waiters|
    ensures v != s.cell.value && HasListener(s.cell) ==>
      Recipients(Unlift(r.events[|s.waiters|..])) == s.cell.listeners
      && Carries(Unlift(r.events[|s.waiters|..]), v)
  {
    if s.cell.value == v then AStep(s, [])
    else
      var s1 := s.(cell := s.cell.(value := v), ordering := false);
      var once := SetValueFromOnce(s1, v);
      if HasListener(s.cell) then
        var s2 := once.s.(hasValue := true);
        var notes := Update(s2.cell);
        assert (once.events + Lift(notes))[|s.waiters|..] == Lift(notes);
        UnliftLift(notes);
        AStep(s2, once.events + Lift(notes))
      else once
  }

  /** The base-cell events of a trace, in order. */
  function Unlift<T>(es: seq<AsyncEvent<T>>): seq<Event<Option<T>>>
  {
    if |es| == 0 then []
    else (if es[0].Base? then [es[0].e] else []) + Unlift(es[1..])
  }

  lemma UnliftLift<T>(es: seq<Event<Option<T>>>)
    ensures Unlift(Lift(es)) == es
  {
    if |es| > 0 {
      assert Lift(es)[1..] == Lift(es[1..]);
      UnliftLift(es[1..]);
    }
  }

  /** `onListener(active)`: the first listener sets up the subscription
      cycle and enters `ordering`; losing the last one cleans it up and
      forgets `hasValue`. */
  function OnListener<T>(s: AsyncCell<T>, active: bool): (r: AStep<T>)
    ensures active ==> r.events == [Setup] && r.s == s.(ordering := true)
    ensures active ==> Fetch !in Get(r.s).events
    ensures !active ==> r.events == [Cleanup] && r.s == s.(hasValue := false)
    ensures !active ==> Get(r.s).read == Pending(s.nextWaiter)
  {
    if active then AStep(s.(ordering := true), [Setup])
    else AStep(s.(hasValue := false), [Cleanup])
  }

  /** `addListener(func, run)` on an async cell. The first listener sets up
      the cycle and enters `ordering` before it is appended, so a `run` read
      it makes never triggers the one-shot fetch; a `run` read that is
      pending defers the listener until the read resolves. */
  function AddListener<T>(s: AsyncCell<T>, f: Callable<Listener>, run: bool): (r: AReg<T>)
    ensures f.NotFn? ==> r == AReg(s, [Base(Warning)], None)
    ensures f.Fn? ==> r.s.cell == s.cell.(listeners := s.cell.listeners + [f.f])
    ensures f.Fn? ==> (Setup in r.events <==> !HasListener(s.cell))
    ensures f.Fn? && !HasListener(s.cell) ==> r.s.ordering && Fetch !in r.events
    ensures f.Fn? && HasListener(s.cell) ==> r.s.ordering == s.ordering
    ensures f.Fn? ==> r.s.hasValue == s.hasValue
    ensures f.Fn? && run && s.hasValue ==> Base(Called(f.f, s.cell.value)) in r.events
    ensures f.Fn? && run && !s.hasValue ==> Deferred(s.nextWaiter, f.f) in r.events
    ensures f.Fn? && !run ==> r.s.waiters == s.waiters && r.returned == Some(f.f)
    ensures f.Fn? && run && s.hasValue ==> r.s.waiters == s.waiters && (r.returned == Some(f.f) <==> !f.f.Throws())
    ensures f.Fn? && run && !s.hasValue ==>
      r.s.waiters == s.waiters + [s.nextWaiter] && r.s.nextWaiter == s.nextWaiter + 1 && r.returned == Some(f.f)
    ensures f.Fn? ==>
      (Fetch in r.events <==> run && !s.hasValue && |s.waiters| == 0 && !s.ordering && HasListener(s.cell))
  {
    match f
    case NotFn => AReg(s, [Base(Warning)], None)
    case Fn(l) =>
      var first := !HasListener(s.cell);
      var hooked := if first then OnListener(s, true) else AStep(s, []);
      var hook := if first then [Base(Demand(true))] + hooked.events else [];
      var s2 := hooked.s.(cell := hooked.s.cell.(listeners := hooked.s.cell.listeners + [l]));
      if !run then AReg(s2, hook, Some(l))
      else
        var g := Get(s2);
        match g.read
        case Ready(v) =>
          var call := Lift(RunNow(l, v));
          assert call[0] == Base(Called(l, v));
          AReg(g.s, hook + g.events + call, if l.Throws() then None else Some(l))
        case Pending(w) =>
          AReg(g.s, hook + g.events + [Deferred(w, l)], Some(l))
  }

  /** `removeListener(func)` on an async cell: losing the last listener
      cleans the cycle up and clears `hasValue`, so later reads go pending
      again. */
  function RemoveListener<T>(s: AsyncCell<T>, f: Callable<Listener>): (r: AReg<T>)
    ensures f.NotFn? ==> r == AReg(s, [Base(Warning)], None)
    ensures f.Fn? && HasListener(s.cell) && !HasListener(r.s.cell) ==> !r.s.hasValue && Cleanup in r.events
    ensures !(f.Fn? && HasListener(s.cell) && !HasListener(r.s.cell)) ==> r.s.hasValue == s.hasValue && Cleanup !in r.events
    ensures r.s.cell.value == s.cell.value && r.s.ordering == s.ordering && r.s.waiters == s.waiters
    ensures f.Fn? && f.f !in s.cell.listeners ==> r.s == s
    ensures r.s.cell == ValueCell.RemoveListener(s.cell, f).cell && r.s.nextWaiter == s.nextWaiter
    ensures f.Fn? ==> r.returned == Some(f.f)
    ensures f.Fn? && f.f in s.cell.listeners ==>
      exists i :: 0 <= i < |s.cell.listeners| && s.cell.listeners[i] == f.f && f.f !in s.cell.listeners[..i]
        && r.s.cell.listeners == s.cell.listeners[..i] + s.cell.listeners[i + 1..]
  {
    var b := ValueCell.RemoveListener(s.cell, f);
    var s1 := s.(cell := b.cell);
    if f.Fn? && HasListener(s.cell) && !HasListener(b.cell) then
      var h := OnListener(s1, false);
      AReg(h.s, Lift(b.events) + h.events, b.returned)
    else
      assert Cleanup !in Lift(b.events);
      AReg(s1, Lift(b.events), b.returned)
  }

  // ---------------------------------------------------------------------------
  // Concurrent readers share one fetch

  datatype Reads<!T> = Reads(s: AsyncCell<T>, events: seq<AsyncEvent<T>>, answers: seq<Read<T>>)

  /** `k` reads in a row. */
  function GetMany<T>(s: AsyncCell<T>, k: nat): Reads<T>
    decreases k
  {
    if k == 0 then Reads(s, [], [])
    else
      var g := Get(s);
      var rest := GetMany(g.s, k - 1);
      Reads(rest.s, g.events + rest.events, [g.read] + rest.answers)
  }

  /** The `k` waiter ids handed out from `from` on. */
  function Ids(from: nat, k: nat): (ws: seq<nat>)
    ensures |ws| == k
    ensures forall i :: 0 <= i < k ==> ws[i] == from + i
    decreases k
  {
    if k == 0 then [] else [from] + Ids(from + 1, k - 1)
  }

  /** `k` reads of a cell without a value all go pending, with consecutive
      fresh waiter ids queued in order. */
  lemma {:induction false} ReadsGoPending<T>(s: AsyncCell<T>, k: nat)
    requires !s.hasValue
    ensures var m := GetMany(s, k);
      && |m.answers| == k
      && (forall i :: 0 <= i < k ==> m.answers[i] == Pending(s.nextWaiter + i))
      && m.s == s.(waiters := s.waiters + Ids(s.nextWaiter, k), nextWaiter := s.nextWaiter + k)
    decreases k
  {
    if k > 0 {
      var g := Get(s);
      ReadsGoPending(g.s, k - 1);
      assert s.waiters + Ids(s.nextWaiter, k) == (s.waiters + [s.nextWaiter]) + Ids(s.nextWaiter + 1, k - 1);
    }
  }

  /** Between them, `k` reads of a cell without a value call the one-shot
      getter at most once: exactly when the queue was empty and no cycle is
      delivering. They do nothing else. */
  lemma {:induction false} ReadsFetchOnce<T>(s: AsyncCell<T>, k: nat)
    requires !s.hasValue
    ensures var m := GetMany(s, k);
      && multiset(m.events)[Fetch] == (if k > 0 && |s.waiters| == 0 && !s.ordering then 1 else 0)
      && (forall e :: e in m.events ==> e == Fetch)
    decreases k
  {
    if k > 0 {
      var g := Get(s);
      ReadsFetchOnce(g.s, k - 1);
      var rest := GetMany(g.s, k - 1);
      var es := g.events + rest.events;
      assert GetMany(s, k).events == es;
      assert |g.s.waiters| > 0;
      assert multiset(es) == multiset(g.events) + multiset(rest.events);
      forall e | e in es
        ensures e == Fetch
      {
        if e !in g.events {
          assert e in rest.events;
        }
      }
    }
  }

  /** `k` reads of a cell without a value all go pending, with consecutive
      fresh waiter ids, and between them call the one-shot getter at most
      once: exactly when the queue was empty and no cycle is delivering. */
  lemma ReadsShareOneFetch<T>(s: AsyncCell<T>, k: nat)
    requires !s.hasValue
    ensures var m := GetMany(s, k);
      && |m.answers| == k
      && (forall i :: 0 <= i < k ==> m.answers[i] == Pending(s.nextWaiter + i))
      && m.s == s.(waiters := s.waiters + Ids(s.nextWaiter, k), nextWaiter := s.nextWaiter + k)
      && multiset(m.events)[Fetch] == (if k > 0 && |s.waiters| == 0 && !s.ordering then 1 else 0)
      && (forall e :: e in m.events ==> e == Fetch)
  {
    ReadsGoPending(s, k);
    ReadsFetchOnce(s, k);
  }

  /** Many concurrent reads, one fetch, one answer: `k >= 1` reads of an idle
      cell trigger exactly one one-shot fetch, and its answer resolves every
      one of them, in the order they were made, with the same value. */
  lemma OneFetchAnswersAllReaders<T>(s: AsyncCell<T>, k: nat, v: Option<T>)
    requires !s.hasValue && s.waiters == [] && !s.ordering && k >= 1
    ensures var m := GetMany(s, k);
      && multiset(m.events)[Fetch] == 1
      && SetValueFromOnce(m.s, v).events == seq(k, i requires 0 <= i => Resolved(s.nextWaiter + i, v))
      && SetValueFromOnce(m.s, v).s.waiters == []
  {
    ReadsShareOneFetch(s, k);
  }

  // ---------------------------------------------------------------------------
  // The two acknowledgement paths are tracked apart

  /** A cyclic value delivered while nobody listens is stored but does not
      make the cell readable: the next read still goes pending and, since
      the cycle ended `ordering`, triggers a fresh one-shot fetch. */
  lemma CyclicWithoutListenersStillFetches<T>(s: AsyncCell<T>, v: Option<T>)
    requires !HasListener(s.cell) && !s.hasValue && v != s.cell.value
    ensures var c := SetValueFromCyclic(s, v).s;
      && c.cell.value == v
      && Get(c).read.Pending?
      && Get(c).events == [Fetch]
  {
  }

  /** With listeners, a new cyclic value makes the cell readable: the next
      read returns it at once, with no fetch. */
  lemma CyclicWithListenersServesReads<T>(s: AsyncCell<T>, v: Option<T>)
    requires HasListener(s.cell) && v != s.cell.value
    ensures var c := SetValueFromCyclic(s, v).s;
      Get(c) == Got(c, [], Ready(v))
  {
  }

  /** Losing the last listener makes reads pending again, even though the
      stored value is kept. */
  lemma LastListenerForgetsValue<T>(s: AsyncCell<T>, l: Listener)
    requires s.cell.listeners == [l]
    ensures var c := RemoveListener(s, Fn(l)).s;
      && c.cell.value == s.cell.value
      && Get(c).read == Pending(s.nextWaiter)
  {
  }
}

=== FILE: value_multi.dfy ===
/** The aggregate of src/valueMulti.js: a cell whose value is computed from
    a list of source cells by a read reduction, and whose writes are spread
    over the sources by a write reduction.

    The aggregate, its sources, the buffer of source values it keeps and
    the subscriptions it holds on the sources form one world record, and
    every operation is a pure step of that world returning the new world
    and the trace of what was called, each entry tagged with the cell it
    happened on. While the aggregate has listeners it subscribes a closure
    `Feed(epoch, i)` to every source `i`; a call of that closure, wherever
    it comes from, stores the value in the buffer at `i` and recomputes the
    aggregate. */
module ValueMulti {
  import opened Wrappers
  import opened JsNumber
  import JsArray
  import ValueCell

  type Listener = ValueCell.Listener
  type Cell = ValueCell.Cell<Number>
  type Event = ValueCell.Event<Option<Number>>

  /** `__multiFuncRead(valuesBuffer)`. */
  type Reader = seq<Number> -> Option<Number>

  /** `__multiFuncWrite(value, values, valuesBuffer)`, given the value written,
      the aggregate's stored value, the buffer and the number of sources; it
      returns the array it fills, whose `i`-th entry goes to source `i`. */
  type Writer = (Option<Number>, Option<Number>, seq<Number>, nat) -> seq<Option<Number>>

  /** The aggregate and its world. `handles` is `__valuesListeners`, where
      `None` is an undefined entry. `epoch` counts connections, so the
      closures of each connection are new identities. */
  datatype Multi = Multi(
    agg: Cell,
    sources: seq<Cell>,
    buffer: seq<Number>,
    handles: seq<Option<Listener>>,
    epoch: nat,
    read: Reader,
    write: Writer)

  datatype Origin = Aggregate | Source(index: nat)

  /** A trace entry and the cell it happened on. */
  datatype Traced = On(origin: Origin, event: Event)

  datatype MStep = MStep(multi: Multi, events: seq<Traced>)

  function Tag(o: Origin, es: seq<Event>): (ts: seq<Traced>)
    ensures |ts| == |es|
    ensures forall k :: 0 <= k < |es| ==> ts[k] == On(o, es[k])
  {
    seq(|es|, k requires 0 <= k < |es| => On(o, es[k]))
  }

  // ---------------------------------------------------------------------------
  // Invariants

  /** Every reduction result passes the aggregate's limiter unchanged and is
      defined, as for `ValueSum` and `ValueAverage` under the default
      limiter. */
  ghost predicate Passes(m: Multi)
  {
    forall b :: m.read(b).Some? && m.agg.limiter(m.read(b)) == m.read(b)
  }

  /** The aggregate's stored value is the reduction of its buffer. */
  ghost predicate Tracks(m: Multi)
  {
    m.agg.value == m.read(m.buffer)
  }

  /** The buffer holds one entry per source, the number that source holds. */
  ghost predicate Synced(m: Multi)
  {
    && |m.buffer| == |m.sources|
    && forall i :: 0 <= i < |m.sources| ==> m.buffer[i] == ToNumber(m.sources[i].value)
  }

  predicate NoFeed(ls: seq<Listener>)
  {
    forall k :: 0 <= k < |ls| ==> !ls[k].Feed?
  }

  /** No source carries a subscription of an aggregate. */
  predicate Detached(cells: seq<Cell>)
  {
    forall i :: 0 <= i < |cells| ==> NoFeed(cells[i].listeners)
  }

  /** Source `i` carries exactly one subscription, the current connection's
      closure for index `i`, registered last, and the handle kept for it is
      that closure. */
  ghost predicate WiredAt(m: Multi, i: nat)
    requires i < |m.sources| && i < |m.handles|
  {
    var ls := m.sources[i].listeners;
    && |ls| > 0
    && ls[|ls| - 1] == ValueCell.Feed(m.epoch, i)
    && NoFeed(ls[..|ls| - 1])
    && m.handles[i] == Some(ValueCell.Feed(m.epoch, i))
  }

  ghost predicate Wired(m: Multi)
  {
    && |m.handles| == |m.sources|
    && forall i :: 0 <= i < |m.sources| ==> WiredAt(m, i)
  }

  /** The state the aggregate keeps while it has listeners: every source is
      subscribed once, the buffer mirrors the sources, and the stored value
      is the reduction of the buffer. */
  ghost predicate Coherent(m: Multi)
  {
    && ValueCell.HasListener(m.agg)
    && |m.sources| > 0
    && Wired(m)
    && Synced(m)
    && Tracks(m)
  }

  /** The sources with the subscription each carries last taken off. */
  function Unwired(cells: seq<Cell>): (r: seq<Cell>)
    ensures |r| == |cells|
  {
    seq(|cells|, i requires 0 <= i < |cells| =>
      var ls := cells[i].listeners;
      cells[i].(listeners := if |ls| == 0 then [] else ls[..|ls| - 1]))
  }

  /** The numbers the sources hold, as `get` collects them when the
      aggregate has no listeners. */
  function Polled(m: Multi): (b: seq<Number>)
    ensures |b| == |m.sources|
  {
    seq(|m.sources|, i requires 0 <= i < |m.sources| => ToNumber(m.sources[i].value))
  }

  /** The numbers the cells hold, in order. */
  function Held(cells: seq<Cell>): (b: seq<Number>)
    ensures |b| == |cells|
    ensures forall i :: 0 <= i < |cells| ==> b[i] == ToNumber(cells[i].value)
  {
    if |cells| == 0 then [] else [ToNumber(cells[0].value)] + Held(cells[1..])
  }

  /** A trace calls an aggregate subscription. */
  predicate Fed(es: seq<Event>)
  {
    exists k :: 0 <= k < |es| && es[k].Called? && es[k].listener.Feed?
  }

  // ---------------------------------------------------------------------------
  // The subscription closure

  /** The closure `__connect` registers on source `j`, called with `v`: the
      buffer takes `Number(v)` at `j`, growing with holes if it is short,
      and the aggregate's own `set` is fed the reduction of the buffer. */
  function Callback(m: Multi, j: nat, v: Option<Number>): (r: MStep)
    ensures r.multi == m.(buffer := r.multi.buffer, agg := r.multi.agg)
    ensures r.multi.agg.listeners == m.agg.listeners && r.multi.agg.limiter == m.agg.limiter
    ensures r.multi.buffer == JsArray.Put(m.buffer, j, ToNumber(v), NaN)
    ensures Passes(m) ==> Tracks(r.multi)
  {
    var b := JsArray.Put(m.buffer, j, ToNumber(v), NaN);
    var s := ValueCell.Set(m.agg, m.read(b));
    MStep(m.(buffer := b, agg := s.cell), Tag(Aggregate, s.events))
  }

  /** Runs the trace `es` of source `i` through the world: each call of an
      aggregate subscription runs that closure, right after the call. */
  function Deliver(m: Multi, i: nat, es: seq<Event>): (r: MStep)
    ensures r.multi == m.(buffer := r.multi.buffer, agg := r.multi.agg)
    ensures r.multi.agg.listeners == m.agg.listeners && r.multi.agg.limiter == m.agg.limiter
    decreases |es|
  {
    if |es| == 0 then MStep(m, [])
    else
      var e := es[0];
      var fed := if e.Called? && e.listener.Feed? then Callback(m, e.listener.index, e.payload) else MStep(m, []);
      var rest := Deliver(fed.multi, i, es[1..]);
      MStep(rest.multi, [On(Source(i), e)] + fed.events + rest.events)
  }

  // ---------------------------------------------------------------------------
  // Connecting and disconnecting

  /** `__valuesListeners[i]` as `removeListener` receives it. */
  function HandleAt(handles: seq<Option<Listener>>, i: nat): Callable<Listener>
  {
    if i < |handles| && handles[i].Some? then Fn(handles[i].value) else NotFn
  }

  /** One turn of the `__connect` loop: the closure for source `i` is added
      with `run`, so it is called at once with the source's value, and the
      handle returned is kept. */
  function ConnectOne(m: Multi, i: nat): (r: MStep)
    requires i < |m.sources|
    ensures |r.multi.sources| == |m.sources|
    ensures r.multi.agg.listeners == m.agg.listeners
  {
    var a := ValueCell.AddListener(m.sources[i], Fn(ValueCell.Feed(m.epoch, i)), true);
    var d := Deliver(m.(sources := m.sources[i := a.cell]), i, a.events);
    MStep(d.multi.(handles := JsArray.Put(d.multi.handles, i, a.returned, None)), d.events)
  }

  function ConnectFrom(m: Multi, i: nat): (r: MStep)
    requires i <= |m.sources|
    ensures r.multi.agg.listeners == m.agg.listeners
    decreases |m.sources| - i
  {
    if i == |m.sources| then MStep(m, [])
    else
      var one := ConnectOne(m, i);
      var rest := ConnectFrom(one.multi, i + 1);
      MStep(rest.multi, one.events + rest.events)
  }

  /** `__connect()`: subscribes new closures to every source in order. */
  function Connect(m: Multi): (r: MStep)
    ensures r.multi.agg.listeners == m.agg.listeners
  {
    ConnectFrom(m.(epoch := m.epoch + 1), 0)
  }

  function DisconnectFrom(m: Multi, i: nat): (r: MStep)
    requires i <= |m.sources|
    ensures r.multi.agg == m.agg
    decreases |m.sources| - i
  {
    if i == |m.sources| then MStep(m, [])
    else
      var u := ValueCell.RemoveListener(m.sources[i], HandleAt(m.handles, i));
      var rest := DisconnectFrom(m.(sources := m.sources[i := u.cell]), i + 1);
      MStep(rest.multi, Tag(Source(i), u.events) + rest.events)
  }

  /** `__disconnect()`. When the aggregate counts as having listeners, which
      inside the demand hook it still does, every handle is removed from its
      source; an undefined handle draws the warning `removeListener` gives a
      non-function. The handles are then forgotten. */
  function Disconnect(m: Multi, active: bool): (r: MStep)
    ensures r.multi.handles == [] && r.multi.agg == m.agg
  {
    var d := if active then DisconnectFrom(m, 0) else MStep(m, []);
    MStep(d.multi.(handles := []), d.events)
  }

  // ---------------------------------------------------------------------------
  // Writing through the world

  /** A write to source `i` from anywhere, `values[i].set = x`, followed
      through the world: the source stores and notifies as every cell does,
      and its calls of the aggregate's closures run them. */
  function WriteSource(m: Multi, i: nat, x: Option<Number>): (r: MStep)
    requires i < |m.sources|
    ensures |r.multi.sources| == |m.sources|
    ensures r.multi.read == m.read && r.multi.write == m.write
  {
    var s := ValueCell.Set(m.sources[i], x);
    Deliver(m.(sources := m.sources[i := s.cell]), i, s.events)
  }

  /** The `i`-th entry of the array a write reduction filled; unfilled
      entries are undefined. */
  function OutAt(out: seq<Option<Number>>, i: nat): Option<Number>
  {
    if i < |out| then out[i] else None
  }

  function SetFrom(m: Multi, out: seq<Option<Number>>, i: nat): (r: MStep)
    requires i <= |m.sources|
    ensures r.multi.read == m.read && r.multi.write == m.write
    decreases |m.sources| - i
  {
    if i == |m.sources| then MStep(m, [])
    else
      var one := WriteSource(m, i, OutAt(out, i));
      var rest := SetFrom(one.multi, out, i + 1);
      MStep(rest.multi, one.events + rest.events)
  }

  /** The aggregate's `set` as written: the write reduction is asked once,
      with the stored value and the buffer, and its outputs are written to
      the sources in order. The aggregate's own value changes only through
      its closures. Without listeners the stored value and the buffer are
      whatever the last connection left, or nothing at all. */
  function SetAsWritten(m: Multi, v: Option<Number>): MStep
  {
    SetFrom(m, m.write(v, m.agg.value, m.buffer, |m.sources|), 0)
  }

  /** The write reduction's outputs as evidently intended: it is given what
      `get` answers and, without listeners, the values the sources hold
      now, the same values `get` polls. */
  function Outputs(m: Multi, v: Option<Number>): seq<Option<Number>>
  {
    if ValueCell.HasListener(m.agg) then m.write(v, m.agg.value, m.buffer, |m.sources|)
    else m.write(v, Get(m), Polled(m), |m.sources|)
  }

  /** The aggregate's `set` as evidently intended. */
  function Set(m: Multi, v: Option<Number>): (r: MStep)
    ensures ValueCell.HasListener(m.agg) ==> r == SetAsWritten(m, v)
  {
    SetFrom(m, Outputs(m, v), 0)
  }

  /** The aggregate's `get`: with listeners, the stored value; without, the
      read reduction of the values the sources hold now. */
  function Get(m: Multi): Option<Number>
  {
    if ValueCell.HasListener(m.agg) then m.agg.value else m.read(Polled(m))
  }

  // ---------------------------------------------------------------------------
  // The aggregate follows its sources

  /** A trace calls an aggregate closure when its first event does or the
      rest of it does. */
  lemma FedCons(es: seq<Event>)
    requires |es| > 0
    ensures Fed(es) <==> (es[0].Called? && es[0].listener.Feed?) || Fed(es[1..])
  {
    if Fed(es[1..]) {
      var k :| 0 <= k < |es[1..]| && es[1..][k].Called? && es[1..][k].listener.Feed?;
      assert es[k + 1] == es[1..][k];
    }
    if Fed(es) && !(es[0].Called? && es[0].listener.Feed?) {
      var k :| 0 <= k < |es| && es[k].Called? && es[k].listener.Feed?;
      assert es[1..][k - 1] == es[k];
    }
  }

  /** Delivering a source trace whose calls of aggregate closures all carry
      index `i` and value `y`: when there is such a call the buffer ends with
      `Number(y)` at `i` and the aggregate tracks the buffer; when there is
      none the world is unchanged. */
  lemma {:induction false} DeliverFeeds(m: Multi, i: nat, es: seq<Event>, y: Option<Number>)
    requires forall k :: 0 <= k < |es| && es[k].Called? && es[k].listener.Feed? ==>
      es[k].listener.index == i && es[k].payload == y
    ensures var d := Deliver(m, i, es).multi;
      && (Fed(es) ==> d.buffer == JsArray.Put(m.buffer, i, ToNumber(y), NaN) && (Passes(m) ==> Tracks(d)))
      && (!Fed(es) ==> d == m)
    decreases |es|
  {
    if |es| > 0 {
      var e := es[0];
      var feeds := e.Called? && e.listener.Feed?;
      var fed := if feeds then Callback(m, e.listener.index, e.payload) else MStep(m, []);
      DeliverFeeds(fed.multi, i, es[1..], y);
      assert Deliver(m, i, es).multi == Deliver(fed.multi, i, es[1..]).multi;
      FedCons(es);
      if feeds {
        JsArray.PutTwice(m.buffer, i, ToNumber(y), NaN);
      }
    }
  }

  /** Wiring is about the sources, the handles and the epoch only. */
  lemma WiredFrame(m: Multi, m': Multi)
    requires Wired(m) && m'.sources == m.sources && m'.handles == m.handles && m'.epoch == m.epoch
    ensures Wired(m')
  {
    forall j | 0 <= j < |m'.sources|
      ensures WiredAt(m', j)
    {
      assert WiredAt(m, j);
    }
  }

  /** A list whose prefix holds no aggregate closure holds one at most at
      its end. */
  lemma NoFeedBeforeLast(ls: seq<Listener>)
    requires |ls| > 0 && NoFeed(ls[..|ls| - 1])
    ensures forall k :: 0 <= k < |ls| - 1 ==> !ls[k].Feed?
  {
    forall k | 0 <= k < |ls| - 1
      ensures !ls[k].Feed?
    {
      assert ls[..|ls| - 1][k] == ls[k];
    }
  }

  /** The calls a notification pass of a wired source makes to aggregate
      closures are calls of its own closure with the value stored, and there
      is at least one. */
  lemma WiredNotification(m: Multi, i: nat, y: Option<Number>)
    requires Wired(m) && i < |m.sources|
    ensures var es := ValueCell.Notify(m.sources[i].listeners, y);
      && Fed(es)
      && forall k :: 0 <= k < |es| && es[k].Called? && es[k].listener.Feed? ==>
        es[k].listener.index == i && es[k].payload == y
  {
    var ls := m.sources[i].listeners;
    var es := ValueCell.Notify(ls, y);
    assert WiredAt(m, i);
    NoFeedBeforeLast(ls);
    ValueCell.EveryListenerReached(ls, y, |ls| - 1);
    var kw :| 0 <= kw < |es| && es[kw] == ValueCell.Called(ls[|ls| - 1], y);
    assert Fed(es);
    forall k | 0 <= k < |es| && es[k].Called? && es[k].listener.Feed?
      ensures es[k].listener.index == i && es[k].payload == y
    {
      ValueCell.RecipientsCalled(es, es[k].listener);
      var j :| 0 <= j < |ls| && ls[j] == es[k].listener;
      assert j == |ls| - 1;
    }
  }

  /** Sources whose listener lists are those of a wired world, with the
      same handles and epoch, are wired. */
  lemma WiredListeners(m: Multi, m': Multi)
    requires Wired(m) && |m'.sources| == |m.sources| && m'.handles == m.handles && m'.epoch == m.epoch
    requires forall j :: 0 <= j < |m.sources| ==> m'.sources[j].listeners == m.sources[j].listeners
    ensures Wired(m')
  {
    forall j | 0 <= j < |m'.sources|
      ensures WiredAt(m', j)
    {
      assert WiredAt(m, j);
    }
  }

  /** A write that source `i` takes reaches the aggregate: the buffer
      entry of `i` becomes the source's new number and the aggregate tracks
      the buffer. */
  lemma WriteSourceFeeds(m: Multi, i: nat, x: Option<Number>)
    requires Coherent(m) && Passes(m) && i < |m.sources| && !ValueCell.Vetoed(m.sources[i], x)
    ensures var s := ValueCell.Set(m.sources[i], x);
      var r := WriteSource(m, i, x).multi;
      && r == m.(sources := m.sources[i := s.cell], buffer := r.buffer, agg := r.agg)
      && r.buffer == JsArray.Put(m.buffer, i, ToNumber(s.cell.value), NaN)
      && Tracks(r)
  {
    var s := ValueCell.Set(m.sources[i], x);
    var m1 := m.(sources := m.sources[i := s.cell]);
    var y := s.cell.value;
    assert s.events == ValueCell.Notify(m.sources[i].listeners, y);
    WiredListeners(m, m1);
    WiredNotification(m1, i, y);
    DeliverFeeds(m1, i, s.events, y);
  }

  /** A write to a source keeps the aggregate coherent: the source holds
      what its own `set` gives it, the buffer follows, and the aggregate's
      stored value is the reduction of the new buffer. */
  lemma WriteSourceKeepsCoherent(m: Multi, i: nat, x: Option<Number>)
    requires Coherent(m) && Passes(m) && i < |m.sources|
    ensures var r := WriteSource(m, i, x).multi;
      && Coherent(r) && Passes(r)
      && r.sources == m.sources[i := ValueCell.Set(m.sources[i], x).cell]
  {
    var s := ValueCell.Set(m.sources[i], x);
    var r := WriteSource(m, i, x).multi;
    if ValueCell.Vetoed(m.sources[i], x) {
      assert m.(sources := m.sources[i := s.cell]) == m;
    } else {
      WriteSourceFeeds(m, i, x);
      WiredListeners(m, r);
      assert r.buffer == m.buffer[i := ToNumber(s.cell.value)];
    }
  }

  lemma {:induction false} SetFromKeepsCoherent(m: Multi, out: seq<Option<Number>>, i: nat)
    requires Coherent(m) && Passes(m) && i <= |m.sources|
    ensures var r := SetFrom(m, out, i).multi;
      && Coherent(r) && Passes(r)
      && |r.sources| == |m.sources|
      && (forall j :: 0 <= j < i ==> r.sources[j] == m.sources[j])
      && (forall j :: i <= j < |m.sources| ==> r.sources[j] == ValueCell.Set(m.sources[j], OutAt(out, j)).cell)
    decreases |m.sources| - i
  {
    if i < |m.sources| {
      var one := WriteSource(m, i, OutAt(out, i));
      WriteSourceKeepsCoherent(m, i, OutAt(out, i));
      SetFromKeepsCoherent(one.multi, out, i + 1);
    }
  }

  /** A write to the aggregate keeps it coherent, and every source ends with
      what its own `set` makes of the write reduction's output for it. */
  lemma SetKeepsCoherent(m: Multi, v: Option<Number>)
    requires Coherent(m) && Passes(m)
    ensures var out := m.write(v, m.agg.value, m.buffer, |m.sources|);
      var r := SetAsWritten(m, v).multi;
      && Coherent(r) && Passes(r)
      && |r.sources| == |m.sources|
      && forall j :: 0 <= j < |m.sources| ==> r.sources[j] == ValueCell.Set(m.sources[j], OutAt(out, j)).cell
  {
    SetFromKeepsCoherent(m, m.write(v, m.agg.value, m.buffer, |m.sources|), 0);
  }

  /** The cached value a coherent aggregate answers is the value it would
      compute by polling its sources. */
  lemma CachedIsPolled(m: Multi)
    requires Coherent(m)
    ensures Get(m) == m.read(Polled(m))
  {
    assert m.buffer == Polled(m);
  }

  // ---------------------------------------------------------------------------
  // Connecting wires, disconnecting unwires

  /** The cells with the closure of connection `e` for each index
      registered last. */
  function Subscribed(cells: seq<Cell>, e: nat): (r: seq<Cell>)
    ensures |r| == |cells|
  {
    seq(|cells|, j requires 0 <= j < |cells| =>
      cells[j].(listeners := cells[j].listeners + [ValueCell.Feed(e, j)]))
  }

  /** One turn of `__connect` registers the closure last on its source,
      keeps its handle, and runs it once with the source's value. */
  lemma ConnectOneStep(m: Multi, i: nat)
    requires i < |m.sources| && |m.handles| == i
    ensures var r := ConnectOne(m, i).multi;
      && r.sources == m.sources[i := m.sources[i].(listeners := m.sources[i].listeners + [ValueCell.Feed(m.epoch, i)])]
      && r.handles == m.handles + [Some(ValueCell.Feed(m.epoch, i))]
      && r.buffer == JsArray.Put(m.buffer, i, ToNumber(m.sources[i].value), NaN)
      && (Passes(m) ==> Tracks(r) && Passes(r))
      && r == m.(sources := r.sources, handles := r.handles, buffer := r.buffer, agg := r.agg)
      && r.agg.listeners == m.agg.listeners && r.agg.limiter == m.agg.limiter
  {
    var f := ValueCell.Feed(m.epoch, i);
    var src := m.sources[i];
    var a := ValueCell.AddListener(src, Fn(f), true);
    var m1 := m.(sources := m.sources[i := a.cell]);
    forall k | 0 <= k < |a.events| && a.events[k].Called? && a.events[k].listener.Feed?
      ensures a.events[k].listener.index == i && a.events[k].payload == src.value
    {
      ValueCell.RecipientsCalled(a.events, a.events[k].listener);
    }
    ValueCell.RecipientsCalled(a.events, f);
    var kf :| 0 <= kf < |a.events| && a.events[kf].Called? && a.events[kf].listener == f;
    assert Fed(a.events);
    DeliverFeeds(m1, i, a.events, src.value);
  }

  /** Sources subscribed in order, with the handles kept, are wired. */
  lemma SubscribedIsWired(m: Multi, base: seq<Cell>)
    requires Detached(base) && m.sources == Subscribed(base, m.epoch) && |m.handles| == |base|
    requires forall j :: 0 <= j < |base| ==> m.handles[j] == Some(ValueCell.Feed(m.epoch, j))
    ensures Wired(m)
  {
    forall j | 0 <= j < |base|
      ensures WiredAt(m, j)
    {
      var ls := base[j].listeners + [ValueCell.Feed(m.epoch, j)];
      assert ls[..|ls| - 1] == base[j].listeners;
      assert NoFeed(base[j].listeners);
    }
  }

  /** One turn of `__connect` past the sources already connected keeps the
      connection's bookkeeping one source further on. */
  lemma ConnectOneAdvances(m: Multi, i: nat, base: seq<Cell>)
    requires i < |m.sources| == |base| && Detached(base) && |m.handles| == i
    requires forall j :: 0 <= j < i ==> m.handles[j] == Some(ValueCell.Feed(m.epoch, j))
    requires forall j :: 0 <= j < i ==> m.sources[j] == Subscribed(base, m.epoch)[j]
    requires forall j :: i <= j < |base| ==> m.sources[j] == base[j]
    ensures var r := ConnectOne(m, i).multi;
      && r.epoch == m.epoch
      && |r.handles| == i + 1
      && (forall j :: 0 <= j < i + 1 ==> r.handles[j] == Some(ValueCell.Feed(r.epoch, j)))
      && (forall j :: 0 <= j < i + 1 ==> r.sources[j] == Subscribed(base, r.epoch)[j])
      && (forall j :: i + 1 <= j < |base| ==> r.sources[j] == base[j])
      && (Passes(m) ==> Tracks(r) && Passes(r))
      && r == m.(sources := r.sources, handles := r.handles, buffer := r.buffer, agg := r.agg)
      && r.agg.listeners == m.agg.listeners && r.agg.limiter == m.agg.limiter
  {
    ConnectOneStep(m, i);
  }

  /** Whether the reductions pass the limiter depends on nothing else. */
  lemma PassesFrame(m: Multi, m': Multi)
    requires m'.read == m.read && m'.agg.limiter == m.agg.limiter
    ensures Passes(m) ==> Passes(m')
  {
  }

  /** `r` is `m` with `base` subscribed to connection `m.epoch` and the
      handles kept; the aggregate keeps its listeners and limiter. */
  ghost predicate ConnectedTo(r: Multi, m: Multi, base: seq<Cell>)
  {
    && r.sources == Subscribed(base, m.epoch)
    && Wired(r)
    && r == m.(sources := r.sources, handles := r.handles, buffer := r.buffer, agg := r.agg)
    && r.agg.listeners == m.agg.listeners && r.agg.limiter == m.agg.limiter
  }

  /** `__connect` from source `i` on subscribes every remaining source and
      keeps the handles. */
  lemma {:induction false} ConnectFromWires(m: Multi, i: nat, base: seq<Cell>)
    requires i <= |m.sources| == |base| && Detached(base) && |m.handles| == i
    requires forall j :: 0 <= j < i ==> m.handles[j] == Some(ValueCell.Feed(m.epoch, j))
    requires forall j :: 0 <= j < i ==> m.sources[j] == Subscribed(base, m.epoch)[j]
    requires forall j :: i <= j < |base| ==> m.sources[j] == base[j]
    requires Passes(m) && i > 0 ==> Tracks(m)
    ensures var r := ConnectFrom(m, i).multi;
      && ConnectedTo(r, m, base)
      && (Passes(m) && |base| > 0 ==> Tracks(r) && Passes(r))
    decreases |base| - i
  {
    if i == |base| {
      assert m.sources == Subscribed(base, m.epoch);
      SubscribedIsWired(m, base);
    } else {
      var one := ConnectOne(m, i);
      ConnectOneAdvances(m, i, base);
      ConnectFromWires(one.multi, i + 1, base);
    }
  }

  /** One turn of `__connect` stores source `i`'s number in the buffer and
      touches no other source's value. */
  lemma ConnectOneBuffer(m: Multi, i: nat)
    requires i < |m.sources| && |m.handles| == i
    ensures var r := ConnectOne(m, i).multi;
      && |r.handles| == i + 1
      && (forall j :: 0 <= j < |m.sources| ==> r.sources[j].value == m.sources[j].value)
      && r.buffer == JsArray.Put(m.buffer, i, ToNumber(m.sources[i].value), NaN)
  {
    ConnectOneStep(m, i);
  }

  /** `b` is `prev` with an entry for each cell holding the number it
      holds, grown as needed, and the entries past the last cell kept. */
  ghost predicate Refilled(b: seq<Number>, prev: seq<Number>, cells: seq<Cell>)
  {
    && |b| == (if |prev| < |cells| then |cells| else |prev|)
    && (forall j :: 0 <= j < |cells| ==> b[j] == ToNumber(cells[j].value))
    && (forall j :: |cells| <= j < |prev| ==> b[j] == prev[j])
  }

  /** `__connect` from source `i` on fills the buffer entry of every
      remaining source with the number it holds, growing the buffer as
      needed and keeping the entries past the last source. */
  lemma {:induction false} ConnectFromBuffer(m: Multi, i: nat, base: seq<Cell>)
    requires i <= |m.sources| == |base| && |m.handles| == i && i <= |m.buffer|
    requires forall j :: i <= j < |base| ==> m.sources[j].value == base[j].value
    requires forall j :: 0 <= j < i ==> m.buffer[j] == ToNumber(base[j].value)
    ensures Refilled(ConnectFrom(m, i).multi.buffer, m.buffer, base)
    decreases |base| - i
  {
    if i < |base| {
      ConnectOneBuffer(m, i);
      ConnectFromBuffer(ConnectOne(m, i).multi, i + 1, base);
    }
  }

  /** `__connect()` on sources carrying no aggregate closure: what happens
      to the sources, the handles and the aggregate. */
  lemma ConnectWiresSources(m: Multi)
    requires Detached(m.sources) && m.handles == []
    ensures var r := Connect(m).multi;
      && ConnectedTo(r, m.(epoch := m.epoch + 1), m.sources)
      && (Passes(m) && |m.sources| > 0 ==> Tracks(r) && Passes(r))
  {
    var m0 := m.(epoch := m.epoch + 1);
    PassesFrame(m, m0);
    ConnectFromWires(m0, 0, m.sources);
  }

  /** `__connect()` on sources carrying no aggregate closure: what happens
      to the buffer. */
  lemma ConnectWiresBuffer(m: Multi)
    requires m.handles == []
    ensures Refilled(Connect(m).multi.buffer, m.buffer, m.sources)
  {
    var m0 := m.(epoch := m.epoch + 1);
    assert m0.buffer == m.buffer && m0.sources == m.sources;
    ConnectFromBuffer(m0, 0, m.sources);
  }

  /** `__connect()` on sources carrying no aggregate closure, with no
      handles kept: every source gets the new connection's closure and the
      buffer entry of every source is what it holds; entries past the last
      source are kept as they were. */
  lemma ConnectWires(m: Multi)
    requires Detached(m.sources) && m.handles == []
    ensures var r := Connect(m).multi;
      && r.epoch == m.epoch + 1
      && r.sources == Subscribed(m.sources, r.epoch)
      && Wired(r)
      && |r.buffer| == (if |m.buffer| < |m.sources| then |m.sources| else |m.buffer|)
      && (forall j :: 0 <= j < |m.sources| ==> r.buffer[j] == ToNumber(m.sources[j].value))
      && (forall j :: |m.sources| <= j < |m.buffer| ==> r.buffer[j] == m.buffer[j])
      && (|m.buffer| <= |m.sources| ==> Synced(r))
      && (Passes(m) && |m.sources| > 0 ==> Tracks(r) && Passes(r))
      && r == m.(sources := r.sources, handles := r.handles, buffer := r.buffer, agg := r.agg, epoch := r.epoch)
      && r.agg.listeners == m.agg.listeners && r.agg.limiter == m.agg.limiter
  {
    ConnectWiresSources(m);
    ConnectWiresBuffer(m);
  }

  /** `removeListener` of the closure a wired source carries last gives the
      source its earlier listener list back. */
  lemma RemoveLastFeed(c: Cell, f: Listener)
    requires |c.listeners| > 0 && c.listeners[|c.listeners| - 1] == f && f.Feed?
    requires NoFeed(c.listeners[..|c.listeners| - 1])
    ensures ValueCell.RemoveListener(c, Fn(f)).cell == c.(listeners := c.listeners[..|c.listeners| - 1])
  {
    var ls := c.listeners;
    NoFeedBeforeLast(ls);
    var i :| 0 <= i < |ls| && ls[i] == f && f !in ls[..i]
      && ValueCell.RemoveListener(c, Fn(f)).cell.listeners == ls[..i] + ls[i + 1..];
    assert i == |ls| - 1;
    assert ls[..i] + ls[i + 1..] == ls[..|ls| - 1];
  }

  lemma {:induction false} DisconnectFromUnwires(m: Multi, i: nat, wired: seq<Cell>)
    requires i <= |m.sources| == |wired|
    requires Wired(m.(sources := wired))
    requires forall j :: 0 <= j < i ==> m.sources[j] == Unwired(wired)[j]
    requires forall j :: i <= j < |wired| ==> m.sources[j] == wired[j]
    ensures var r := DisconnectFrom(m, i).multi;
      && r == m.(sources := Unwired(wired))
    decreases |wired| - i
  {
    if i == |wired| {
      assert m.sources == Unwired(wired);
    } else {
      var w := m.(sources := wired);
      assert WiredAt(w, i);
      RemoveLastFeed(wired[i], ValueCell.Feed(m.epoch, i));
      var u := ValueCell.RemoveListener(m.sources[i], HandleAt(m.handles, i));
      DisconnectFromUnwires(m.(sources := m.sources[i := u.cell]), i + 1, wired);
    }
  }

  /** `__disconnect()` while the aggregate counts as having listeners takes
      every closure off its source, leaving the sources as they were before
      the connection, carrying no aggregate closure. */
  lemma DisconnectUnwires(m: Multi)
    requires Wired(m)
    ensures var r := Disconnect(m, true).multi;
      && r == m.(sources := Unwired(m.sources), handles := [])
      && Detached(r.sources)
  {
    DisconnectFromUnwires(m, 0, m.sources);
    forall j | 0 <= j < |m.sources|
      ensures NoFeed(Unwired(m.sources)[j].listeners)
    {
      assert WiredAt(m, j);
    }
  }

  /** Connecting and then disconnecting gives the sources back exactly. */
  lemma DisconnectUndoesConnect(m: Multi)
    requires Detached(m.sources) && m.handles == []
    ensures Disconnect(Connect(m).multi, true).multi.sources == m.sources
  {
    var c := Connect(m).multi;
    ConnectWires(m);
    DisconnectUnwires(c);
    assert Unwired(Subscribed(m.sources, c.epoch)) == m.sources;
  }

  // ---------------------------------------------------------------------------
  // The aggregate's own operations

  /** `addListener(func, run)` on the aggregate. As for every cell, but the
      demand hook of the first listener is `onListener(true)`, which runs
      `__connect()` before the listener is pushed; the closures it runs
      recompute the aggregate while no listener is there to hear it. With
      `run` the new listener is then called with the stored value. */
  function AddListener(m: Multi, f: Callable<Listener>, run: bool): (r: MStep)
    ensures f.NotFn? ==> r == MStep(m, [On(Aggregate, ValueCell.Warning)])
    ensures f.Fn? ==> r.multi.agg.listeners == m.agg.listeners + [f.f]
  {
    match f
    case NotFn => MStep(m, [On(Aggregate, ValueCell.Warning)])
    case Fn(l) =>
      var first := !ValueCell.HasListener(m.agg);
      var c := if first then Connect(m) else MStep(m, []);
      var hook := if first then [On(Aggregate, ValueCell.Demand(true))] + c.events else [];
      var m1 := c.multi.(agg := c.multi.agg.(listeners := c.multi.agg.listeners + [l]));
      var call := if run then Tag(Aggregate, ValueCell.RunNow(l, m1.agg.value)) else [];
      MStep(m1, hook + call)
  }

  /** `removeListener(func)` on the aggregate. As for every cell, but when
      the last listener goes, `onListener(false)` runs `__disconnect()`
      while the aggregate still counts as having listeners, so every closure
      is taken off its source. */
  function RemoveListener(m: Multi, f: Callable<Listener>): (r: MStep)
    ensures r.multi.agg == ValueCell.RemoveListener(m.agg, f).cell
  {
    var u := ValueCell.RemoveListener(m.agg, f);
    var m1 := m.(agg := u.cell);
    if ValueCell.HasListener(m.agg) && !ValueCell.HasListener(u.cell) then
      var d := Disconnect(m1, true);
      MStep(d.multi, Tag(Aggregate, u.events) + d.events)
    else
      MStep(m1, Tag(Aggregate, u.events))
  }

  /** The `multiReadFunction` setter: only a function is taken, and with
      listeners the aggregate's `set` is fed the new reduction of the
      buffer. */
  function SetRead(m: Multi, f: Callable<Reader>): (r: MStep)
    ensures f.NotFn? ==> r == MStep(m, [On(Aggregate, ValueCell.Warning)])
    ensures f.Fn? ==> r.multi.read == f.f
  {
    match f
    case NotFn => MStep(m, [On(Aggregate, ValueCell.Warning)])
    case Fn(g) =>
      if ValueCell.HasListener(m.agg) then
        var s := ValueCell.Set(m.agg, g(m.buffer));
        MStep(m.(read := g, agg := s.cell), Tag(Aggregate, s.events))
      else
        MStep(m.(read := g), [])
  }

  /** The `multiWriteFunction` setter: only a function is taken. */
  function SetWrite(m: Multi, f: Callable<Writer>): (r: MStep)
    ensures f.NotFn? ==> r == MStep(m, [On(Aggregate, ValueCell.Warning)])
    ensures f.Fn? ==> r == MStep(m.(write := f.f), [])
  {
    match f
    case NotFn => MStep(m, [On(Aggregate, ValueCell.Warning)])
    case Fn(g) => MStep(m.(write := g), [])
  }

  /** The argument of the `values` setter: not an array, or an array whose
      entries are cells (`Some`) or something else (`None`). */
  datatype SourcesArg = NotArray | Elements(items: seq<Option<Cell>>)

  predicate AllValues(items: seq<Option<Cell>>)
  {
    forall k :: 0 <= k < |items| ==> items[k].Some?
  }

  function Cells(items: seq<Option<Cell>>): (cs: seq<Cell>)
    requires AllValues(items)
    ensures |cs| == |items|
    ensures forall k :: 0 <= k < |items| ==> cs[k] == items[k].value
  {
    seq(|items|, k requires 0 <= k < |items| => items[k].value)
  }

  /** The result of the `values` setter: the new world, the trace, and the
      replaced sources as the disconnection left them. */
  datatype Swap = Swap(multi: Multi, events: seq<Traced>, detached: seq<Cell>)

  /** The `values` setter, with or without cutting the buffer down to the
      new number of sources. */
  function SwapSources(m: Multi, arg: SourcesArg, cut: bool): (r: Swap)
  {
    match arg
    case NotArray => Swap(m, [On(Aggregate, ValueCell.Warning)], [])
    case Elements(items) =>
      if !AllValues(items) then Swap(m, [On(Aggregate, ValueCell.Warning)], [])
      else
        var active := ValueCell.HasListener(m.agg);
        var d := Disconnect(m, active);
        var cells := Cells(items);
        var b := if cut && |cells| < |d.multi.buffer| then d.multi.buffer[..|cells|] else d.multi.buffer;
        var m1 := d.multi.(sources := cells, buffer := b);
        var c := if active then Connect(m1) else MStep(m1, []);
        Swap(c.multi, d.events + c.events, d.multi.sources)
  }

  /** The `values` setter as written: an argument that is not an array, or
      holds something that is not a value, draws a warning and changes
      nothing; otherwise the aggregate disconnects, takes the new sources
      and, with listeners, connects to them. The buffer keeps every entry it
      had, including those of sources that are gone. */
  function SetValuesAsWritten(m: Multi, arg: SourcesArg): (r: Swap)
    ensures !(arg.Elements? && AllValues(arg.items)) ==> r == Swap(m, [On(Aggregate, ValueCell.Warning)], [])
  {
    SwapSources(m, arg, false)
  }

  /** The `values` setter as evidently intended: the same, except that the
      buffer is cut down to the new number of sources before reconnecting,
      so no entry of a replaced source survives. */
  function SetValues(m: Multi, arg: SourcesArg): (r: Swap)
    ensures !(arg.Elements? && AllValues(arg.items)) ==> r == Swap(m, [On(Aggregate, ValueCell.Warning)], [])
  {
    SwapSources(m, arg, true)
  }

  /** The reductions of a bare `ValueMulti`: reading gives `undefined`,
      writing fills nothing. */
  function NoRead(): Reader
  {
    b => None
  }

  function NoWrite(): Writer
  {
    (v, c, b, n) => []
  }

  /** `new ValueMulti(values, readFunc, writeFunc)`: an aggregate with no
      value, no listeners and no sources, then each argument given is passed
      to its setter. */
  function New(values: Option<SourcesArg>, read: Option<Callable<Reader>>, write: Option<Callable<Writer>>): (r: MStep)
    ensures r.multi.agg.value == None && r.multi.agg.listeners == [] && r.multi.handles == []
    ensures forall v :: r.multi.agg.limiter(v) == v
    ensures values.Some? && values.value.Elements? && AllValues(values.value.items) ==>
      r.multi.sources == Cells(values.value.items) && r.multi.buffer == []
    ensures !(values.Some? && values.value.Elements? && AllValues(values.value.items)) ==> r.multi.sources == []
    ensures read.Some? && read.value.Fn? ==> r.multi.read == read.value.f
    ensures !(read.Some? && read.value.Fn?) ==> forall b :: r.multi.read(b) == None
    ensures write.Some? && write.value.Fn? ==> r.multi.write == write.value.f
  {
    var m0 := Multi(ValueCell.Cell(None, ValueCell.Identity(), []), [], [], [], 0, NoRead(), NoWrite());
    var a := if values.Some? then SetValues(m0, values.value) else Swap(m0, [], []);
    var b := if read.Some? then SetRead(a.multi, read.value) else MStep(a.multi, []);
    var c := if write.Some? then SetWrite(b.multi, write.value) else MStep(b.multi, []);
    MStep(c.multi, a.events + b.events + c.events)
  }

  // ---------------------------------------------------------------------------
  // One invariant for every operation

  /** The state of an aggregate without listeners: no source carries an
      aggregate closure, no handle is kept, and the buffer has no entry past
      the last source. */
  ghost predicate Resting(m: Multi)
  {
    && !ValueCell.HasListener(m.agg)
    && Detached(m.sources)
    && m.handles == []
    && |m.buffer| <= |m.sources|
  }

  /** An aggregate over at least one source, whose reductions pass its
      limiter, that is coherent while it has listeners and resting while it
      has none. */
  ghost predicate Valid(m: Multi)
  {
    && |m.sources| > 0
    && Passes(m)
    && (if ValueCell.HasListener(m.agg) then Coherent(m) else Resting(m))
  }

  /** `get` on a valid aggregate answers the reduction of the values its
      sources hold, whether it has listeners (and answers from its cache) or
      not (and polls). */
  lemma GetIsPolled(m: Multi)
    requires Valid(m)
    ensures Get(m) == m.read(Polled(m))
  {
    if ValueCell.HasListener(m.agg) {
      CachedIsPolled(m);
    }
  }

  /** A write to a source of a resting aggregate reaches no aggregate
      closure: only the source changes. */
  lemma WriteSourceWhileResting(m: Multi, i: nat, x: Option<Number>)
    requires Resting(m) && i < |m.sources|
    ensures var r := WriteSource(m, i, x).multi;
      && r == m.(sources := m.sources[i := ValueCell.Set(m.sources[i], x).cell])
      && Resting(r)
  {
    var s := ValueCell.Set(m.sources[i], x);
    var m1 := m.(sources := m.sources[i := s.cell]);
    forall k | 0 <= k < |s.events| && s.events[k].Called?
      ensures !s.events[k].listener.Feed?
    {
      ValueCell.RecipientsCalled(s.events, s.events[k].listener);
      var j :| 0 <= j < |m.sources[i].listeners| && m.sources[i].listeners[j] == s.events[k].listener;
    }
    DeliverFeeds(m1, i, s.events, s.cell.value);
  }

  lemma {:induction false} SetFromWhileResting(m: Multi, out: seq<Option<Number>>, i: nat)
    requires Resting(m) && i <= |m.sources|
    ensures var r := SetFrom(m, out, i).multi;
      && Resting(r)
      && r == m.(sources := r.sources)
      && |r.sources| == |m.sources|
      && (forall j :: 0 <= j < i ==> r.sources[j] == m.sources[j])
      && (forall j :: i <= j < |m.sources| ==> r.sources[j] == ValueCell.Set(m.sources[j], OutAt(out, j)).cell)
    decreases |m.sources| - i
  {
    if i < |m.sources| {
      var one := WriteSource(m, i, OutAt(out, i));
      WriteSourceWhileResting(m, i, OutAt(out, i));
      SetFromWhileResting(one.multi, out, i + 1);
    }
  }

  /** A write to one source keeps a valid aggregate valid. */
  lemma WriteSourceKeepsValid(m: Multi, i: nat, x: Option<Number>)
    requires Valid(m) && i < |m.sources|
    ensures var r := WriteSource(m, i, x).multi;
      && Valid(r)
      && r.sources == m.sources[i := ValueCell.Set(m.sources[i], x).cell]
  {
    if ValueCell.HasListener(m.agg) {
      WriteSourceKeepsCoherent(m, i, x);
    } else {
      WriteSourceWhileResting(m, i, x);
    }
  }

  /** A write to the aggregate keeps it valid, and every source ends with
      what its own `set` makes of the write reduction's output for it. */
  lemma SetKeepsValid(m: Multi, v: Option<Number>)
    requires Valid(m)
    ensures var out := Outputs(m, v);
      var r := Set(m, v).multi;
      && Valid(r)
      && |r.sources| == |m.sources|
      && forall j :: 0 <= j < |m.sources| ==> r.sources[j] == ValueCell.Set(m.sources[j], OutAt(out, j)).cell
  {
    if ValueCell.HasListener(m.agg) {
      SetKeepsCoherent(m, v);
    } else {
      SetFromWhileResting(m, Outputs(m, v), 0);
    }
  }

  /** Adding a listener keeps a valid aggregate valid; the first one
      connects it, leaving every source subscribed once. */
  lemma AddListenerKeepsValid(m: Multi, f: Callable<Listener>, run: bool)
    requires Valid(m)
    ensures var r := AddListener(m, f, run).multi;
      && Valid(r)
      && (f.Fn? && !ValueCell.HasListener(m.agg) ==> Unwired(r.sources) == m.sources && r.agg.listeners == [f.f])
  {
    var r := AddListener(m, f, run).multi;
    if f.Fn? && !ValueCell.HasListener(m.agg) {
      var c := Connect(m).multi;
      ConnectWires(m);
      WiredFrame(c, r);
      assert Unwired(Subscribed(m.sources, c.epoch)) == m.sources;
    } else if f.Fn? {
      WiredFrame(m, r);
    }
  }

  /** Removing a listener keeps a valid aggregate valid; removing the last
      one disconnects it, giving every source its earlier listener list
      back. */
  lemma RemoveListenerKeepsValid(m: Multi, f: Callable<Listener>)
    requires Valid(m)
    ensures var r := RemoveListener(m, f).multi;
      && Valid(r)
      && (ValueCell.HasListener(m.agg) && !ValueCell.HasListener(r.agg) ==> r.sources == Unwired(m.sources))
  {
    var u := ValueCell.RemoveListener(m.agg, f);
    var m1 := m.(agg := u.cell);
    if ValueCell.HasListener(m.agg) {
      WiredFrame(m, m1);
      if !ValueCell.HasListener(u.cell) {
        DisconnectUnwires(m1);
      }
    }
  }

  /** Connecting on the first listener and disconnecting on the last gives
      the sources back exactly. */
  lemma FirstAndLastListener(m: Multi, l: Listener, run: bool)
    requires Valid(m) && !ValueCell.HasListener(m.agg)
    ensures var a := AddListener(m, Fn(l), run).multi;
      var r := RemoveListener(a, Fn(l)).multi;
      && ValueCell.HasListener(a.agg) && !ValueCell.HasListener(r.agg)
      && r.sources == m.sources && Valid(r)
  {
    var a := AddListener(m, Fn(l), run).multi;
    AddListenerKeepsValid(m, Fn(l), run);
    RemoveListenerKeepsValid(a, Fn(l));
    assert a.agg.listeners == [l];
    assert ValueCell.RemoveListener(a.agg, Fn(l)).cell.listeners == [];
  }

  /** A new read reduction that passes the limiter keeps a valid aggregate
      valid: with listeners, the stored value is recomputed from the
      buffer. */
  lemma SetReadKeepsValid(m: Multi, g: Reader)
    requires Valid(m) && Passes(m.(read := g))
    ensures Valid(SetRead(m, Fn(g)).multi)
  {
    var r := SetRead(m, Fn(g)).multi;
    if ValueCell.HasListener(m.agg) {
      WiredFrame(m, r);
    }
  }

  lemma SetWriteKeepsValid(m: Multi, f: Callable<Writer>)
    requires Valid(m)
    ensures Valid(SetWrite(m, f).multi)
  {
    var r := SetWrite(m, f).multi;
    if f.Fn? && ValueCell.HasListener(m.agg) {
      WiredFrame(m, r);
    }
  }

  /** Replacing the sources by cells that carry no aggregate closure keeps
      a valid aggregate valid: the old sources are handed back with the
      aggregate's closures taken off, and with listeners the new ones are
      subscribed and the buffer and the stored value follow them. */
  lemma SetValuesKeepsValid(m: Multi, items: seq<Option<Cell>>)
    requires Valid(m) && AllValues(items) && |items| > 0 && Detached(Cells(items))
    ensures var r := SetValues(m, Elements(items));
      && Valid(r.multi)
      && (ValueCell.HasListener(m.agg) ==> Unwired(r.multi.sources) == Cells(items))
      && (!ValueCell.HasListener(m.agg) ==> r.multi.sources == Cells(items))
      && (forall k :: 0 <= k < |items| ==> r.multi.sources[k].value == items[k].value.value)
      && r.multi.read == m.read && r.multi.write == m.write
      && Detached(r.detached)
      && r.detached == if ValueCell.HasListener(m.agg) then Unwired(m.sources) else m.sources
  {
    if ValueCell.HasListener(m.agg) {
      SetValuesWhileCoherent(m, items);
    } else {
      SetValuesWhileResting(m, items);
    }
  }

  /** The `values` setter on an aggregate with listeners: the old sources
      come off, the new ones are subscribed, and the buffer is refilled
      from them. */
  lemma SetValuesWhileCoherent(m: Multi, items: seq<Option<Cell>>)
    requires Valid(m) && ValueCell.HasListener(m.agg) && AllValues(items) && |items| > 0 && Detached(Cells(items))
    ensures var r := SetValues(m, Elements(items));
      && Valid(r.multi)
      && Unwired(r.multi.sources) == Cells(items)
      && (forall k :: 0 <= k < |items| ==> r.multi.sources[k].value == items[k].value.value)
      && r.multi.read == m.read && r.multi.write == m.write
      && Detached(r.detached)
      && r.detached == Unwired(m.sources)
  {
    var d := Disconnect(m, true);
    var cells := Cells(items);
    DisconnectUnwires(m);
    var b := if |cells| < |d.multi.buffer| then d.multi.buffer[..|cells|] else d.multi.buffer;
    var m1 := d.multi.(sources := cells, buffer := b);
    var c := Connect(m1).multi;
    PassesFrame(m, m1);
    ConnectWires(m1);
    assert Unwired(Subscribed(cells, c.epoch)) == cells;
  }

  /** The `values` setter on an aggregate without listeners: the new
      sources simply replace the old. */
  lemma SetValuesWhileResting(m: Multi, items: seq<Option<Cell>>)
    requires Valid(m) && !ValueCell.HasListener(m.agg) && AllValues(items) && |items| > 0 && Detached(Cells(items))
    ensures var r := SetValues(m, Elements(items));
      && Valid(r.multi)
      && r.multi.sources == Cells(items)
      && r.multi.read == m.read && r.multi.write == m.write
      && Detached(r.detached)
      && r.detached == m.sources
  {
    var r := SetValues(m, Elements(items)).multi;
    assert r.read == m.read && r.agg == m.agg;
  }

  /** After the `values` setter, `get` answers the read reduction of the
      numbers the new sources hold. */
  lemma SetValuesThenGet(m: Multi, items: seq<Option<Cell>>)
    requires Valid(m) && AllValues(items) && |items| > 0 && Detached(Cells(items))
    ensures Get(SetValues(m, Elements(items)).multi) == m.read(Held(Cells(items)))
  {
    var r := SetValues(m, Elements(items)).multi;
    SetValuesKeepsValid(m, items);
    GetIsPolled(r);
    assert Polled(r) == Held(Cells(items));
  }

  /** The `values` setter as written, on an aggregate with listeners and two
      sources given a single new one: the buffer keeps the second old
      entry, so `get` answers the reduction of the new source's number
      together with that stale entry, not the reduction of the sources. */
  lemma SetValuesAsWrittenKeepsStaleEntry(m: Multi, c: Cell)
    requires Valid(m) && ValueCell.HasListener(m.agg) && |m.sources| == 2 && NoFeed(c.listeners)
    ensures var r := SetValuesAsWritten(m, Elements([Some(c)])).multi;
      && Polled(r) == [ToNumber(c.value)]
      && r.buffer == [ToNumber(c.value), m.buffer[1]]
      && Get(r) == m.read([ToNumber(c.value), m.buffer[1]])
  {
    var d := Disconnect(m, true);
    DisconnectUnwires(m);
    var cells := Cells([Some(c)]);
    assert cells == [c];
    var m1 := d.multi.(sources := cells);
    ConnectWires(m1);
    var r := Connect(m1).multi;
    assert r.buffer == [ToNumber(c.value), m.buffer[1]];
  }

  /** An aggregate built over at least one source carrying no aggregate
      closure, with a read reduction that is always defined, starts valid. */
  lemma NewIsValid(items: seq<Option<Cell>>, g: Reader, w: Writer)
    requires AllValues(items) && |items| > 0 && Detached(Cells(items))
    requires forall b :: g(b).Some?
    ensures Valid(New(Some(Elements(items)), Some(Fn(g)), Some(Fn(w))).multi)
  {
  }
}

=== FILE: value_number.dfy ===
/** The two numeric aggregates of src/valueNumber.js, `ValueSum` and
    `ValueAverage`: their read reductions (buffer to value) and write
    reductions (target value to one output per source), and the laws that
    make a write land on its target. */
module ValueNumber {
  import opened Wrappers
  import opened JsNumber
  import ValueCell
  import ValueMulti

  // ---------------------------------------------------------------------------
  // Reference arithmetic over reals

  /** The mathematical sum of a list of reals. */
  function Total(xs: seq<real>): real
  {
    if |xs| == 0 then 0.0 else xs[0] + Total(xs[1..])
  }

  lemma {:induction false} TotalSnoc(xs: seq<real>, x: real)
    ensures Total(xs + [x]) == Total(xs) + x
  {
    if |xs| == 0 {
      assert xs + [x] == [x];
    } else {
      assert (xs + [x])[1..] == xs[1..] + [x];
      TotalSnoc(xs[1..], x);
    }
  }

  /** Every entry is a number (none is `NaN`). */
  predicate Finite(vals: seq<Number>)
  {
    forall i :: 0 <= i < |vals| ==> vals[i].Num?
  }

  /** The reals of a list of numbers. */
  function Reals(vals: seq<Number>): (xs: seq<real>)
    requires Finite(vals)
    ensures |xs| == |vals|
    ensures forall i :: 0 <= i < |vals| ==> xs[i] == vals[i].r
  {
    if |vals| == 0 then [] else [vals[0].r] + Reals(vals[1..])
  }

  /** The values a write reduction hands to the sources, as numbers. */
  function Values(out: seq<Option<Number>>): (vals: seq<Number>)
    ensures |vals| == |out|
    ensures forall i :: 0 <= i < |out| ==> vals[i] == ToNumber(out[i])
  {
    if |out| == 0 then [] else [ToNumber(out[0])] + Values(out[1..])
  }

  // ---------------------------------------------------------------------------
  // ValueSum

  /** The sum loop: starting from 0, each entry is added in turn, left to right. */
  function Sum(vals: seq<Number>): Number
    decreases |vals|
  {
    if |vals| == 0 then Num(0.0) else Add(Sum(vals[..|vals| - 1]), vals[|vals| - 1])
  }

  lemma RealsSnoc(vals: seq<Number>)
    requires |vals| > 0 && Finite(vals)
    ensures Finite(vals[..|vals| - 1])
    ensures Reals(vals) == Reals(vals[..|vals| - 1]) + [vals[|vals| - 1].r]
  {
    var init := vals[..|vals| - 1];
    assert Finite(init) by {
      forall i | 0 <= i < |init|
        ensures init[i].Num?
      {
        assert init[i] == vals[i];
      }
    }
    var xs := Reals(init) + [vals[|vals| - 1].r];
    forall i | 0 <= i < |vals|
      ensures Reals(vals)[i] == xs[i]
    {
      if i < |init| {
        assert init[i] == vals[i];
      }
    }
  }

  /** The loop gives the mathematical total when every entry is a number,
      `NaN` as soon as one is not, and 0 for an empty buffer. */
  lemma {:induction false} SumIsTotal(vals: seq<Number>)
    ensures Finite(vals) ==> Sum(vals) == Num(Total(Reals(vals)))
    ensures !Finite(vals) ==> Sum(vals) == NaN
    decreases |vals|
  {
    if |vals| > 0 {
      var init := vals[..|vals| - 1];
      var last := vals[|vals| - 1];
      SumIsTotal(init);
      if Finite(vals) {
        RealsSnoc(vals);
        TotalSnoc(Reals(init), last.r);
      } else {
        assert !Finite(init) || !last.Num?;
      }
    }
  }

  /** `ValueSum.__multiFuncRead`. */
  function SumRead(vals: seq<Number>): Option<Number>
  {
    Some(Sum(vals))
  }

  /** `ValueSum.__multiFuncWrite(value, values, valuesBuffer)`: the change
      `value - cached` is split evenly over the `n` sources, each output
      being that source's buffered value plus the share. */
  function SumWrite(target: Option<Number>, cached: Option<Number>, buffer: seq<Number>, n: nat): (out: seq<Option<Number>>)
    ensures |out| == n
    ensures forall i :: 0 <= i < n ==> out[i].Some?
  {
    var share := DivCount(Sub(ToNumber(target), ToNumber(cached)), n);
    seq(n, i requires 0 <= i < n => Some(Add(At(buffer, i), share)))
  }

  // ---------------------------------------------------------------------------
  // ValueAverage

  /** `ValueAverage.__multiFuncRead`: the sum divided by the count; an empty
      buffer gives 0/0, which is `NaN`. */
  function AverageRead(vals: seq<Number>): Option<Number>
  {
    Some(DivCount(Sum(vals), |vals|))
  }

  /** The average is the mean of the numbers, and `NaN` when there are
      none or one of them is not a number. */
  lemma AverageIsMean(vals: seq<Number>)
    ensures |vals| > 0 && Finite(vals) ==> AverageRead(vals) == Some(Num(Total(Reals(vals)) / |vals| as real))
    ensures |vals| == 0 || !Finite(vals) ==> AverageRead(vals) == Some(NaN)
  {
    SumIsTotal(vals);
  }

  /** `ValueAverage.__multiFuncWrite` as evidently intended: the full change
      `value - cached`, not a share of it, is added to every buffered value,
      which moves the average by exactly that change. */
  function AverageWrite(target: Option<Number>, cached: Option<Number>, buffer: seq<Number>, n: nat): (out: seq<Option<Number>>)
    ensures |out| == n
    ensures forall i :: 0 <= i < n ==> out[i].Some?
  {
    var change := Sub(ToNumber(target), ToNumber(cached));
    seq(n, i requires 0 <= i < n => Some(Add(At(buffer, i), change)))
  }

  /** What a JavaScript write reduction does: fill the output array, or
      throw. */
  datatype Written = Wrote(out: seq<Option<Number>>) | ReferenceError

  /** `ValueAverage.__multiFuncWrite` as written: its parameter list stops
      at `values`, so the loop body reads `valuesBuffer`, a name bound
      nowhere, and throws on the first iteration. Only a write to an average
      over no sources gets through. */
  function AverageWriteAsWritten(target: Option<Number>, cached: Option<Number>, buffer: seq<Number>, n: nat): (w: Written)
    ensures w.ReferenceError? <==> n > 0
    ensures w.Wrote? ==> w.out == []
  {
    if n == 0 then Wrote([]) else ReferenceError
  }

  // ---------------------------------------------------------------------------
  // Writes land on their target

  /** `d` added up `k` times. */
  function Times(k: nat, d: real): real
  {
    if k == 0 then 0.0 else d + Times(k - 1, d)
  }

  lemma {:induction false} TimesIsProduct(k: nat, d: real)
    ensures Times(k, d) == k as real * d
  {
    if k > 0 {
      TimesIsProduct(k - 1, d);
    }
  }

  /** `n` shares of `x / n` make `x`. */
  lemma SharesMakeWhole(x: real, n: nat)
    requires n > 0
    ensures Times(n, x / n as real) == x
  {
    TimesIsProduct(n, x / n as real);
  }

  /** Moving every one of `n` values by `t - s / n` moves their total `s`
      to `n * t`, so their average to `t`. */
  lemma AverageOfShift(s: real, t: real, n: nat)
    requires n > 0
    ensures (s + Times(n, t - s / n as real)) / n as real == t
  {
    TimesIsProduct(n, t - s / n as real);
    var m := n as real;
    assert m * (s / m) == s;
    assert s + m * (t - s / m) == m * t;
  }

  /** Adding `d` to every entry adds `d` to the total once per entry. */
  lemma {:induction false} TotalShift(xs: seq<real>, ys: seq<real>, d: real)
    requires |ys| == |xs|
    requires forall i :: 0 <= i < |xs| ==> ys[i] == xs[i] + d
    ensures Total(ys) == Total(xs) + Times(|xs|, d)
    decreases |xs|
  {
    if |xs| > 0 {
      TotalShift(xs[1..], ys[1..], d);
    }
  }

  /** The sum of a buffer with `d` added to every entry. */
  lemma SumShifted(buffer: seq<Number>, vals: seq<Number>, d: real)
    requires Finite(buffer) && |vals| == |buffer|
    requires forall i :: 0 <= i < |vals| ==> vals[i] == Num(buffer[i].r + d)
    ensures Sum(vals) == Num(Total(Reals(buffer)) + Times(|buffer|, d))
  {
    assert Finite(vals);
    TotalShift(Reals(buffer), Reals(vals), d);
    SumIsTotal(vals);
  }

  /** Output `i` of a sum write, for a numeric buffered value. */
  lemma SumWriteEntry(t: real, c: real, buffer: seq<Number>, n: nat, i: nat)
    requires i < n && At(buffer, i).Num?
    ensures SumWrite(Some(Num(t)), Some(Num(c)), buffer, n)[i] == Some(Num(At(buffer, i).r + (t - c) / n as real))
  {
  }

  /** Output `i` of an average write, for a numeric buffered value. */
  lemma AverageWriteEntry(t: real, c: real, buffer: seq<Number>, n: nat, i: nat)
    requires i < n && At(buffer, i).Num?
    ensures AverageWrite(Some(Num(t)), Some(Num(c)), buffer, n)[i] == Some(Num(At(buffer, i).r + (t - c)))
  {
  }

  /** A sum write moves every source by the same amount, and the `n` equal
      moves add up to the change of the aggregate. */
  lemma SumWriteSharesEvenly(t: real, c: real, buffer: seq<Number>, n: nat)
    requires forall i :: 0 <= i < n ==> At(buffer, i).Num?
    ensures var out := SumWrite(Some(Num(t)), Some(Num(c)), buffer, n);
      forall i, j :: 0 <= i < n && 0 <= j < n ==>
        out[i].value.Num? && out[i].value.r - At(buffer, i).r == out[j].value.r - At(buffer, j).r
    ensures var out := SumWrite(Some(Num(t)), Some(Num(c)), buffer, n);
      forall i :: 0 <= i < n ==> Times(n, out[i].value.r - At(buffer, i).r) == t - c
  {
    var out := SumWrite(Some(Num(t)), Some(Num(c)), buffer, n);
    forall i | 0 <= i < n
      ensures out[i] == Some(Num(At(buffer, i).r + (t - c) / n as real))
      ensures Times(n, out[i].value.r - At(buffer, i).r) == t - c
    {
      SumWriteEntry(t, c, buffer, n, i);
      SharesMakeWhole(t - c, n);
    }
  }

  /** An average write moves every source by the same amount. */
  lemma AverageWriteShiftsAll(t: real, c: real, buffer: seq<Number>, n: nat)
    requires forall i :: 0 <= i < n ==> At(buffer, i).Num?
    ensures var out := AverageWrite(Some(Num(t)), Some(Num(c)), buffer, n);
      forall i, j :: 0 <= i < n && 0 <= j < n ==>
        out[i].value.Num? && out[i].value.r - At(buffer, i).r == out[j].value.r - At(buffer, j).r
  {
    var out := AverageWrite(Some(Num(t)), Some(Num(c)), buffer, n);
    forall i | 0 <= i < n
      ensures out[i] == Some(Num(At(buffer, i).r + (t - c)))
    {
      AverageWriteEntry(t, c, buffer, n, i);
    }
  }

  /** Outputs that move every buffered value by `d` sum to the buffer's
      total plus `d` once per entry. */
  lemma ShiftedOutputs(out: seq<Option<Number>>, buffer: seq<Number>, d: real)
    requires Finite(buffer) && |out| == |buffer|
    requires forall i :: 0 <= i < |out| ==> out[i] == Some(Num(buffer[i].r + d))
    ensures Sum(Values(out)) == Num(Total(Reals(buffer)) + Times(|buffer|, d))
  {
    SumShifted(buffer, Values(out), d);
  }

  /** The total a sum write hands out: the buffer's total plus `n` shares
      of the change. */
  lemma SumWriteTotal(t: real, c: real, buffer: seq<Number>)
    requires |buffer| > 0 && Finite(buffer)
    ensures var n := |buffer|;
      Sum(Values(SumWrite(Some(Num(t)), Some(Num(c)), buffer, n))) == Num(Total(Reals(buffer)) + Times(n, (t - c) / n as real))
  {
    var n := |buffer|;
    var d := (t - c) / n as real;
    var out := SumWrite(Some(Num(t)), Some(Num(c)), buffer, n);
    forall i | 0 <= i < n
      ensures out[i] == Some(Num(buffer[i].r + d))
    {
      SumWriteEntry(t, c, buffer, n, i);
    }
    ShiftedOutputs(out, buffer, d);
  }

  /** The total an average write hands out: the buffer's total plus the
      whole change once per source. */
  lemma AverageWriteTotal(t: real, c: real, buffer: seq<Number>)
    requires |buffer| > 0 && Finite(buffer)
    ensures var n := |buffer|;
      Sum(Values(AverageWrite(Some(Num(t)), Some(Num(c)), buffer, n))) == Num(Total(Reals(buffer)) + Times(n, t - c))
  {
    var n := |buffer|;
    var out := AverageWrite(Some(Num(t)), Some(Num(c)), buffer, n);
    forall i | 0 <= i < n
      ensures out[i] == Some(Num(buffer[i].r + (t - c)))
    {
      AverageWriteEntry(t, c, buffer, n, i);
    }
    ShiftedOutputs(out, buffer, t - c);
  }

  /** A sum write aimed at `t`, made while the cached value is the sum of
      the buffer, hands the sources values that sum to exactly `t`. */
  lemma SumWriteHitsTarget(t: real, buffer: seq<Number>)
    requires |buffer| > 0 && Finite(buffer)
    ensures var out := SumWrite(Some(Num(t)), SumRead(buffer), buffer, |buffer|);
      Sum(Values(out)) == Num(t)
  {
    var c := Total(Reals(buffer));
    SumIsTotal(buffer);
    SumWriteTotal(t, c, buffer);
    SharesMakeWhole(t - c, |buffer|);
  }

  /** An average write aimed at `t`, made while the cached value is the
      average of the buffer, hands the sources values whose average is
      exactly `t`. */
  lemma AverageWriteHitsTarget(t: real, buffer: seq<Number>)
    requires |buffer| > 0 && Finite(buffer)
    ensures var out := AverageWrite(Some(Num(t)), AverageRead(buffer), buffer, |buffer|);
      AverageRead(Values(out)) == Some(Num(t))
  {
    var n := |buffer|;
    var s := Total(Reals(buffer));
    var c := s / n as real;
    var vals := Values(AverageWrite(Some(Num(t)), Some(Num(c)), buffer, n));
    AverageIsMean(buffer);
    AverageWriteTotal(t, c, buffer);
    assert AverageRead(vals) == Some(DivCount(Sum(vals), n));
    AverageOfShift(s, t, n);
  }

  /** The sum of two numbers, as the loop adds them. */
  lemma SumOfTwo(a: real, b: real)
    ensures Sum([Num(a), Num(b)]) == Num(a + b)
  {
    assert [Num(a), Num(b)][..1] == [Num(a)];
    assert [Num(a)][..0] == [];
    assert Sum([Num(a)]) == Num(a);
  }

  /** Worked examples. A sum over sources 2 and 3 reads 5; writing 11
      moves each by (11 - 5) / 2 = 3, to 5 and 6. An average over 2 and 4
      reads 3; writing 7 adds 7 - 3 = 4 to each, giving 6 and 8. The
      average write as written throws instead. */
  lemma WorkedExamples()
    ensures SumRead([Num(2.0), Num(3.0)]) == Some(Num(5.0))
    ensures SumWrite(Some(Num(11.0)), Some(Num(5.0)), [Num(2.0), Num(3.0)], 2) == [Some(Num(5.0)), Some(Num(6.0))]
    ensures AverageRead([Num(2.0), Num(4.0)]) == Some(Num(3.0))
    ensures AverageWrite(Some(Num(7.0)), Some(Num(3.0)), [Num(2.0), Num(4.0)], 2) == [Some(Num(6.0)), Some(Num(8.0))]
    ensures AverageWriteAsWritten(Some(Num(7.0)), Some(Num(3.0)), [Num(2.0), Num(4.0)], 2) == ReferenceError
  {
    SumOfTwo(2.0, 3.0);
    SumOfTwo(2.0, 4.0);
  }

  // ---------------------------------------------------------------------------
  // The aggregates in their world

  /** The sources take every value as given (the default limiter). */
  ghost predicate PlainSources(m: ValueMulti.Multi)
  {
    forall j, v :: 0 <= j < |m.sources| ==> m.sources[j].limiter(v) == v
  }

  /** A `ValueSum`: the aggregate's reductions are the sum's. */
  ghost predicate SumOver(m: ValueMulti.Multi)
  {
    && (forall b :: m.read(b) == SumRead(b))
    && (forall v, c, b, n :: m.write(v, c, b, n) == SumWrite(v, c, b, n))
  }

  /** A `ValueAverage` with the write reduction as evidently intended. */
  ghost predicate AverageOver(m: ValueMulti.Multi)
  {
    && (forall b :: m.read(b) == AverageRead(b))
    && (forall v, c, b, n :: m.write(v, c, b, n) == AverageWrite(v, c, b, n))
  }

  /** On a valid aggregate, the write reduction is given what `get`
      answers and the numbers the sources hold, with or without
      listeners. */
  lemma OutputsFromPolled(m: ValueMulti.Multi, v: Option<Number>)
    requires ValueMulti.Valid(m)
    ensures ValueMulti.Outputs(m, v) == m.write(v, m.read(ValueMulti.Polled(m)), ValueMulti.Polled(m), |m.sources|)
  {
    if ValueCell.HasListener(m.agg) {
      assert m.buffer == ValueMulti.Polled(m);
    }
  }

  /** After a write whose outputs are all defined (an undefined one is
      vetoed), plain sources hold exactly those outputs. */
  lemma PlainSourcesTakeOutputs(m: ValueMulti.Multi, v: Option<Number>)
    requires ValueMulti.Valid(m) && PlainSources(m)
    requires forall j :: 0 <= j < |m.sources| ==> ValueMulti.OutAt(ValueMulti.Outputs(m, v), j).Some?
    ensures var r := ValueMulti.Set(m, v).multi;
      && ValueMulti.Valid(r) && r.read == m.read
      && |ValueMulti.Polled(r)| == |m.sources|
      && forall j :: 0 <= j < |m.sources| ==> ValueMulti.Polled(r)[j] == ToNumber(ValueMulti.OutAt(ValueMulti.Outputs(m, v), j))
  {
    var out := ValueMulti.Outputs(m, v);
    var r := ValueMulti.Set(m, v).multi;
    ValueMulti.SetKeepsValid(m, v);
    forall j | 0 <= j < |m.sources|
      ensures r.sources[j].value == ValueMulti.OutAt(out, j)
    {
      assert m.sources[j].limiter(ValueMulti.OutAt(out, j)) == ValueMulti.OutAt(out, j);
    }
  }

  /** A write to a valid aggregate over plain sources, whose reduction gives
      a defined output for every source: the sources then hold those
      outputs. */
  lemma PolledAfterSet(m: ValueMulti.Multi, v: Option<Number>, out: seq<Option<Number>>)
    requires ValueMulti.Valid(m) && PlainSources(m)
    requires ValueMulti.Outputs(m, v) == out && |out| == |m.sources|
    requires forall j :: 0 <= j < |out| ==> out[j].Some?
    ensures var r := ValueMulti.Set(m, v).multi;
      ValueMulti.Valid(r) && r.read == m.read && ValueMulti.Polled(r) == Values(out)
  {
    PlainSourcesTakeOutputs(m, v);
    var r := ValueMulti.Set(m, v).multi;
    assert forall j :: 0 <= j < |out| ==> ValueMulti.OutAt(out, j) == out[j];
    assert ValueMulti.Polled(r) == Values(out);
  }

  /** Writing `t` to a `ValueSum` over sources holding numbers, with or
      without listeners: the sources end up summing to `t`, and `get`
      answers `t`. */
  lemma SumAggregateHitsTarget(m: ValueMulti.Multi, t: real)
    requires ValueMulti.Valid(m) && SumOver(m) && PlainSources(m) && Finite(ValueMulti.Polled(m))
    ensures var r := ValueMulti.Set(m, Some(Num(t))).multi;
      && ValueMulti.Valid(r)
      && Sum(ValueMulti.Polled(r)) == Num(t)
      && ValueMulti.Get(r) == Some(Num(t))
  {
    var p := ValueMulti.Polled(m);
    OutputsFromPolled(m, Some(Num(t)));
    var out := SumWrite(Some(Num(t)), SumRead(p), p, |p|);
    PolledAfterSet(m, Some(Num(t)), out);
    SumWriteHitsTarget(t, p);
    ValueMulti.GetIsPolled(ValueMulti.Set(m, Some(Num(t))).multi);
  }

  /** Writing `t` to a `ValueAverage` (with the write reduction as evidently
      intended) over sources holding numbers: the sources end up averaging
      `t`, and `get` answers `t`. */
  lemma AverageAggregateHitsTarget(m: ValueMulti.Multi, t: real)
    requires ValueMulti.Valid(m) && AverageOver(m) && PlainSources(m) && Finite(ValueMulti.Polled(m))
    ensures var r := ValueMulti.Set(m, Some(Num(t))).multi;
      && ValueMulti.Valid(r)
      && AverageRead(ValueMulti.Polled(r)) == Some(Num(t))
      && ValueMulti.Get(r) == Some(Num(t))
  {
    var p := ValueMulti.Polled(m);
    OutputsFromPolled(m, Some(Num(t)));
    var out := AverageWrite(Some(Num(t)), AverageRead(p), p, |p|);
    PolledAfterSet(m, Some(Num(t)), out);
    AverageWriteHitsTarget(t, p);
    ValueMulti.GetIsPolled(ValueMulti.Set(m, Some(Num(t))).multi);
  }

  /** The aggregate's `set` as written, on a `ValueSum` that never had a
      listener: the stored value is undefined and the buffer empty, so every
      output is `NaN` and every plain source is set to `NaN`. */
  lemma SumSetAsWrittenBeforeListeners(items: seq<Option<ValueMulti.Cell>>, t: real)
    requires ValueMulti.AllValues(items) && |items| > 0 && ValueMulti.Detached(ValueMulti.Cells(items))
    requires forall j, v :: 0 <= j < |items| ==> items[j].value.limiter(v) == v
    ensures var m := ValueMulti.New(Some(ValueMulti.Elements(items)), Some(Fn(SumRead)), Some(Fn(SumWrite))).multi;
      var r := ValueMulti.SetAsWritten(m, Some(Num(t))).multi;
      && |r.sources| == |items|
      && forall j :: 0 <= j < |r.sources| ==> r.sources[j].value == Some(NaN)
  {
    var m := ValueMulti.New(Some(ValueMulti.Elements(items)), Some(Fn(SumRead)), Some(Fn(SumWrite))).multi;
    var n := |m.sources|;
    var out := SumWrite(Some(Num(t)), None, [], n);
    assert ValueMulti.SetAsWritten(m, Some(Num(t))) == ValueMulti.SetFrom(m, out, 0);
    ValueMulti.SetFromWhileResting(m, out, 0);
    var r := ValueMulti.SetAsWritten(m, Some(Num(t))).multi;
    forall j | 0 <= j < n
      ensures r.sources[j].value == Some(NaN)
    {
      assert m.sources[j] == items[j].value;
      assert ValueMulti.OutAt(out, j) == Some(NaN);
    }
  }

  /** The `values` setter as written, on a `ValueSum` with listeners over
      sources holding 2 and 3, given a single source holding 1: `get`
      answers 4, the 1 plus the stale 3, where the sources sum to 1. */
  lemma SumAfterShrinkingSourcesAsWritten(m: ValueMulti.Multi, c: ValueMulti.Cell)
    requires ValueMulti.Valid(m) && ValueCell.HasListener(m.agg) && SumOver(m)
    requires ValueMulti.Polled(m) == [Num(2.0), Num(3.0)]
    requires c.value == Some(Num(1.0)) && ValueMulti.NoFeed(c.listeners)
    ensures var r := ValueMulti.SetValuesAsWritten(m, ValueMulti.Elements([Some(c)])).multi;
      ValueMulti.Get(r) == Some(Num(4.0)) && Sum(ValueMulti.Polled(r)) == Num(1.0)
  {
    assert m.buffer == ValueMulti.Polled(m);
    ValueMulti.SetValuesAsWrittenKeepsStaleEntry(m, c);
    SumOfTwo(1.0, 3.0);
    assert Sum([Num(1.0)]) == Num(1.0);
  }

  /** The same with the buffer truncated, with or without listeners: `get`
      answers 1, the sum of the sources. */
  lemma SumAfterShrinkingSources(m: ValueMulti.Multi, c: ValueMulti.Cell)
    requires ValueMulti.Valid(m) && SumOver(m)
    requires c.value == Some(Num(1.0)) && ValueMulti.NoFeed(c.listeners)
    ensures ValueMulti.Get(ValueMulti.SetValues(m, ValueMulti.Elements([Some(c)])).multi) == Some(Num(1.0))
  {
    var items := [Some(c)];
    assert ValueMulti.Detached(ValueMulti.Cells(items)) by {
      assert ValueMulti.Cells(items) == [c];
    }
    ValueMulti.SetValuesThenGet(m, items);
    var ns := ValueMulti.Held(ValueMulti.Cells(items));
    assert ns == [Num(1.0)];
    assert m.read(ns) == SumRead([Num(1.0)]);
  }
}

=== FILE: wrappers.dfy ===
/** Small failure-carrying datatypes shared by every module of the model. */
module Wrappers {

  /** `None` stands for JavaScript's `undefined`: an absent value, an absent
      limiter result, a read past the end of an array. */
  datatype Option<+T> = None | Some(value: T)

  /** An argument the source checks with `typeof x === 'function'`: either a
      function, or any other value, which the source rejects with a warning. */
  datatype Callable<+F> = Fn(f: F) | NotFn
}
